=== FILE: README.md ===
# edu-ums records core in Dafny

A model of the server-side record-keeping core of the edu-ums academic
records service (Express + Mongoose). It covers:

- **Results:** marks, derived total and grade, per-student SGPA and per-subject class figures.
- **Attendance:** single marking, bulk marking, listings and their statistics.
- **Assignments and submissions:** create, list, cascade delete, submit once, grade.
- **Notifications:** broadcast and per-subject notices, read receipts and the unread badge.
- **Access:** the role and permission gates, the students-see-only-their-own-data check, and the gate chains of the attendance, result, notification and assignment routers.
- **Audit:** the audit trail with its side-channel writes, paged listing and grouped counts.
- **Validation and errors:** the request validators, and the mapping from error kinds to HTTP statuses.

The database is abstracted as follows:

- **Collections.** Each collection is a `Store.Collection<T>`: a finite map from document id (`nat`) to document, plus the next fresh id. Listings come back in ascending id order, which is creation order.
- **Unique indexes.** Each index becomes an invariant, for example `ResultsInvariant` or `AttendanceInvariant`. Every write operation is proved to preserve it.
- **Operations.** Each operation is a pure function from the current state and the request's inputs to a `Step(state, out)`. Here `out` is `Ok(value)` or `Err(kind)`, and the error kinds are BadRequest, Unauthorized, Forbidden, NotFound, Conflict and Internal. Constants.StatusCode maps each kind to its HTTP status.
- **Numbers and time.** Marks and ratios are exact `real`s. Time is an integer count of milliseconds, with `Common.Midnight` as the start of its day.
- **Callers.** The caller is an already-authenticated `User` (id, role, and a linked profile when the token carries one).
- **Side inputs.** The clock, uploaded file paths, the client IP and whether the audit write succeeds are all parameters.

Modules, one per source area:

| module | models |
|---|---|
| `Common` | shared types, days |
| `Store` | id-keyed collections, find, findOne, count |
| `Text` | trim, upper-casing |
| `Constants` | `config/constants.js` |
| `ErrorHandler` | `middleware/errorHandler.js` |
| `Validators` | `middleware/validators.js` |
| `Access` | `middleware/roleMiddleware.js` |
| `Routes` | the four routers |
| `Grading` | grade letters and points |
| `ResultStats` | student and class figures, SGPA |
| `Results` | the Result schema and controller |
| `Attendance` | the Attendance schema and controller |
| `Profiles` | the Student and Subject schemas, profile lookup |
| `Assignments` | the Assignment and Submission schemas and controller |
| `Notifications` | the Notification schema and controller |
| `Audit` | the AuditLog schema, `logAudit`, and the audit-log controller |
| `Layers` | where validators and schemas disagree |

## Model

| member | source | states |
|---|---|---|
| Constants.RolePermissions | config/constants.js:9-13 | Admin holds read, create, update, delete and manage_users. Faculty holds read, create and update. Student holds read. An unknown role holds nothing. |
| Constants.PermissionChain | config/constants.js:9-13 | The permission sets are strictly nested: unknown role ⊂ Student ⊂ Faculty ⊂ Admin. |
| Constants.StatusCode | config/constants.js:16-25 | Every error kind maps to a 4xx/5xx code, and the code is 5xx exactly for the internal error. |
| Constants.StatusCodesDistinct | config/constants.js:16-25 | Distinct error kinds get distinct codes, so 401, 403, 404 and 409 never collide. |
| Constants.KindOfStatus | config/constants.js:16-25 | This is the inverse of StatusCode. A returned kind maps back to the code, and no kind is returned only when no kind has that code. |
| Common.Midnight | controllers/attendanceController.js:32-36 | The start of the day lies at or before the instant, less than one day before it, and on a day boundary. |
| Common.SameDay | controllers/attendanceController.js:32-36 | Any instant in a day's window has that day's midnight. |
| Access.Authorize | middleware/roleMiddleware.js:9-21 | No caller gives Unauthorized. A role outside the list gives Forbidden. Otherwise the request passes. Each outcome holds exactly in its case. |
| Access.CheckPermission | middleware/roleMiddleware.js:27-40 | The request passes iff the caller's role holds the permission. No caller gives Unauthorized, and an unknown role is always Forbidden. |
| Access.AdminOnly | middleware/roleMiddleware.js:46 | Passes exactly an authenticated Admin. |
| Access.FacultyOrAdmin | middleware/roleMiddleware.js:52 | Passes exactly an authenticated Faculty or Admin. |
| Access.GatesMatchPermissions | middleware/roleMiddleware.js:46-52 | facultyOrAdmin decides like the create and update permissions. adminOnly decides like the delete and manage_users permissions. |
| Access.RestrictToOwnData | middleware/roleMiddleware.js:61-93 | Staff always pass, and so does a request without a student parameter. A student without a profile gets NotFound. A student who passes owns the requested record. The only refusals are Unauthorized, NotFound and Forbidden. |
| Access.OwnDataExact | middleware/roleMiddleware.js:79-90 | With unique profiles, a student with a profile passes iff the requested student record is theirs, and is Forbidden otherwise. |
| Routes.Chain | routes/attendanceRoutes.js:16 | Every route's chain starts with authentication. |
| Routes.StageDecision | routes/resultRoutes.js:16-53 | Authentication passes iff there is a caller. A role gate decides as `authorize`, and the own-data stage as `restrictToOwnData`. A validator stage passes iff the input is valid and otherwise refuses with 400. |
| Routes.Run | routes/resultRoutes.js:16-53 | An empty chain passes, and a chain whose first stage refuses returns that refusal. |
| Routes.RunFirstRefusal | routes/resultRoutes.js:16-53 | A chain passes iff every stage passes. A refusal is the decision of the first stage that refuses. |
| Routes.Guard | routes/notificationRoutes.js:18 | A request without a caller is refused with Unauthorized on every route. |
| Routes.EveryRouteAuthenticates | routes/assignmentRoutes.js:19 | No route of the four routers lets an unauthenticated request through. |
| Routes.GatedChain | routes/attendanceRoutes.js:16-53 | With a caller and valid input, a role-gated chain decides exactly as `authorize`. The own-data chain decides as `restrictToOwnData`, and a validator-only chain passes. |
| Routes.RoleGated | routes/attendanceRoutes.js:22-28 | A route gated by roles and a validator passes a caller with valid input iff their role is listed. |
| Routes.RoleGatedOnly | routes/resultRoutes.js:28 | A route gated by roles alone passes a caller with valid input iff their role is listed. |
| Routes.RefusedInput | routes/resultRoutes.js:22 | A permitted caller with invalid input is refused with 400 by a validated route, but passes a route without a validator. |
| Routes.AttendancePolicy | routes/attendanceRoutes.js:22-53 | Staff alone mark, bulk-mark, list by subject and update. Only Admin deletes. The per-student view decides as `restrictToOwnData`. |
| Routes.ResultPolicy | routes/resultRoutes.js:22-53 | Staff alone add, bulk-add, update and list by subject. Only Admin deletes. The per-student view decides as `restrictToOwnData`. |
| Routes.BulkMarksUnvalidated | routes/resultRoutes.js:22-47 | Invalid input from staff passes the bulk-add gates but is refused with 400 by the add and update routes. |
| Routes.NoticeReadingPolicy | routes/notificationRoutes.js:21-24 | The inbox, the unread count, read-all and read-one are open exactly to students. |
| Routes.NoticeSendingPolicy | routes/notificationRoutes.js:27-34 | A broadcast is Admin-only and a subject notice Faculty-only. Listing sent notices and deleting are open exactly to staff. |
| Routes.AssignmentStudentPolicy | routes/assignmentRoutes.js:22-60 | my-assignments, submit and my-submission are open exactly to students. |
| Routes.AnyoneViewsAssignment | routes/assignmentRoutes.js:42 | Any authenticated caller with a well-formed id may view one assignment. |
| Routes.AssignmentStaffPolicy | routes/assignmentRoutes.js:29-45 | Create, list and delete are open exactly to staff. |
| Routes.GradingPolicy | routes/assignmentRoutes.js:57-68 | Viewing submissions and grading are open exactly to staff. |
| Routes.StudentsNeverWrite | routes/attendanceRoutes.js:22-53 | A student is Forbidden on every route that writes attendance, results or notices, and on creating, deleting and grading assignments. |
| ErrorHandler.Handle | middleware/errorHandler.js:19-88 | A CORS rejection gives 403, overriding everything else. Next, a Multer error gives 400, a duplicate key (11000) 409, token errors 401, and cast or validation errors 400. Any other error keeps its own non-zero status, or 500. In production a non-operational error shows only the generic message. |
| ErrorHandler.KindErrorReply | middleware/errorHandler.js:6-22 | An AppError built for an error kind is answered with that kind's status and its own message. |
| ErrorHandler.AppErrorDefaultsTo500 | middleware/errorHandler.js:6-13 | An AppError with no status is answered with 500 and its message, in production too, because it is operational. |
| ErrorHandler.ZeroStatusFallsBack | middleware/errorHandler.js:21-22 | A zero status code is falsy and falls back to 500. |
| Validators.Validate | middleware/validators.js:14-27 | The request passes iff no check failed. A failure is a 400 that lists every failed field in order. |
| Validators.TrimmedString | middleware/validators.js:36-42 | The field passes iff its text trims to non-empty and is at most 500 characters as `isLength` counts them: code points, leaving out the presentation selectors U+FE0E and U+FE0F. A string counts as sent, a number as printed, an object as `[object Object]` and a missing field as empty. There is at most one error. |
| Validators.OptionalTrimmedString | middleware/validators.js:44-49 | The field passes iff it is absent or its trimmed text is at most 500 characters, counted as `isLength` counts them. |
| Validators.Check | middleware/validators.js:31-34 | A single check reports an error iff its condition fails. |
| Validators.IdErrors | middleware/validators.js:31-34 | An id field passes iff its text is exactly 24 characters of hexadecimal, with an optional `0x`/`0h` prefix in either case counted among them, whatever JSON type carried it. |
| Validators.SemesterErrors | middleware/validators.js:82-84 | semester passes iff its text is a digit string with an optional sign and a value from 1 to 12. So `"3.0"` and `" 3"` fail, while `"03"` passes. |
| Validators.CreditsErrors | middleware/validators.js:136 | credits pass iff absent, or their text is an integer from 1 to 10 in the same sense. |
| Validators.PasswordErrors | middleware/validators.js:56-58 | A password passes iff its untrimmed text has at least 6 characters as `isLength` counts them. A number counts by its printed digits. |
| Validators.IntTextIsBare | middleware/validators.js:82-84 | Any text the integer check accepts is non-empty and holds no point, exponent or space. |
| Validators.SelectorsNotCounted | middleware/validators.js:36-42 | 500 characters followed by U+FE0F pass the 500 bound, although they are 501 code points. |
| Validators.PrintedFormExamples | middleware/validators.js:36-58 | An object is a non-empty text. The number 123456 is a long enough password. `"3.0"` is not an integer. |
| Validators.DecimalIdAccepted | middleware/validators.js:31-34 | Any 24 decimal digits form an id, whether sent as a string or as a number. |
| Validators.PrefixedIdAccepted | middleware/validators.js:31-34 | A `0x`, `0X`, `0h` or `0H` prefix followed by any 22 hexadecimal digits forms an id. |
| Validators.NonIdExamples | middleware/validators.js:31-34 | The prefix alone is no id, and neither is a 24-character text with a non-hexadecimal character. |
| Validators.RoleErrors | middleware/validators.js:59-62 | A role passes iff absent or one of Admin, Faculty and Student. |
| Validators.CreateSubjectVerdict | middleware/validators.js:127-137 | The subject chain passes exactly the listed field conditions, with credits from 1 to 10. |
| Validators.AddMarksVerdict | middleware/validators.js:156-169 | Adding marks passes iff both ids are valid, both marks are numbers at least 0 (with no upper bound) and the semester is 1 to 12. |
| Validators.UpdateMarksVerdict | middleware/validators.js:171-182 | An update passes iff the id is valid and each mark is absent or a number at least 0. |
| Validators.StatusErrors | middleware/validators.js:190-193 | A status passes iff it is Present or Absent. |
| Validators.AttendanceVerdicts | middleware/validators.js:186-217 | Marking passes iff both ids are valid, the date is ISO and the status is Present or Absent. An update passes iff the id and the status are valid. |
| Validators.RecordStudentErrors | middleware/validators.js:202-204 | There is one "Each record must have a valid student ID" error per record without a valid student id, and none iff every record has one. |
| Validators.RecordStatusErrors | middleware/validators.js:205-207 | There is one "Each status must be Present or Absent" error per record without a valid status, and none iff every status is Present or Absent. |
| Validators.StudentErrorsFirst | middleware/validators.js:202-207 | Student-id errors followed by status errors form a list in which no status error precedes a student-id error. |
| Validators.RecordErrors | middleware/validators.js:202-207 | The bulk records pass iff every item has a valid student id and a Present/Absent status. Every student-id error comes before every status error. |
| Validators.MarkBulkAttendanceVerdict | middleware/validators.js:196-209 | Bulk marking passes iff the subject id and date are valid and the records form a non-empty array of valid items. |
| Validators.NotificationVerdicts | middleware/validators.js:221-232 | Both notice chains need a valid title and message. The subject chain also needs a valid subject id. |
| Validators.CreateAssignmentVerdict | middleware/validators.js:236-246 | Creating passes iff there is a title, a valid subject and an ISO due date, and totalMarks is absent or an integer at least 0. |
| Validators.GradeSubmissionVerdict | middleware/validators.js:248-255 | Grading passes iff the id is valid, the marks are a number at least 0, and the feedback is absent or at most 500 characters. |
| Text.Trim | middleware/validators.js:36-42 | The result has no leading or trailing blank and is no longer than the input. |
| Text.TrimIsSlice | middleware/validators.js:36-42 | The trimmed text is a contiguous slice of the input. |
| Text.TrimBlank | middleware/validators.js:36-42 | Trimming gives the empty string iff the input is all blanks. |
| Text.TrimIdempotent | middleware/validators.js:36-42 | Trimming twice is trimming once. |
| Text.ToUpper | models/Subject.js:10-16 | Upper-casing keeps the length, leaves no ASCII lower-case letter, and leaves every other character alone. |
| Text.ToUpperIdempotent | models/Subject.js:10-16 | Upper-casing twice is upper-casing once. |
| Text.NatTextRoundTrip | middleware/validators.js:202-207 | The record index printed in an error path reads back as that index. |
| Text.CountChars | middleware/validators.js:40 | A count of qualifying characters is at most the length. |
| Text.CountConcat | middleware/validators.js:40 | Counting over a concatenation adds the two counts. |
| Text.CountExtremes | middleware/validators.js:40 | The count is 0 iff no character qualifies, and the full length iff every one does. |
| Text.Utf16Length | models/Notification.js:9 | JavaScript's `length` lies between the number of characters and twice that. It equals the first iff no character is astral, and the second iff all are. |
| Text.Utf16LengthIsEncoding | models/Notification.js:9 | `length` is the number of code units of the UTF-16 encoding, where an astral character becomes a surrogate pair. |
| Text.IsLengthCount | middleware/validators.js:40 | validator.js's count, `length` less the presentation selectors and the surrogate pairs, is the number of code points other than presentation selectors. It equals the character count iff there are none. |
| Text.DigitsValueConcat | controllers/resultController.js:79-83 | Two joined digit strings read as the first shifted left by the second's length, plus the second. |
| Grading.CalculateGrade | controllers/resultController.js:11-20 | The grade's threshold is met, and every higher grade's threshold is not. These are the bands 90, 80, 70, 60, 50, 40 and 33. |
| Grading.ThresholdsIncrease | controllers/resultController.js:11-20 | A higher grade has a strictly higher threshold, and conversely. |
| Grading.GradeCharacterised | models/Result.js:61-70 | A total lying between a grade's threshold and the next one up gets exactly that grade. The schema's grade function is the same Grading.CalculateGrade. |
| Grading.GradeMonotone | controllers/resultController.js:11-20 | A larger total never gets a lower grade. |
| Grading.GradePoint | controllers/resultController.js:167-176 | Points lie from 0 to 10 and are 0 exactly for F. |
| Grading.GradePointMonotone | controllers/resultController.js:167-176 | A higher grade carries strictly more points, and conversely. |
| Grading.ParseGrade | models/Result.js:32-35 | Parsing accepts exactly the eight grade names and returns the grade that prints as the input. |
| Grading.GradeNameRoundTrip | models/Result.js:32-35 | Parsing a grade's printed name gives back that grade. |
| ResultStats.SumBounds | controllers/resultController.js:162 | A sum of values that each lie between lo and hi lies between n·lo and n·hi. |
| ResultStats.EffectiveCredits | controllers/resultController.js:181-182 | Missing or zero credits count as 3, and any other value as itself. |
| ResultStats.Sgpa | controllers/resultController.js:178-187 | SGPA times the credit total equals the credit-weighted point total, and SGPA is 0 when there are no credits. |
| ResultStats.PointsBounded | controllers/resultController.js:178-185 | Weighted points lie between 0 and 10 times the credit total, and a non-empty list has positive credits. |
| ResultStats.SgpaInRange | controllers/resultController.js:187 | SGPA lies from 0 to 10 whenever every effective credit count is positive. |
| ResultStats.UniformSgpa | controllers/resultController.js:167-187 | If every result has the same grade, SGPA is that grade's point value. |
| ResultStats.StudentStatistics | controllers/resultController.js:161-187 | The maximum marks are 100 per subject. The percentage satisfies percentage × maximum = obtained × 100, or is 0 for no results. SGPA is the weighted mean. |
| ResultStats.PercentageInRange | controllers/resultController.js:161-164 | For totals between 0 and 100 the percentage lies from 0 to 100. |
| ResultStats.CountPassed | controllers/resultController.js:230-231 | The number passed is at most the count. It equals the count iff nobody has F, and is 0 iff everybody has F. |
| ResultStats.MaxOf | controllers/resultController.js:235-236 | The highest total is one of the totals and at least every total. |
| ResultStats.MinOf | controllers/resultController.js:235-237 | The lowest total is one of the totals and at most every total. |
| ResultStats.Percent | controllers/resultController.js:247 | The pass percentage lies from 0 to 100 and times the count equals passed × 100. |
| ResultStats.Mean | controllers/resultController.js:234 | The average times the count equals the sum. |
| ResultStats.MeanBetween | controllers/resultController.js:234-237 | The average lies between the lowest and highest totals. |
| ResultStats.PassRate | controllers/resultController.js:247 | The pass rate lies from 0 to 100, is 0 with nobody, and times the count equals passed × 100 exactly. |
| ResultStats.ClassStatistics | controllers/resultController.js:229-247 | passed + failed = total. The pass percentage is the PassRate of passed over total, so percentage × total = passed × 100. Everything is 0 on empty input. Otherwise the average is the mean and lowest ≤ every total ≤ highest, with lowest ≤ average ≤ highest. |
| Results.PreSave | models/Result.js:75-83 | The saved record's total is internal + external and its grade is the grade of that total. Nothing else changes, and a consistent record is left as it is. |
| Results.SavedTotalInRange | models/Result.js:27-31 | After the hook, the total lies from 0 to 100 whenever both marks are within their caps. |
| Results.Save | models/Result.js:15-41 | A save succeeds iff every schema bound holds (internal 0–40, external 0–60, semester 1–12), and then the record is consistent. Otherwise it is a 400. |
| Results.PutKeeps | models/Result.js:49 | Writing a record whose (student, subject, semester) no other record holds keeps that key unique. |
| Results.AddMarks | controllers/resultController.js:26-62 | Missing fields give 400. An existing (student, subject, semester) gives 409 and leaves the store unchanged. Success happens exactly when the fields are present, the key is free and the schema bounds hold. The stored record copies the inputs with total and grade derived, and uniqueness is kept. |
| Results.AddMarksTwice | controllers/resultController.js:38-44 | Repeating a successful add gives 409 and changes nothing. |
| Results.Processed | controllers/resultController.js:79-83 | A bulk row with numeric marks is stored with total = internal + external and grade = grade of the total. |
| Results.InsertRow | controllers/resultController.js:86 | One row is inserted iff it is schema-valid and not a duplicate. Otherwise the store is unchanged. Uniqueness is kept. |
| Results.InsertRowsFrame | controllers/resultController.js:86 | An unordered bulk insert keeps the store well formed and every existing record unchanged. |
| Results.InsertRowsKeys | controllers/resultController.js:86 | After a bulk insert, the ids are exactly the old ids plus the fresh ids handed out. |
| Results.ValidRowsAllInserted | controllers/resultController.js:86 | If every row is valid and none collides, all rows are inserted. |
| Results.InsertRowsKeeps | models/Result.js:49 | A bulk insert keeps (student, subject, semester) unique. |
| Results.InsertedFromRows | controllers/resultController.js:79-86 | Every newly inserted record comes from one of the rows. |
| Results.AddBulkMarks | controllers/resultController.js:68-96 | An empty list gives 400. The count is at most the number of rows, and equals it for all-valid rows. Old records are untouched, new ones come from rows, and uniqueness is kept. |
| Results.BulkRowsConsistent | controllers/resultController.js:79-83 | Every record created by a bulk add of numeric marks is schema-valid, with total and grade derived. |
| Results.StringMarksTotal | controllers/resultController.js:79-83 | As written, marks sent as digit strings are joined, not added: the stored total is the internal digits shifted by the external's length, plus the external. |
| Results.StringMarksConcatenated | controllers/resultController.js:79-86 | Marks "3" and "4" are stored with total 34 and grade D instead of 7 and F. Marks "30" and "40" give 3040, which the schema's cap refuses. |
| Results.Figures | controllers/resultController.js:123-131 | The audit details carry exactly the four figures, with the grade by name. |
| Results.UpdateAuditArgs | controllers/resultController.js:123-131 | The update's audit arguments always form a valid audit entry. |
| Results.UpdateMarksOf | controllers/resultController.js:102-140 | An unknown id gives 404. Otherwise only the supplied marks are replaced, the identity fields stay, and the saved record is consistent. One UPDATE_MARKS entry about this result by the caller is appended iff the audit write succeeds. |
| Results.UpdateMarksKeeps | controllers/resultController.js:113-120 | Updating keeps uniqueness, and for a known id succeeds iff the resulting marks are within the caps. |
| Results.AuditDoesNotDecide | controllers/resultController.js:123-131 | A failing audit write changes neither the reply nor the results. |
| Results.EmptyUpdateIsIdentity | controllers/resultController.js:113-120 | An update that supplies no marks returns the stored record and changes nothing. |
| Results.ScoredRows | controllers/resultController.js:151-154 | Each listed result contributes its own total and grade, and its subject's credits when the subject exists. |
| Results.GetStudentResults | controllers/resultController.js:146-202 | It lists exactly the student's results (for the semester, if one is given), and the subject count is their number. The maximum marks are 100 per result. The percentage lies in 0..100 and SGPA in 0..10, and both are 0 with no results. The figures are StudentStatistics of exactly the listed results. |
| Results.SubjectIds | controllers/resultController.js:213-216 | It selects exactly the subject's results for the optional semester. |
| Results.GetResultsBySubject | controllers/resultController.js:208-254 | It lists exactly the subject's results. passed + failed = total, and passed = total iff nobody has F. lowest ≤ each total ≤ highest, and lowest ≤ average ≤ highest. The figures are ClassStatistics of exactly the listed results. |
| Results.SubjectFiguresInRange | controllers/resultController.js:230-237 | With saved records, 0 ≤ lowest ≤ average ≤ highest ≤ 100. |
| Results.DeleteResult | controllers/resultController.js:260-271 | An unknown id gives 404 and changes nothing. Otherwise exactly that record is removed and returned. |
| Results.DeleteFreesKey | controllers/resultController.js:260-271 | After a delete no record holds the deleted (student, subject, semester), so it may be added again. |
| Attendance.ParseStatus | models/Attendance.js:20-24 | A status parses iff it is Present or Absent. |
| Attendance.StatusRoundTrip | models/Attendance.js:20-24 | Parsing a status's name gives back that status. |
| Attendance.ResolveFacultyId | controllers/attendanceController.js:10-14 | The token's faculty id wins. Otherwise it is the faculty profile of the user, and nothing only when there is neither. |
| Attendance.InsertFreeSlot | models/Attendance.js:37 | Inserting at a free (student, subject, date) keeps that slot unique. |
| Attendance.MarkAttendance | controllers/attendanceController.js:20-61 | Missing fields give 400, and a record on the same day (by midnight) gives 409. Success happens exactly when fields are present, the day and the raw instant are free, the status is valid and a marker resolves. The stored record carries the raw date, and the unique index holds. |
| Attendance.SameDayMarkedTwice | controllers/attendanceController.js:32-52 | With the code as written, two marks on one day at different hours both succeed, leaving two records for one day. |
| Attendance.MarkAttendanceDaily | controllers/attendanceController.js:20-61 | The corrected marking gives 409 iff the student already has a record that day. On success it keeps at most one record per student, subject and day. |
| Attendance.DailyRefusesSameDay | controllers/attendanceController.js:32-36 | After a successful corrected mark, any later mark for the same student, subject and day gives 409. |
| Attendance.OnePerDayIsUnique | models/Attendance.js:37 | One record per day implies the unique index on (student, subject, date). |
| Attendance.LastStatus | controllers/attendanceController.js:82-99 | A student has a bulk status iff listed. That status is the one of a record for them that no later record for them follows. |
| Attendance.Upsert | controllers/attendanceController.js:84-97 | After one upsert the slot holds the given status and marker. The store grows by at most that slot, and the unique index holds. |
| Attendance.UpsertAll | controllers/attendanceController.js:82-99 | Bulk upserting keeps the store well formed and unique and drops no record. |
| Attendance.BulkKeepsOthers | controllers/attendanceController.js:82-99 | Records keep their slot, and a record whose slot is not listed is unchanged. |
| Attendance.BulkAddsListed | controllers/attendanceController.js:82-99 | A newly created record is for the subject and date, and for a listed student. |
| Attendance.BulkLastWins | controllers/attendanceController.js:82-99 | Every listed student ends with the status of their last listing, marked by the caller. |
| Attendance.MarkBulkAttendance | controllers/attendanceController.js:67-108 | Missing subject or records give 400. Otherwise the count is the number of input records. Listed slots hold their last status, unlisted records stay, new records are listed ones, and uniqueness is kept. |
| Attendance.BulkExactlyOne | controllers/attendanceController.js:82-99 | After bulk marking, each listed student has exactly one record at (student, subject, date). |
| Attendance.CountPresent | controllers/attendanceController.js:137-138 | Present is at most the count. It equals the count iff all are present, and is 0 iff all are absent. |
| Attendance.StatsFrom | controllers/attendanceController.js:137-140 | present + absent = total. The percentage satisfies percentage × total = present × 100, lies in 0..100, and is 0 with no classes. |
| Attendance.StatsOf | controllers/attendanceController.js:137-140 | The figures of a list of statuses count its entries and its Present entries. |
| Attendance.PercentageExtremes | controllers/attendanceController.js:137-140 | The percentage is 100 iff every class is Present, and 0 iff every class is Absent. |
| Attendance.StatusesOf | controllers/attendanceController.js:119-129 | The statuses read are those of the listed records, in order. |
| Attendance.GetAttendanceByStudent | controllers/attendanceController.js:114-154 | It lists exactly the student's records matching the optional subject and inclusive date range. The statistics are those of the listed statuses. |
| Attendance.DayWindowIsTheDay | controllers/attendanceController.js:167-177 | The date filter selects exactly the records on the same day as the query date. |
| Attendance.GetAttendanceBySubject | controllers/attendanceController.js:160-207 | It lists exactly the subject's records matching the query, with present + absent = total. |
| Attendance.UpdateAttendance | controllers/attendanceController.js:213-241 | An invalid status gives 400 and an unknown id 404. Otherwise only the status and marker of that record change, and the unique index holds. |
| Attendance.UpdateIdempotent | controllers/attendanceController.js:213-241 | Applying the same update twice equals applying it once. |
| Attendance.DeleteAttendance | controllers/attendanceController.js:247-258 | An unknown id gives 404. Otherwise exactly that record is removed and returned. |
| Profiles.StudentOfUser | controllers/notificationController.js:11-15 | It finds a student profile of the user iff one exists. |
| Profiles.FacultyOfUser | controllers/notificationController.js:20-24 | It finds a faculty profile of the user iff one exists. |
| Profiles.NewStudent | models/Student.js:28-45 | A new student has no subjects, 0 attendance and 0 CGPA. It is schema-valid iff the enrolment number and course are non-blank and the semester is 1 to 12. |
| Profiles.StoredStudent | models/Student.js:11-21 | The trim setters trim the enrolment number and course, and keep every other field. |
| Profiles.NewStudentIsStored | models/Student.js:11-21 | A student built with the schema defaults is already in its stored form. |
| Profiles.SaveStudent | models/Student.js:5-21 | After the trim setters, an invalid document gives 400, in particular a blank enrolment number or course. A clash of the trimmed document on user or enrolment number gives 409. Otherwise the trimmed student is stored under a fresh id and both stay unique. |
| Profiles.NormalCode | models/Subject.js:10-16 | A stored subject code has no ASCII lower-case letters and is no longer than the input. |
| Profiles.NormalCodeIdempotent | models/Subject.js:10-16 | Normalising a code twice is normalising once. |
| Profiles.Stored | models/Subject.js:5-21 | The setters trim the name and department and trim and upper-case the code. Semester, assigned faculty and credits are kept. |
| Profiles.StoredIdempotent | models/Subject.js:5-21 | Applying the setters to a stored subject changes nothing. |
| Profiles.BlankSubjectRefused | models/Subject.js:5-9 | A name of blanks only is trimmed to empty and refused with 400. |
| Profiles.SaveSubject | models/Subject.js:5-37 | It gives 400 iff the subject, after the setters, breaks the schema: a blank name, code or department, credits outside 1–6 or a semester outside 1–12. It gives 409 iff the normalised code is taken. Otherwise the subject is stored, and codes stay unique. |
| Profiles.CaseInsensitiveCodes | models/Subject.js:10-16 | After saving "cs101", saving "CS101" is a duplicate. |
| Assignments.SubmissionCount | models/Assignment.js:50-55 | The count is 0 iff no submission refers to the assignment. |
| Assignments.NewAssignment | controllers/assignmentController.js:36-45 | The inputs are stored trimmed, by the caller's faculty, with the file path. totalMarks defaults to 100. The document is valid iff the title and path are non-empty and totalMarks ≥ 0. |
| Assignments.CreateAssignment | controllers/assignmentController.js:20-52 | Missing fields or no file give 400, and a caller without a faculty profile 404. Success happens exactly when everything is present and schema-valid. Submissions are untouched. |
| Assignments.CreatedByCaller | controllers/assignmentController.js:31-45 | A created assignment exists and belongs to the caller's faculty. |
| Assignments.FacultyFilter | controllers/assignmentController.js:65-68 | Only a Faculty caller with a profile is filtered, by that profile. |
| Assignments.ViewOf | models/Assignment.js:50-55 | A view carries the submission count of its assignment. |
| Assignments.GetAssignments | controllers/assignmentController.js:58-85 | It lists exactly the assignments that pass the faculty and subject filters, in id order, with counts. |
| Assignments.FacultySeesOwn | controllers/assignmentController.js:65-68 | A Faculty caller sees exactly their own assignments. |
| Assignments.UnfilteredListing | controllers/assignmentController.js:61-64 | Other callers see every assignment of the requested subject. |
| Assignments.GetAssignmentById | controllers/assignmentController.js:91-107 | An unknown id gives 404. Otherwise the view of that assignment with its count. |
| Assignments.DropSubmissionsOf | controllers/assignmentController.js:126-127 | It keeps exactly the submissions to other assignments, unchanged. |
| Assignments.DeleteAssignment | controllers/assignmentController.js:113-133 | An unknown id gives 404. A Faculty caller who does not own it gets 403. Otherwise the assignment and all its submissions go, and everything else stays. |
| Assignments.StatusAt | controllers/assignmentController.js:164 | A submission is Late iff made after the due date, and never starts Graded. |
| Assignments.NewSubmission | models/Submission.js:5-40 | A new submission has no marks, empty feedback, and status Late iff late, else Submitted. It is valid iff it has a file. |
| Assignments.SubmissionOf | models/Submission.js:48 | It finds a submission by this student to this assignment iff one exists. |
| Assignments.SubmissionOfIsTheOne | models/Submission.js:48 | With (assignment, student) unique, the lookup returns that very submission. |
| Assignments.SubmitAssignment | controllers/assignmentController.js:143-179 | An unknown assignment gives 404, and a missing file 400. An existing submission gives 409. Success happens exactly in the remaining case. Old submissions and all assignments are untouched. |
| Assignments.SubmitOnce | controllers/assignmentController.js:158-161 | A second submission by the same student to the same assignment gives 409. |
| Assignments.SubmitCounts | models/Assignment.js:50-55 | A submission raises its assignment's count by one and no other count. |
| Assignments.GetSubmissions | controllers/assignmentController.js:185-199 | It lists exactly the assignment's submissions, as many as its count. |
| Assignments.GetMySubmission | controllers/assignmentController.js:205-218 | A caller without a profile gets 404. The result is the caller's own submission, or none exactly when they have not submitted. |
| Assignments.Regraded | controllers/assignmentController.js:234-237 | Grading sets marks, trimmed feedback and Graded, and keeps the rest. The result is valid iff marks ≥ 0 and the file exists. |
| Assignments.GradeSubmission | controllers/assignmentController.js:224-244 | Missing marks give 400 and an unknown id 404. On success only that submission changes, to its graded form. |
| Assignments.GradeIdempotent | controllers/assignmentController.js:224-244 | Grading twice with the same inputs equals grading once. |
| Assignments.SubmitKeepsGraded | controllers/assignmentController.js:143-179 | Submitting never un-grades an existing submission. |
| Assignments.GradeKeepsGraded | controllers/assignmentController.js:224-244 | Grading never un-grades another submission. |
| Assignments.DeleteKeepsGraded | controllers/assignmentController.js:113-133 | A graded submission that survives a delete is still graded. |
| Assignments.CreateKeepsInvariant | models/Assignment.js:5-40 | Creating keeps every assignment schema-valid and submissions unique per (assignment, student). |
| Assignments.DeleteKeepsInvariant | models/Submission.js:48 | Deleting keeps the coursework invariant. |
| Assignments.SubmitKeepsInvariant | models/Submission.js:48 | Submitting keeps submissions unique per (assignment, student). |
| Assignments.GradeKeepsInvariant | models/Submission.js:26-48 | Grading keeps the coursework invariant. |
| Assignments.GetStudentAssignments | controllers/assignmentController.js:250-290 | A caller without a profile gets 404. Otherwise it lists exactly the assignments of the student's subjects, each with that student's own submission. |
| Assignments.StudentViewShowsOwnSubmission | controllers/assignmentController.js:268-283 | A listed assignment shows none iff the student has not submitted, and otherwise their one submission. |
| Notifications.NewNotice | controllers/notificationController.js:38-44 | A notice stores trimmed texts and the sender, with nobody having read it. A broadcast is for all and from Admin. A subject notice is for the subject and from Faculty. |
| Notifications.NewNoticeValid | models/Notification.js:5-46 | A new notice is schema-valid iff its trimmed title and message are non-empty and within 200 and 2000 UTF-16 code units, which is how `maxlength` measures `length`. |
| Notifications.InsertNoticeKeeps | models/Notification.js:5-46 | Inserting a well-formed notice keeps all notices well formed. |
| Notifications.CreateAdminNotification | controllers/notificationController.js:31-51 | It succeeds iff the trimmed texts are non-empty and within the schema's limits in UTF-16 code units, storing a broadcast. Otherwise it gives 400 and changes nothing. |
| Notifications.FacultyFieldAsWritten | controllers/notificationController.js:73 | The `faculty` field read from a subject is always missing, because the schema names it `assignedFaculty`. |
| Notifications.CreateFacultyNotificationAsWritten | controllers/notificationController.js:58-93 | As written: it gives 403 exactly when the missing field fails to match the caller, and success needs a match. |
| Notifications.FacultyNoticeAlwaysForbidden | controllers/notificationController.js:73-75 | As written, every faculty notice to an existing subject gives 403 and stores nothing. |
| Notifications.AssignedFacultyRefused | controllers/notificationController.js:73-75 | The assigned faculty of a subject is refused by the code as written. |
| Notifications.CreateFacultyNotification | controllers/notificationController.js:58-93 | Corrected: an unknown subject or profile gives 404, and a subject not assigned to the caller 403. Success happens exactly for valid texts, measured in UTF-16 code units, on the caller's own subject. |
| Notifications.AssignedFacultyAccepted | controllers/notificationController.js:73-84 | In the corrected version the assigned faculty's notice is stored. |
| Notifications.Views | controllers/notificationController.js:116-120 | Each view is read iff the student is in its readBy. |
| Notifications.UnreadIds | controllers/notificationController.js:122 | The unread set is exactly the listed notices the student has not read. |
| Notifications.CountUnreadIsUnreadIds | controllers/notificationController.js:116-122 | The number of unread views equals the size of the unread set. |
| Notifications.GetMyNotifications | controllers/notificationController.js:100-130 | No profile gives 404. Otherwise it lists exactly the notices visible to the student (broadcasts and notices of their subjects), marks each read iff the student is in readBy, and counts the unread ones. |
| Notifications.GetUnreadCount | controllers/notificationController.js:217-230 | No profile gives 404. The count is 0 iff the student has read every visible notice. |
| Notifications.BadgeMatchesInbox | controllers/notificationController.js:221-227 | The unread badge equals the inbox's unread count. |
| Notifications.AddReader | controllers/notificationController.js:144-147 | The student is added to readBy only if absent, so readBy stays duplicate-free. |
| Notifications.MarkAsRead | controllers/notificationController.js:136-151 | No profile or an unknown id gives 404. Otherwise only that notice's readBy gains the student. |
| Notifications.MarkAsReadIdempotent | controllers/notificationController.js:140-148 | Marking read twice is marking read once. |
| Notifications.ReadAllFor | controllers/notificationController.js:161-170 | A visible notice gains the student in readBy, and any other notice is unchanged. |
| Notifications.MarkAllAsRead | controllers/notificationController.js:157-173 | No profile gives 404. Otherwise every notice is updated as ReadAllFor says, and no notice is added or removed. |
| Notifications.NothingUnreadAfterReadAll | controllers/notificationController.js:161-170 | After marking all read the unread count is 0. |
| Notifications.ReadAllKeepsInvariant | models/Notification.js:41-46 | Marking all read keeps readBy duplicate-free and the notices well formed. |
| Notifications.GetSentNotifications | controllers/notificationController.js:179-190 | It lists exactly the caller's own notices. |
| Notifications.DeleteNotification | controllers/notificationController.js:196-211 | An unknown id gives 404, and a caller who is not the sender 403. Only the sender's delete succeeds. |
| Notifications.OnlySenderDeletes | controllers/notificationController.js:204-206 | Anyone other than the sender who could delete a notice is refused with 403. |
| Audit.ParseAction | models/AuditLog.js:5-28 | Parsing accepts exactly the 18 action names, and returns the action that prints as the input. |
| Audit.ActionRoundTrip | models/AuditLog.js:5-28 | Every action's name parses back to that action. |
| Audit.ParseModel | models/AuditLog.js:34-38 | Parsing accepts exactly the seven model names. |
| Audit.ModelRoundTrip | models/AuditLog.js:34-38 | Every model's name parses back to that model. |
| Audit.BuildEntry | utils/auditLogger.js:15-28 | An entry exists iff the action and model are in their enums, performedBy is given and the description is non-empty. It copies those unchanged and stamps the time. Details default to {} and the IP to null. |
| Audit.LogAudit | utils/auditLogger.js:15-28 | A failed write or an invalid entry leaves the log as it is and raises nothing. A good write appends exactly the built entry. Old entries never change. |
| Audit.LogKeepsChronological | utils/auditLogger.js:15-28 | Appending at the current time keeps the log in time order. |
| Audit.Newest | controllers/auditLogController.js:13-25 | It selects exactly the entries matching the filter, newest first, as many as the count. |
| Audit.CeilDiv | controllers/auditLogController.js:34 | totalPages is the smallest number of pages that holds every entry. |
| Audit.Skip | controllers/auditLogController.js:18 | Page 1 skips nothing, and a later page skips at least one page. |
| Audit.Window | controllers/auditLogController.js:20-25 | The page is the run of at most `limit` entries starting after the skipped ones. |
| Audit.GetAuditLogs | controllers/auditLogController.js:10-38 | page defaults to 1 and limit to 30. total counts the matching entries, and totalPages is the ceiling of total / limit. The page is the right window of the newest-first list, holding at most `limit` entries. |
| Audit.ListingMatchesNewestFirst | controllers/auditLogController.js:13-25 | Every listed entry matches the filter, and the ids descend. |
| Audit.ListingByTime | controllers/auditLogController.js:20-25 | In a chronological log, the listing has non-increasing creation times. |
| Audit.GetAuditLogById | controllers/auditLogController.js:76-83 | It gives 404 iff the id is unknown, and otherwise that entry. |
| Audit.Tally | controllers/auditLogController.js:46-53 | There is one bucket per distinct key, counting its occurrences. The counts are positive and sum to the number of entries. |
| Audit.InsertKeepsSorted | controllers/auditLogController.js:46-53 | Inserting a bucket by count keeps the list sorted by count, descending. |
| Audit.SortByCount | controllers/auditLogController.js:46-53 | Sorting by count descending keeps every key's count and the total. |
| Audit.GetAuditStats | controllers/auditLogController.js:44-70 | totalLogs is the number of entries, and last24Hours counts the recent ones (≤ total). byAction and byModel give each key's exact count with distinct keys, sorted by count descending, and each sums to totalLogs. |
| Store.Where | controllers/attendanceController.js:119-129 | A query returns exactly the matching documents, in ascending id order. |
| Store.FindFirst | controllers/attendanceController.js:32-36 | findOne returns nothing iff no document matches, and otherwise the lowest matching id. |
| Store.Count | controllers/auditLogController.js:28 | countDocuments equals the size of the matching set and of the query's result. |
| Store.CountZero | controllers/auditLogController.js:28 | The count is 0 iff no document matches. |
| Store.InsertCount | controllers/auditLogController.js:28 | An insert raises a count by one iff the new document matches. |
| Layers.Whole | middleware/validators.js:136 | A whole number written in decimal is read back as itself by the integer check. |
| Layers.CreditBoundsDiffer | middleware/validators.js:136 | The credits the validator passes but the Subject schema (1–6) refuses are exactly 7 to 10. |
| Layers.OverCreditedSubjectRefused | models/Subject.js:32-37 | A subject with more than 6 credits is refused with 400 on save. |
| Layers.MarkBoundsDiffer | middleware/validators.js:159-164 | The marks the validator passes but the schema refuses are exactly internal above 40 and external above 60. |
| Layers.OverMarkedResultRefused | models/Result.js:15-26 | Over-cap marks that pass the validator are still refused by addMarks: 400 when the key is free, an error in any case. |
| Layers.AstralTitleRefused | models/Notification.js:5-10 | A title of 101 to 500 astral characters passes the validator's 500 bound but takes 202 or more UTF-16 units, so the admin notice is refused with 400. |

## Left out

- Transport and plumbing are not modelled: HTTP, Express wiring, rate limiting, the database connection, seeding and the React client. Each controller is a function of explicit inputs.
- Authentication (JWT, bcrypt, `authMiddleware`) is not modelled. The caller is an already-authenticated user, and tokens, register and login are out.
- The upload middleware is not modelled. The stored file path is a parameter, and a missing file is `None`.
- The CRUD controllers for users, students, faculty and subjects are not modelled. Only their schemas are (`Profiles.SaveStudent`, `Profiles.SaveSubject`), because those are where their uniqueness rules live.
- The clock is a parameter `now`. Dates are integer milliseconds with a UTC day, so local-time `setHours`, time zones and ISO-8601 parsing are out. The per-subject day window runs from 00:00:00.000 to 23:59:59.999. At millisecond resolution that is exactly the day.
- `toFixed(2)` and `parseFloat` rounding are not modelled. Percentages, SGPA and averages are exact rationals. The per-subject `passPercentage` (controllers/resultController.js:247) is also sent as the text `toFixed` returns, not parsed back to a number. ResultStats.ClassStatistics carries it as a number.
- Concurrency is not modelled: the gap between `findOne` and `create` that only the unique indexes close, `Promise.all`, and the un-awaited audit write. Each operation is one sequential step, and the audit write's success is an input.
- `populate`, projections and sort orders other than the audit listing's are not modelled. Listings are in ascending id order.
- Results.AddBulkMarks: `insertMany` with `ordered: false` is modelled as inserting every valid, non-colliding row and skipping the rest. The driver's error reporting for a partly failed batch is reduced to the count of inserted rows.
- Attendance.MarkBulkAttendance: the upsert does not run the schema validators, which matches `bulkWrite`. The date of every record is the single request date.
- Attendance.UpdateAttendance: update validators on `findByIdAndUpdate` are not modelled beyond the status check the controller makes itself.
- Audit.GetAuditLogs: requires page ≥ 1 and limit ≥ 1. `Number(page)` and `Number(limit)` on arbitrary query strings, and the database error a negative skip would raise, are not modelled.
- Audit.GetAuditStats: the order among buckets with equal counts is the model's own. The database leaves that order unspecified.
- ErrorHandler.Handle: console logging and the `stack` field of development replies are not modelled.
- Text.ToUpper: only the ASCII letters a to z are upper-cased, not the rest of Unicode that `toUpperCase` covers. This holds for Profiles.NormalCode too, so two codes that differ only in non-ASCII case are not modelled as duplicates.
- Results.Processed: a row's marks are numbers. Marks sent as JSON strings take the as-written path of `Results.StringMarksTotal`, listed under Findings.
- Results.BulkRowsConsistent: holds for numeric marks only. `insertMany` does not run the pre-save hook, so a row with string marks is stored with the joined total (see Findings).
- Validators.TrimmedString: an array in a scalar field reads as empty text. express-validator instead checks each element on its own. The same holds for every other scalar check.
- `isFloat` and `isISO8601` parsing is not modelled. A scalar field carries the number and the instant those checks would read from its text.
- Text.Utf16Length: a JavaScript string may hold an unpaired surrogate, which a Dafny character cannot. The model's strings are always well-formed UTF-16, so validator.js's surrogate-pair count is exactly the number of astral characters.
- Text.Trim: only ASCII whitespace and the no-break space count as blanks, not the full Unicode set of `String.prototype.trim`.
- Email validation and `normalizeEmail` in the user validators are not modelled.
- The Result schema's `findOneAndUpdate` hook is not modelled. The controller's update path goes through `save`.

## Findings

| source | as written | input that shows it | evidently intended | confidence | as-written member | corrected member |
|---|---|---|---|---|---|---|
| controllers/attendanceController.js:32-52 | The duplicate check looks for a record at the day's midnight, but the new record stores the raw request date. | Two marks for student 2, subject 3, at 09:00 and at 10:00 of the same day: both are created, because neither stored date is a midnight. | At most one attendance record per student, subject and day. | not executed | Attendance.SameDayMarkedTwice | Attendance.DailyRefusesSameDay |
| controllers/resultController.js:79-83 | The bulk route runs no validator, and the handler adds the marks with JavaScript's `+`. Two marks sent as JSON strings are joined, not added. `insertMany` skips the pre-save hook that would recompute the total. | Row {internalMarks: "3", externalMarks: "4"}: it is stored with internal 3, external 4, total 34 and grade D. | total = internal + external numerically (7, grade F), as the pre-save hook computes for `addMarks`. | not executed | Results.StringMarksConcatenated | Results.BulkRowsConsistent |
| controllers/notificationController.js:73-75 | The ownership check compares `subject.faculty`, which the Subject schema does not have (it is `assignedFaculty`, models/Subject.js:28-31), so the comparison is always unequal. | Faculty profile 5 (user 1) is the assigned faculty of subject 3, and sends "Quiz"/"Friday" to subject 3: the answer is 403. | A faculty member may notify the subjects assigned to them. | not executed | Notifications.FacultyNoticeAlwaysForbidden | Notifications.AssignedFacultyAccepted |

=== FILE: access.dfy ===
/** The role middleware: role gates, the permission check against the
    role table, and the check that a student only reaches their own
    records. Each gate is a decision; a denial carries the error kind the
    middleware throws. */
module Access {
  import opened Common
  import opened Constants
  import opened Profiles

  datatype Decision = Allowed | Denied(kind: ErrorKind)

  /** `authorize(...allowedRoles)`: no caller is 401, a role outside the
      list is 403. */
  function Authorize(caller: Option<User>, allowed: set<Role>): (d: Decision)
    ensures d == Allowed <==> caller.Some? && caller.value.role in allowed
    ensures d == Denied(Unauthorized) <==> caller.None?
    ensures d == Denied(Forbidden) <==> caller.Some? && caller.value.role !in allowed
  {
    if caller.None? then Denied(Unauthorized)
    else if caller.value.role !in allowed then Denied(Forbidden)
    else Allowed
  }

  /** `checkPermission(permission)`: the caller's role must hold the
      permission in the role table; an unknown role holds none. */
  function CheckPermission(caller: Option<User>, p: Permission): (d: Decision)
    ensures d == Allowed <==> caller.Some? && p in RolePermissions(caller.value.role)
    ensures d == Denied(Unauthorized) <==> caller.None?
    ensures caller.Some? && caller.value.role.OtherRole? ==> d == Denied(Forbidden)
  {
    if caller.None? then Denied(Unauthorized)
    else if p !in RolePermissions(caller.value.role) then Denied(Forbidden)
    else Allowed
  }

  /** `adminOnly`. */
  function AdminOnly(caller: Option<User>): (d: Decision)
    ensures d == Allowed <==> caller.Some? && caller.value.role == Admin
  {
    Authorize(caller, {Admin})
  }

  /** `facultyOrAdmin`. */
  function FacultyOrAdmin(caller: Option<User>): (d: Decision)
    ensures d == Allowed <==> caller.Some? && (caller.value.role == Faculty || caller.value.role == Admin)
  {
    Authorize(caller, {Faculty, Admin})
  }

  /** The two role gates agree with the permission table: faculty-or-admin
      is exactly the create (and update) permission, admin-only exactly the
      delete (and user-management) permission. */
  lemma GatesMatchPermissions(caller: Option<User>)
    ensures FacultyOrAdmin(caller) == CheckPermission(caller, Create)
    ensures FacultyOrAdmin(caller) == CheckPermission(caller, Update)
    ensures AdminOnly(caller) == CheckPermission(caller, Delete)
    ensures AdminOnly(caller) == CheckPermission(caller, ManageUsers)
  {
  }

  /** `restrictToOwnData`: staff pass, a request without a student id
      passes, and a student otherwise needs a profile (404) whose id is the
      requested one (403). `requested` is `params.studentId || params.id`. */
  function RestrictToOwnData(caller: Option<User>, requested: Option<Id>, students: map<Id, StudentDoc>): (d: Decision)
    ensures caller.None? ==> d == Denied(Unauthorized)
    ensures caller.Some? && (caller.value.role == Admin || caller.value.role == Faculty) ==> d == Allowed
    ensures caller.Some? && requested.None? ==> d == Allowed
    ensures d == Denied(NotFound) <==>
      && caller.Some? && caller.value.role != Admin && caller.value.role != Faculty
      && requested.Some? && StudentOfUser(students, caller.value.id).None?
    ensures d == Allowed && caller.Some? && caller.value.role != Admin && caller.value.role != Faculty && requested.Some? ==>
      requested.value in students && students[requested.value].user == caller.value.id
    ensures d.Denied? ==> d.kind in {Unauthorized, NotFound, Forbidden}
  {
    if caller.None? then Denied(Unauthorized)
    else if caller.value.role == Admin || caller.value.role == Faculty then Allowed
    else if requested.None? then Allowed
    else
      var own := StudentOfUser(students, caller.value.id);
      if own.None? then Denied(NotFound)
      else if own.value != requested.value then Denied(Forbidden)
      else Allowed
  }

  /** With the unique index on `Student.user` in place, a student with a
      profile is let through exactly when asking for that profile. */
  lemma OwnDataExact(caller: User, requested: Id, students: map<Id, StudentDoc>)
    requires UniqueStudents(students)
    requires caller.role != Admin && caller.role != Faculty
    requires StudentOfUser(students, caller.id).Some?
    ensures RestrictToOwnData(Some(caller), Some(requested), students) == Allowed <==>
      requested in students && students[requested].user == caller.id
    ensures RestrictToOwnData(Some(caller), Some(requested), students) != Allowed ==>
      RestrictToOwnData(Some(caller), Some(requested), students) == Denied(Forbidden)
  {
  }
}

=== FILE: assignments.dfy ===
/** Assignments and their submissions: a faculty member publishes an
    assignment for a subject, students submit once each (late when past the
    due date), staff grade the submissions, and deleting an assignment
    takes its submissions with it. */
module Assignments {
  import opened Common
  import opened Store
  import opened Text
  import opened Profiles

  // ----- Schemas -----

  /** An assignment; the uploaded file is reduced to its stored path. */
  datatype AssignmentDoc = AssignmentDoc(
    title: string,
    description: string,
    subject: Id,
    faculty: Id,
    filePath: string,
    dueDate: Time,
    totalMarks: int)

  const DefaultTotalMarks := 100

  /** What the assignment schema enforces on save: `title` required after
      trimming, `description` trimmed, a file path, `totalMarks >= 0`. */
  predicate AssignmentSchemaValid(a: AssignmentDoc) {
    && a.title != "" && Trimmed(a.title)
    && Trimmed(a.description)
    && a.filePath != ""
    && a.totalMarks >= 0
  }

  datatype SubmissionStatus = Submitted | Late | Graded

  datatype SubmissionDoc = SubmissionDoc(
    assignment: Id,
    student: Id,
    filePath: string,
    submittedAt: Time,
    marks: Option<real>,
    feedback: string,
    status: SubmissionStatus)

  /** What the submission schema enforces on save: a file path, marks (when
      set) at least 0, trimmed feedback. */
  predicate SubmissionSchemaValid(s: SubmissionDoc) {
    && s.filePath != ""
    && (s.marks.Some? ==> s.marks.value >= 0.0)
    && Trimmed(s.feedback)
  }

  /** A submission carries marks exactly when it has been graded. */
  predicate GradedWhenMarked(s: SubmissionDoc) {
    s.status == Graded <==> s.marks.Some?
  }

  /** The unique index on (assignment, student). */
  ghost predicate UniqueSubmissions(m: map<Id, SubmissionDoc>) {
    forall i, j :: i in m && j in m && i != j ==>
      m[i].assignment != m[j].assignment || m[i].student != m[j].student
  }

  /** Both collections together. */
  datatype Coursework = Coursework(assignments: Collection<AssignmentDoc>, submissions: Collection<SubmissionDoc>)

  /** Every submission belongs to an assignment that still exists. */
  ghost predicate NoOrphans(st: Coursework) {
    forall i :: i in st.submissions.docs ==> st.submissions.docs[i].assignment in st.assignments.docs
  }

  ghost predicate CourseworkInvariant(st: Coursework) {
    && st.assignments.Valid() && st.submissions.Valid()
    && (forall i :: i in st.assignments.docs ==> AssignmentSchemaValid(st.assignments.docs[i]))
    && (forall i :: i in st.submissions.docs ==>
          SubmissionSchemaValid(st.submissions.docs[i]) && GradedWhenMarked(st.submissions.docs[i]))
    && UniqueSubmissions(st.submissions.docs)
    && NoOrphans(st)
  }

  /** The `submissionCount` virtual's query: submissions of assignment `a`. */
  function OfAssignment(a: Id): SubmissionDoc -> bool {
    (s: SubmissionDoc) => s.assignment == a
  }

  /** The `submissionCount` virtual: how many submissions reference `a`. */
  function SubmissionCount(subs: map<Id, SubmissionDoc>, a: Id): (n: nat)
    ensures n <= |subs|
    ensures n == 0 <==> forall i :: i in subs ==> subs[i].assignment != a
  {
    var n := Count(subs, OfAssignment(a));
    assert n == 0 <==> Matching(subs, OfAssignment(a)) == {} by {
      if Matching(subs, OfAssignment(a)) != {} {
        var i :| i in Matching(subs, OfAssignment(a));
      }
    }
    n
  }

  // ----- createAssignment -----

  /** The multipart form of a new assignment. A form field arrives as
      text, so only an absent or empty field is falsy: an absent title is
      "", an absent id, date or number is `None`. */
  datatype AssignmentInput = AssignmentInput(
    title: string,
    description: string,
    subject: Option<Id>,
    dueDate: Option<Time>,
    totalMarks: Option<int>)

  predicate MissingField(in_: AssignmentInput) {
    in_.title == "" || in_.subject.None? || in_.dueDate.None?
  }

  /** The document `Assignment.create` builds, after the schema's trimming
      and defaults. */
  function NewAssignment(in_: AssignmentInput, faculty: Id, path: string): (a: AssignmentDoc)
    requires !MissingField(in_)
    ensures a.title == Trim(in_.title) && a.description == Trim(in_.description)
    ensures a.subject == in_.subject.value && a.dueDate == in_.dueDate.value
    ensures a.faculty == faculty && a.filePath == path
    ensures in_.totalMarks.None? ==> a.totalMarks == DefaultTotalMarks
    ensures in_.totalMarks.Some? ==> a.totalMarks == in_.totalMarks.value
    ensures AssignmentSchemaValid(a) <==> Trim(in_.title) != "" && path != "" && a.totalMarks >= 0
  {
    AssignmentDoc(Trim(in_.title), Trim(in_.description), in_.subject.value, faculty, path,
                  in_.dueDate.value, in_.totalMarks.GetOr(DefaultTotalMarks))
  }

  /** `createAssignment`: 400 without title, subject or due date, 400
      without a file, 404 when the caller has no faculty profile, 400 when
      the schema refuses the document; otherwise the assignment is stored
      under the caller's faculty profile. */
  function CreateAssignment(st: Coursework, faculties: map<Id, FacultyDoc>, caller: User,
                            in_: AssignmentInput, file: Option<string>): (r: Step<Coursework, Id>)
    ensures MissingField(in_) ==> r.out == Err(BadRequest)
    ensures !MissingField(in_) && file.None? ==> r.out == Err(BadRequest)
    ensures !MissingField(in_) && file.Some? && FacultyOfUser(faculties, caller.id).None? ==> r.out == Err(NotFound)
    ensures r.out.Ok? <==>
      && !MissingField(in_) && file.Some? && file.value != ""
      && FacultyOfUser(faculties, caller.id).Some?
      && Trim(in_.title) != ""
      && in_.totalMarks.GetOr(DefaultTotalMarks) >= 0
    ensures r.out.Err? ==> r.out.error in {BadRequest, NotFound} && r.state == st
    ensures r.state.submissions == st.submissions
    ensures r.out.Ok? ==>
      && r.out.value == st.assignments.next
      && r.state.assignments == st.assignments.Insert(
           NewAssignment(in_, FacultyOfUser(faculties, caller.id).value, file.value))
  {
    if MissingField(in_) then Step(st, Err(BadRequest))
    else if file.None? then Step(st, Err(BadRequest))
    else
      var f := FacultyOfUser(faculties, caller.id);
      if f.None? then Step(st, Err(NotFound))
      else
        var a := NewAssignment(in_, f.value, file.value);
        if !AssignmentSchemaValid(a) then Step(st, Err(BadRequest))
        else Step(st.(assignments := st.assignments.Insert(a)), Ok(st.assignments.next))
  }

  /** The created assignment belongs to the caller's own faculty profile. */
  lemma CreatedByCaller(st: Coursework, faculties: map<Id, FacultyDoc>, caller: User,
                        in_: AssignmentInput, file: Option<string>)
    requires st.assignments.Valid()
    requires CreateAssignment(st, faculties, caller, in_, file).out.Ok?
    ensures CreateAssignment(st, faculties, caller, in_, file).out.value in
              CreateAssignment(st, faculties, caller, in_, file).state.assignments.docs
    ensures Owns(faculties, caller, CreateAssignment(st, faculties, caller, in_, file).state.assignments.docs[st.assignments.next])
  {
  }

  // ----- getAssignments / getAssignmentById -----

  /** The faculty filter `getAssignments` adds: a Faculty caller's own
      profile when one is found, and none for anyone else (a Faculty caller
      without a profile included). */
  function FacultyFilter(faculties: map<Id, FacultyDoc>, caller: User): (f: Option<Id>)
    ensures f.Some? <==> caller.role == Faculty && FacultyOfUser(faculties, caller.id).Some?
    ensures f.Some? ==> f == FacultyOfUser(faculties, caller.id)
  {
    if caller.role == Faculty then FacultyOfUser(faculties, caller.id) else None
  }

  /** The query `getAssignments` builds: the subject when given, the
      faculty filter when there is one. */
  predicate InListing(own: Option<Id>, subject: Option<Id>, a: AssignmentDoc) {
    && (subject.Some? ==> a.subject == subject.value)
    && (own.Some? ==> a.faculty == own.value)
  }

  /** An assignment as listed: its id and the populated submission count. */
  datatype AssignmentView = AssignmentView(id: Id, submissionCount: nat)

  function ViewOf(st: Coursework, id: Id): (v: AssignmentView)
    ensures v.id == id
    ensures v.submissionCount == SubmissionCount(st.submissions.docs, id)
  {
    AssignmentView(id, SubmissionCount(st.submissions.docs, id))
  }

  /** `getAssignments`: every assignment the query matches, each with its
      submission count. */
  function GetAssignments(st: Coursework, faculties: map<Id, FacultyDoc>, caller: User,
                          subject: Option<Id>): (r: seq<AssignmentView>)
    ensures forall k :: 0 <= k < |r| ==>
      && r[k].id in st.assignments.docs
      && InListing(FacultyFilter(faculties, caller), subject, st.assignments.docs[r[k].id])
      && r[k] == ViewOf(st, r[k].id)
    ensures forall i :: i in st.assignments.docs && InListing(FacultyFilter(faculties, caller), subject, st.assignments.docs[i]) ==>
      exists k :: 0 <= k < |r| && r[k].id == i
    ensures forall k, l :: 0 <= k < l < |r| ==> r[k].id < r[l].id
  {
    var own := FacultyFilter(faculties, caller);
    var ids := Where(st.assignments.docs, (a: AssignmentDoc) => InListing(own, subject, a));
    var r := ViewsOf(st, ids);
    assert forall i :: i in st.assignments.docs && InListing(own, subject, st.assignments.docs[i]) ==>
      exists k :: 0 <= k < |r| && r[k].id == i by {
      forall i | i in st.assignments.docs && InListing(own, subject, st.assignments.docs[i])
        ensures exists k :: 0 <= k < |r| && r[k].id == i
      {
        assert i in ids;
        var k :| 0 <= k < |ids| && ids[k] == i;
        assert r[k].id == i;
      }
    }
    r
  }

  /** The views of the listed ids, in the listing's order. */
  function ViewsOf(st: Coursework, ids: seq<Id>): (r: seq<AssignmentView>)
    ensures |r| == |ids|
    ensures forall k :: 0 <= k < |r| ==> r[k] == ViewOf(st, ids[k])
  {
    seq(|ids|, k requires 0 <= k < |ids| => ViewOf(st, ids[k]))
  }

  /** A Faculty caller with a profile sees exactly their own assignments:
      every listed one is theirs, and every one of theirs is listed. */
  lemma FacultySeesOwn(st: Coursework, faculties: map<Id, FacultyDoc>, caller: User, f: Id)
    requires caller.role == Faculty
    requires FacultyOfUser(faculties, caller.id) == Some(f)
    ensures forall k :: 0 <= k < |GetAssignments(st, faculties, caller, None)| ==>
      st.assignments.docs[GetAssignments(st, faculties, caller, None)[k].id].faculty == f
    ensures forall i :: i in st.assignments.docs && st.assignments.docs[i].faculty == f ==>
      exists k :: 0 <= k < |GetAssignments(st, faculties, caller, None)| && GetAssignments(st, faculties, caller, None)[k].id == i
  {
    var r := GetAssignments(st, faculties, caller, None);
    forall i | i in st.assignments.docs && st.assignments.docs[i].faculty == f
      ensures exists k :: 0 <= k < |r| && r[k].id == i
    {
      assert InListing(FacultyFilter(faculties, caller), None, st.assignments.docs[i]);
    }
  }

  /** An Admin caller, or a Faculty caller without a profile, sees every
      assignment of the requested subject. */
  lemma UnfilteredListing(st: Coursework, faculties: map<Id, FacultyDoc>, caller: User, subject: Id)
    requires caller.role != Faculty || FacultyOfUser(faculties, caller.id).None?
    ensures forall i :: i in st.assignments.docs && st.assignments.docs[i].subject == subject ==>
      exists k :: 0 <= k < |GetAssignments(st, faculties, caller, Some(subject))| &&
        GetAssignments(st, faculties, caller, Some(subject))[k].id == i
  {
    var r := GetAssignments(st, faculties, caller, Some(subject));
    forall i | i in st.assignments.docs && st.assignments.docs[i].subject == subject
      ensures exists k :: 0 <= k < |r| && r[k].id == i
    {
      assert InListing(FacultyFilter(faculties, caller), Some(subject), st.assignments.docs[i]);
    }
  }

  /** `getAssignmentById`: 404 for an unknown id, else the assignment and
      its submission count. */
  function GetAssignmentById(st: Coursework, id: Id): (r: Outcome<AssignmentView>)
    ensures r == Err(NotFound) <==> id !in st.assignments.docs
    ensures r.Ok? ==> r.value.id == id && r.value.submissionCount == SubmissionCount(st.submissions.docs, id)
  {
    if id !in st.assignments.docs then Err(NotFound) else Ok(ViewOf(st, id))
  }

  // ----- deleteAssignment -----

  /** The caller's faculty profile is the assignment's author. */
  predicate Owns(faculties: map<Id, FacultyDoc>, caller: User, a: AssignmentDoc) {
    FacultyOfUser(faculties, caller.id) == Some(a.faculty)
  }

  /** `deleteMany({ assignment: id })`. */
  function DropSubmissionsOf(subs: Collection<SubmissionDoc>, id: Id): (c: Collection<SubmissionDoc>)
    ensures c.next == subs.next
    ensures forall i :: i in c.docs <==> i in subs.docs && subs.docs[i].assignment != id
    ensures forall i :: i in c.docs ==> c.docs[i] == subs.docs[i]
  {
    Collection(map i | i in subs.docs && subs.docs[i].assignment != id :: subs.docs[i], subs.next)
  }

  /** `deleteAssignment`: 404 for an unknown id; a Faculty caller who is
      not the author (including one without a profile) is refused 403;
      otherwise the assignment and every submission referencing it go. */
  function DeleteAssignment(st: Coursework, faculties: map<Id, FacultyDoc>, caller: User, id: Id): (r: Step<Coursework, Id>)
    ensures r.out == Err(NotFound) <==> id !in st.assignments.docs
    ensures r.out == Err(Forbidden) <==>
      id in st.assignments.docs && caller.role == Faculty && !Owns(faculties, caller, st.assignments.docs[id])
    ensures r.out.Err? ==> r.state == st
    ensures r.out.Ok? ==>
      && r.out.value == id
      && r.state.assignments.next == st.assignments.next
      && (forall i :: i in r.state.assignments.docs <==> i in st.assignments.docs && i != id)
      && (forall i :: i in r.state.assignments.docs ==> r.state.assignments.docs[i] == st.assignments.docs[i])
      && SubmissionCount(r.state.submissions.docs, id) == 0
      && (forall i :: i in st.submissions.docs && st.submissions.docs[i].assignment != id ==>
            i in r.state.submissions.docs && r.state.submissions.docs[i] == st.submissions.docs[i])
  {
    if id !in st.assignments.docs then Step(st, Err(NotFound))
    else if caller.role == Faculty && !Owns(faculties, caller, st.assignments.docs[id]) then Step(st, Err(Forbidden))
    else
      var subs := DropSubmissionsOf(st.submissions, id);
      var rest := Collection(st.assignments.docs - {id}, st.assignments.next);
      Step(Coursework(rest, subs), Ok(id))
  }

  // ----- submitAssignment -----

  /** Whether a submission made at `now` is late: strictly after the due
      date. */
  function StatusAt(dueDate: Time, now: Time): (s: SubmissionStatus)
    ensures s == Late <==> now > dueDate
    ensures s != Graded
  {
    if now > dueDate then Late else Submitted
  }

  /** The document `Submission.create` builds for a student's upload at
      `now`: no marks, empty feedback, late exactly when past the due
      date. */
  function NewSubmission(assignment: Id, student: Id, path: string, now: Time, dueDate: Time): (s: SubmissionDoc)
    ensures s.assignment == assignment && s.student == student
    ensures s.filePath == path && s.submittedAt == now
    ensures s.marks.None? && s.feedback == ""
    ensures s.status == Late <==> now > dueDate
    ensures s.status == Submitted <==> now <= dueDate
    ensures GradedWhenMarked(s)
    ensures SubmissionSchemaValid(s) <==> path != ""
  {
    SubmissionDoc(assignment, student, path, now, None, "", StatusAt(dueDate, now))
  }

  /** `Submission.findOne({ assignment, student })`. */
  function SubmissionOf(subs: map<Id, SubmissionDoc>, assignment: Id, student: Id): (r: Option<Id>)
    ensures r.Some? ==> r.value in subs && subs[r.value].assignment == assignment && subs[r.value].student == student
    ensures r.None? <==> forall i :: i in subs ==> subs[i].assignment != assignment || subs[i].student != student
  {
    FindFirst(subs, (s: SubmissionDoc) => s.assignment == assignment && s.student == student)
  }

  /** Under the unique index a student's submission for an assignment is
      the only one. */
  lemma SubmissionOfIsTheOne(subs: map<Id, SubmissionDoc>, assignment: Id, student: Id, i: Id)
    requires UniqueSubmissions(subs)
    requires i in subs && subs[i].assignment == assignment && subs[i].student == student
    ensures SubmissionOf(subs, assignment, student) == Some(i)
  {
  }

  /** `submitAssignment`: 404 for an unknown assignment, 400 without a
      file, 404 without a student profile, 409 when this student already
      submitted; otherwise a new submission, `Late` exactly when `now` is
      past the due date, with no marks and empty feedback. */
  function SubmitAssignment(st: Coursework, students: map<Id, StudentDoc>, caller: User,
                            assignment: Id, file: Option<string>, now: Time): (r: Step<Coursework, Id>)
    ensures r.out == Err(NotFound) <==>
      assignment !in st.assignments.docs || (file.Some? && StudentOfUser(students, caller.id).None?)
    ensures assignment in st.assignments.docs && file.None? ==> r.out == Err(BadRequest)
    ensures r.out == Err(Conflict) <==>
      && assignment in st.assignments.docs && file.Some?
      && StudentOfUser(students, caller.id).Some?
      && SubmissionOf(st.submissions.docs, assignment, StudentOfUser(students, caller.id).value).Some?
    ensures r.out.Ok? <==>
      && assignment in st.assignments.docs && file.Some? && file.value != ""
      && StudentOfUser(students, caller.id).Some?
      && SubmissionOf(st.submissions.docs, assignment, StudentOfUser(students, caller.id).value).None?
    ensures r.out.Err? ==> r.state == st
    ensures r.state.assignments == st.assignments
    ensures st.submissions.Valid() ==> forall i :: i in st.submissions.docs ==>
      i in r.state.submissions.docs && r.state.submissions.docs[i] == st.submissions.docs[i]
    ensures r.out.Ok? ==>
      && r.out.value == st.submissions.next
      && r.state.submissions == st.submissions.Insert(
           NewSubmission(assignment, StudentOfUser(students, caller.id).value, file.value, now,
                         st.assignments.docs[assignment].dueDate))
  {
    if assignment !in st.assignments.docs then Step(st, Err(NotFound))
    else if file.None? then Step(st, Err(BadRequest))
    else
      var student := StudentOfUser(students, caller.id);
      if student.None? then Step(st, Err(NotFound))
      else if SubmissionOf(st.submissions.docs, assignment, student.value).Some? then Step(st, Err(Conflict))
      else
        var s := NewSubmission(assignment, student.value, file.value, now, st.assignments.docs[assignment].dueDate);
        if !SubmissionSchemaValid(s) then Step(st, Err(BadRequest))
        else Step(st.(submissions := st.submissions.Insert(s)), Ok(st.submissions.next))
  }

  /** A second submission of the same student for the same assignment is
      refused, whatever the time or the file. */
  lemma SubmitOnce(st: Coursework, students: map<Id, StudentDoc>, caller: User,
                   assignment: Id, file: Option<string>, now: Time, file2: Option<string>, later: Time)
    requires CourseworkInvariant(st)
    requires SubmitAssignment(st, students, caller, assignment, file, now).out.Ok?
    requires file2.Some?
    ensures SubmitAssignment(SubmitAssignment(st, students, caller, assignment, file, now).state,
                             students, caller, assignment, file2, later).out == Err(Conflict)
  {
    var r := SubmitAssignment(st, students, caller, assignment, file, now);
    var s := r.state.submissions.docs[r.out.value];
    assert s.assignment == assignment && s.student == StudentOfUser(students, caller.id).value;
  }

  /** A successful submission raises its assignment's submission count by
      one and leaves every other assignment's count alone. */
  lemma SubmitCounts(st: Coursework, students: map<Id, StudentDoc>, caller: User,
                     assignment: Id, file: Option<string>, now: Time, other: Id)
    requires CourseworkInvariant(st)
    requires SubmitAssignment(st, students, caller, assignment, file, now).out.Ok?
    ensures SubmissionCount(SubmitAssignment(st, students, caller, assignment, file, now).state.submissions.docs, assignment)
            == SubmissionCount(st.submissions.docs, assignment) + 1
    ensures other != assignment ==>
      SubmissionCount(SubmitAssignment(st, students, caller, assignment, file, now).state.submissions.docs, other)
      == SubmissionCount(st.submissions.docs, other)
  {
    var r := SubmitAssignment(st, students, caller, assignment, file, now);
    var s := r.state.submissions.docs[r.out.value];
    InsertCount(st.submissions, s, OfAssignment(assignment));
    InsertCount(st.submissions, s, OfAssignment(other));
  }

  // ----- getSubmissions / getMySubmission -----

  /** `getSubmissions`: every submission of the assignment. */
  function GetSubmissions(st: Coursework, assignment: Id): (r: seq<Id>)
    ensures forall i :: i in r <==> i in st.submissions.docs && st.submissions.docs[i].assignment == assignment
    ensures |r| == SubmissionCount(st.submissions.docs, assignment)
  {
    Where(st.submissions.docs, OfAssignment(assignment))
  }

  /** `getMySubmission`: 404 without a student profile, else the caller's
      submission for the assignment or none. */
  function GetMySubmission(st: Coursework, students: map<Id, StudentDoc>, caller: User, assignment: Id): (r: Outcome<Option<Id>>)
    ensures r == Err(NotFound) <==> StudentOfUser(students, caller.id).None?
    ensures r.Ok? && r.value.Some? ==>
      && r.value.value in st.submissions.docs
      && st.submissions.docs[r.value.value].assignment == assignment
      && st.submissions.docs[r.value.value].student in students
      && students[st.submissions.docs[r.value.value].student].user == caller.id
    ensures r.Ok? && r.value.None? ==>
      forall i :: i in st.submissions.docs && st.submissions.docs[i].assignment == assignment ==>
        st.submissions.docs[i].student != StudentOfUser(students, caller.id).value
  {
    var student := StudentOfUser(students, caller.id);
    if student.None? then Err(NotFound)
    else Ok(SubmissionOf(st.submissions.docs, assignment, student.value))
  }

  // ----- gradeSubmission -----

  /** The submission after grading: the marks, the trimmed feedback and
      `Graded` set; who submitted what and when is kept. */
  function Regraded(was: SubmissionDoc, marks: real, feedback: string): (s: SubmissionDoc)
    ensures s.marks == Some(marks) && s.feedback == Trim(feedback) && s.status == Graded
    ensures s.assignment == was.assignment && s.student == was.student
    ensures s.filePath == was.filePath && s.submittedAt == was.submittedAt
    ensures GradedWhenMarked(s)
    ensures SubmissionSchemaValid(s) <==> marks >= 0.0 && was.filePath != ""
  {
    was.(marks := Some(marks), feedback := Trim(feedback), status := Graded)
  }

  /** `gradeSubmission`: 400 without marks (checked first), 404 for an
      unknown submission, 400 when the schema refuses the saved document
      (negative marks); otherwise that one submission is regraded and
      nothing else changes. */
  function GradeSubmission(st: Coursework, id: Id, marks: Option<real>, feedback: string): (r: Step<Coursework, Id>)
    ensures marks.None? ==> r.out == Err(BadRequest)
    ensures r.out == Err(NotFound) <==> marks.Some? && id !in st.submissions.docs
    ensures r.out.Ok? <==>
      marks.Some? && id in st.submissions.docs && marks.value >= 0.0 && st.submissions.docs[id].filePath != ""
    ensures r.out.Err? ==> r.state == st
    ensures r.state.assignments == st.assignments
    ensures r.out.Ok? ==>
      && r.out.value == id
      && r.state.submissions.next == st.submissions.next
      && r.state.submissions.docs == st.submissions.docs[id := Regraded(st.submissions.docs[id], marks.value, feedback)]
  {
    if marks.None? then Step(st, Err(BadRequest))
    else if id !in st.submissions.docs then Step(st, Err(NotFound))
    else
      var s := Regraded(st.submissions.docs[id], marks.value, feedback);
      if !SubmissionSchemaValid(s) then Step(st, Err(BadRequest))
      else Step(st.(submissions := Collection(st.submissions.docs[id := s], st.submissions.next)), Ok(id))
  }

  /** Grading again with the same marks and feedback changes nothing. */
  lemma GradeIdempotent(st: Coursework, id: Id, marks: Option<real>, feedback: string)
    requires GradeSubmission(st, id, marks, feedback).out.Ok?
    ensures GradeSubmission(GradeSubmission(st, id, marks, feedback).state, id, marks, feedback)
            == GradeSubmission(st, id, marks, feedback)
  {
    var r := GradeSubmission(st, id, marks, feedback);
    var st2 := r.state;
    var s := Regraded(st.submissions.docs[id], marks.value, feedback);
    assert st2.submissions.docs == st.submissions.docs[id := s];
    RegradedAgain(st.submissions.docs[id], marks.value, feedback);
    assert st2.submissions.docs[id := s] == st2.submissions.docs;
    var r2 := GradeSubmission(st2, id, marks, feedback);
    assert r2.out == Ok(id);
    assert r2.state.submissions == Collection(st2.submissions.docs[id := s], st2.submissions.next);
  }

  /** Regrading a regraded submission with the same marks and feedback
      gives it back unchanged. */
  lemma RegradedAgain(was: SubmissionDoc, marks: real, feedback: string)
    ensures Regraded(Regraded(was, marks, feedback), marks, feedback) == Regraded(was, marks, feedback)
  {
    TrimIdempotent(feedback);
  }

  /** No operation turns a graded submission back into a submitted or late
      one. A new submission leaves the graded one alone ... */
  lemma SubmitKeepsGraded(st: Coursework, i: Id, students: map<Id, StudentDoc>, caller: User,
                          assignment: Id, file: Option<string>, now: Time)
    requires st.submissions.Valid()
    requires i in st.submissions.docs && st.submissions.docs[i].status == Graded
    ensures i in SubmitAssignment(st, students, caller, assignment, file, now).state.submissions.docs
    ensures SubmitAssignment(st, students, caller, assignment, file, now).state.submissions.docs[i].status == Graded
  {
  }

  /** ... grading (any submission) keeps it graded ... */
  lemma GradeKeepsGraded(st: Coursework, i: Id, id: Id, marks: Option<real>, feedback: string)
    requires i in st.submissions.docs && st.submissions.docs[i].status == Graded
    ensures i in GradeSubmission(st, id, marks, feedback).state.submissions.docs
    ensures GradeSubmission(st, id, marks, feedback).state.submissions.docs[i].status == Graded
  {
  }

  /** ... and a delete either removes it or leaves it as it was. */
  lemma DeleteKeepsGraded(st: Coursework, i: Id, faculties: map<Id, FacultyDoc>, caller: User, id: Id)
    requires i in st.submissions.docs && st.submissions.docs[i].status == Graded
    ensures i in DeleteAssignment(st, faculties, caller, id).state.submissions.docs ==>
      DeleteAssignment(st, faculties, caller, id).state.submissions.docs[i].status == Graded
  {
  }

  // ----- The invariant -----

  /** Storing a schema-valid assignment keeps the collections consistent. */
  lemma InsertAssignmentKeeps(st: Coursework, a: AssignmentDoc)
    requires CourseworkInvariant(st)
    requires AssignmentSchemaValid(a)
    ensures CourseworkInvariant(st.(assignments := st.assignments.Insert(a)))
  {
    var after := st.(assignments := st.assignments.Insert(a));
    forall i | i in after.assignments.docs
      ensures AssignmentSchemaValid(after.assignments.docs[i])
    {
      if i != st.assignments.next {
        assert after.assignments.docs[i] == st.assignments.docs[i];
      }
    }
  }

  /** Creating an assignment keeps the collections consistent. */
  lemma CreateKeepsInvariant(st: Coursework, faculties: map<Id, FacultyDoc>, caller: User,
                             in_: AssignmentInput, file: Option<string>)
    requires CourseworkInvariant(st)
    ensures CourseworkInvariant(CreateAssignment(st, faculties, caller, in_, file).state)
  {
    var r := CreateAssignment(st, faculties, caller, in_, file);
    if r.out.Ok? {
      var a := NewAssignment(in_, FacultyOfUser(faculties, caller.id).value, file.value);
      InsertAssignmentKeeps(st, a);
    }
  }

  /** Deleting an assignment keeps the collections consistent; in
      particular no submission is left pointing at it. */
  lemma DeleteKeepsInvariant(st: Coursework, faculties: map<Id, FacultyDoc>, caller: User, id: Id)
    requires CourseworkInvariant(st)
    ensures CourseworkInvariant(DeleteAssignment(st, faculties, caller, id).state)
  {
    var r := DeleteAssignment(st, faculties, caller, id);
    if r.out.Ok? {
      var subs := r.state.submissions.docs;
      forall i | i in subs ensures subs[i].assignment in r.state.assignments.docs {
        assert subs[i] == st.submissions.docs[i];
      }
      assert UniqueSubmissions(subs) by {
        forall i, j | i in subs && j in subs && i != j
          ensures subs[i].assignment != subs[j].assignment || subs[i].student != subs[j].student
        {
          assert subs[i] == st.submissions.docs[i] && subs[j] == st.submissions.docs[j];
        }
      }
    }
  }

  /** Submitting keeps the collections consistent: the refused duplicate
      is what keeps (assignment, student) unique. */
  lemma SubmitKeepsInvariant(st: Coursework, students: map<Id, StudentDoc>, caller: User,
                             assignment: Id, file: Option<string>, now: Time)
    requires CourseworkInvariant(st)
    ensures CourseworkInvariant(SubmitAssignment(st, students, caller, assignment, file, now).state)
  {
    var r := SubmitAssignment(st, students, caller, assignment, file, now);
    if r.out.Ok? {
      var me := StudentOfUser(students, caller.id).value;
      var s := NewSubmission(assignment, me, file.value, now, st.assignments.docs[assignment].dueDate);
      var subs := r.state.submissions.docs;
      assert subs == st.submissions.docs[st.submissions.next := s];
      assert UniqueSubmissions(subs) by {
        forall i, j | i in subs && j in subs && i != j
          ensures subs[i].assignment != subs[j].assignment || subs[i].student != subs[j].student
        {
          if i == st.submissions.next {
            assert j in st.submissions.docs;
          } else if j == st.submissions.next {
            assert i in st.submissions.docs;
          }
        }
      }
    }
  }

  /** Replacing a submission by a valid one for the same assignment and
      student keeps the collections consistent. */
  lemma ReplaceSubmissionKeeps(st: Coursework, id: Id, s: SubmissionDoc)
    requires CourseworkInvariant(st)
    requires id in st.submissions.docs
    requires s.assignment == st.submissions.docs[id].assignment && s.student == st.submissions.docs[id].student
    requires SubmissionSchemaValid(s) && GradedWhenMarked(s)
    ensures CourseworkInvariant(st.(submissions := Collection(st.submissions.docs[id := s], st.submissions.next)))
  {
    var subs := st.submissions.docs[id := s];
    assert UniqueSubmissions(subs) by {
      forall i, j | i in subs && j in subs && i != j
        ensures subs[i].assignment != subs[j].assignment || subs[i].student != subs[j].student
      {
        assert subs[i].assignment == st.submissions.docs[i].assignment && subs[i].student == st.submissions.docs[i].student;
        assert subs[j].assignment == st.submissions.docs[j].assignment && subs[j].student == st.submissions.docs[j].student;
      }
    }
  }

  /** Grading keeps the collections consistent. */
  lemma GradeKeepsInvariant(st: Coursework, id: Id, marks: Option<real>, feedback: string)
    requires CourseworkInvariant(st)
    ensures CourseworkInvariant(GradeSubmission(st, id, marks, feedback).state)
  {
    var r := GradeSubmission(st, id, marks, feedback);
    if r.out.Ok? {
      ReplaceSubmissionKeeps(st, id, Regraded(st.submissions.docs[id], marks.value, feedback));
    }
  }

  // ----- getStudentAssignments -----

  /** An assignment as a student sees it: its id and their own submission. */
  datatype StudentView = StudentView(id: Id, mySubmission: Option<Id>)

  /** `getStudentAssignments`: 404 without a student profile; otherwise
      every assignment of a subject the student is enrolled in, each with
      that student's submission or none. */
  function GetStudentAssignments(st: Coursework, students: map<Id, StudentDoc>, caller: User): (r: Outcome<seq<StudentView>>)
    ensures r == Err(NotFound) <==> StudentOfUser(students, caller.id).None?
    ensures r.Ok? ==>
      var me := StudentOfUser(students, caller.id).value;
      && (forall k :: 0 <= k < |r.value| ==>
            && r.value[k].id in st.assignments.docs
            && st.assignments.docs[r.value[k].id].subject in students[me].subjects
            && r.value[k].mySubmission == SubmissionOf(st.submissions.docs, r.value[k].id, me))
      && (forall i :: i in st.assignments.docs && st.assignments.docs[i].subject in students[me].subjects ==>
            exists k :: 0 <= k < |r.value| && r.value[k].id == i)
  {
    var student := StudentOfUser(students, caller.id);
    if student.None? then Err(NotFound)
    else
      var me := student.value;
      var ids := Where(st.assignments.docs, (a: AssignmentDoc) => a.subject in students[me].subjects);
      var views := StudentViewsOf(st, ids, me);
      assert forall i :: i in st.assignments.docs && st.assignments.docs[i].subject in students[me].subjects ==>
        exists k :: 0 <= k < |views| && views[k].id == i by {
        forall i | i in st.assignments.docs && st.assignments.docs[i].subject in students[me].subjects
          ensures exists k :: 0 <= k < |views| && views[k].id == i
        {
          assert i in ids;
          var k :| 0 <= k < |ids| && ids[k] == i;
          assert views[k].id == i;
        }
      }
      Ok(views)
  }

  /** The listed ids, each with the student's submission for it. */
  function StudentViewsOf(st: Coursework, ids: seq<Id>, me: Id): (r: seq<StudentView>)
    ensures |r| == |ids|
    ensures forall k :: 0 <= k < |r| ==> r[k].id == ids[k] && r[k].mySubmission == SubmissionOf(st.submissions.docs, ids[k], me)
  {
    seq(|ids|, k requires 0 <= k < |ids| => StudentView(ids[k], SubmissionOf(st.submissions.docs, ids[k], me)))
  }

  /** Under the unique index, the submission shown with an assignment is
      the student's only submission for it, and none is shown exactly when
      the student has not submitted. */
  lemma StudentViewShowsOwnSubmission(st: Coursework, students: map<Id, StudentDoc>, caller: User, k: nat)
    requires UniqueSubmissions(st.submissions.docs)
    requires GetStudentAssignments(st, students, caller).Ok?
    requires k < |GetStudentAssignments(st, students, caller).value|
    ensures var v := GetStudentAssignments(st, students, caller).value[k];
      var me := StudentOfUser(students, caller.id).value;
      && (v.mySubmission.None? <==>
            forall i :: i in st.submissions.docs ==> st.submissions.docs[i].assignment != v.id || st.submissions.docs[i].student != me)
      && (forall i :: i in st.submissions.docs && st.submissions.docs[i].assignment == v.id && st.submissions.docs[i].student == me ==>
            v.mySubmission == Some(i))
  {
    var v := GetStudentAssignments(st, students, caller).value[k];
    var me := StudentOfUser(students, caller.id).value;
    forall i | i in st.submissions.docs && st.submissions.docs[i].assignment == v.id && st.submissions.docs[i].student == me
      ensures v.mySubmission == Some(i)
    {
      SubmissionOfIsTheOne(st.submissions.docs, v.id, me, i);
    }
  }
}

=== FILE: attendance.dfy ===
/** The attendance store: one record per (student, subject, date) holding a
    Present/Absent status and the faculty member who marked it, and the
    handlers that mark (one at a time or in bulk), list, update and delete
    records. */
module Attendance {
  import opened Common
  import opened Store
  import opened Profiles
  import opened ResultStats

  datatype Status = Present | Absent

  function StatusName(s: Status): (n: string)
    ensures n == "Present" || n == "Absent"
  {
    match s
    case Present => "Present"
    case Absent => "Absent"
  }

  /** The status enum of the schema: exactly the two names are accepted. */
  function ParseStatus(n: string): (r: Option<Status>)
    ensures r.Some? <==> n == "Present" || n == "Absent"
  {
    if n == "Present" then Some(Present)
    else if n == "Absent" then Some(Absent)
    else None
  }

  lemma StatusRoundTrip(s: Status)
    ensures ParseStatus(StatusName(s)) == Some(s)
  {
  }

  /** A stored record. `markedBy` is required by the schema, but the bulk
      upsert does not run the schema's validators, so it can be null. */
  datatype AttendanceDoc = AttendanceDoc(
    student: Id,
    subject: Id,
    date: Time,
    status: Status,
    markedBy: Option<Id>)

  /** A record for this student and subject at exactly this instant. */
  predicate AtSlot(d: AttendanceDoc, student: Id, subject: Id, date: Time) {
    d.student == student && d.subject == subject && d.date == date
  }

  predicate HasSlot(m: map<Id, AttendanceDoc>, student: Id, subject: Id, date: Time) {
    exists i :: i in m && AtSlot(m[i], student, subject, date)
  }

  /** The unique index on (student, subject, date). */
  ghost predicate UniqueSlots(m: map<Id, AttendanceDoc>) {
    forall i, j :: i in m && j in m && i != j ==> !AtSlot(m[i], m[j].student, m[j].subject, m[j].date)
  }

  ghost predicate AttendanceInvariant(c: Collection<AttendanceDoc>) {
    c.Valid() && UniqueSlots(c.docs)
  }

  /** The faculty id of the caller: the token's claim, else the faculty
      profile of the user, else null. */
  function ResolveFacultyId(faculties: map<Id, FacultyDoc>, u: User): (r: Option<Id>)
    ensures u.facultyId.Some? ==> r == u.facultyId
    ensures u.facultyId.None? && r.Some? ==> r.value in faculties && faculties[r.value].user == u.id
    ensures r.None? <==> u.facultyId.None? && forall i :: i in faculties ==> faculties[i].user != u.id
  {
    if u.facultyId.Some? then u.facultyId else FacultyOfUser(faculties, u.id)
  }

  /** Storing a record at a free slot keeps the unique index. */
  lemma InsertFreeSlot(c: Collection<AttendanceDoc>, d: AttendanceDoc)
    requires AttendanceInvariant(c)
    requires !HasSlot(c.docs, d.student, d.subject, d.date)
    ensures AttendanceInvariant(c.Insert(d))
  {
    var m := c.Insert(d).docs;
    forall i, j | i in m && j in m && i != j
      ensures !AtSlot(m[i], m[j].student, m[j].subject, m[j].date)
    {
      if i == c.next { assert m[j] == c.docs[j]; }
      else if j == c.next { assert m[i] == c.docs[i]; }
      else { assert m[i] == c.docs[i] && m[j] == c.docs[j]; }
    }
  }

  // ----- markAttendance -----

  /** The body of a single mark; a property that is not sent is None, or
      "" for the status. */
  datatype MarkInput = MarkInput(student: Option<Id>, subject: Option<Id>, date: Option<Time>, status: string)

  predicate MissingField(in_: MarkInput) {
    in_.student.None? || in_.subject.None? || in_.status == ""
  }

  /** `markAttendance` as written: 400 for a missing field; 409 when a
      record exists at midnight of the requested day; then the record is
      created with the date as sent (or now), so the schema (unknown
      status, no faculty id: 400) and the unique index on the exact
      instant (409) decide. */
  function MarkAttendance(c: Collection<AttendanceDoc>, faculties: map<Id, FacultyDoc>, caller: User, in_: MarkInput, now: Time): (r: Step<Collection<AttendanceDoc>, Id>)
    ensures MissingField(in_) ==> r.out == Err(BadRequest)
    ensures !MissingField(in_) && HasSlot(c.docs, in_.student.value, in_.subject.value, Midnight(in_.date.GetOr(now))) ==>
      r.out == Err(Conflict)
    ensures r.out.Ok? <==>
      && !MissingField(in_)
      && !HasSlot(c.docs, in_.student.value, in_.subject.value, Midnight(in_.date.GetOr(now)))
      && ParseStatus(in_.status).Some?
      && ResolveFacultyId(faculties, caller).Some?
      && !HasSlot(c.docs, in_.student.value, in_.subject.value, in_.date.GetOr(now))
    ensures r.out.Err? ==> r.state == c && r.out.error in {BadRequest, Conflict}
    ensures r.out.Ok? ==>
      && r.out.value == c.next
      && r.state.docs == c.docs[c.next := AttendanceDoc(in_.student.value, in_.subject.value, in_.date.GetOr(now),
                                                        ParseStatus(in_.status).value, ResolveFacultyId(faculties, caller))]
    ensures AttendanceInvariant(c) ==> AttendanceInvariant(r.state)
  {
    if MissingField(in_) then Step(c, Err(BadRequest))
    else
      var when := in_.date.GetOr(now);
      if HasSlot(c.docs, in_.student.value, in_.subject.value, Midnight(when)) then Step(c, Err(Conflict))
      else
        var status := ParseStatus(in_.status);
        var marker := ResolveFacultyId(faculties, caller);
        if status.None? || marker.None? then Step(c, Err(BadRequest))
        else if HasSlot(c.docs, in_.student.value, in_.subject.value, when) then Step(c, Err(Conflict))
        else
          var d := AttendanceDoc(in_.student.value, in_.subject.value, when, status.value, marker);
          assert AttendanceInvariant(c) ==> AttendanceInvariant(c.Insert(d)) by {
            if AttendanceInvariant(c) { InsertFreeSlot(c, d); }
          }
          Step(c.Insert(d), Ok(c.next))
  }

  /** Two records for one student and subject on the same day. */
  predicate TwiceOnOneDay(m: map<Id, AttendanceDoc>) {
    exists i, j :: i in m && j in m && i != j
      && m[i].student == m[j].student && m[i].subject == m[j].subject
      && Midnight(m[i].date) == Midnight(m[j].date)
  }

  /** The duplicate check compares midnight while the record keeps the
      instant it was sent with, so marking the same student at 09:00 and
      again at 10:00 of one day succeeds both times. */
  lemma SameDayMarkedTwice()
    ensures var c0 := Collection(map[], 0);
            var caller := User(1, Faculty, Some(7));
            var r1 := MarkAttendance(c0, map[], caller, MarkInput(Some(2), Some(3), Some(9 * 3600000), "Present"), 0);
            var r2 := MarkAttendance(r1.state, map[], caller, MarkInput(Some(2), Some(3), Some(10 * 3600000), "Absent"), 0);
            r1.out.Ok? && r2.out.Ok? && TwiceOnOneDay(r2.state.docs)
  {
    var c0: Collection<AttendanceDoc> := Collection(map[], 0);
    var caller := User(1, Faculty, Some(7));
    var r1 := MarkAttendance(c0, map[], caller, MarkInput(Some(2), Some(3), Some(9 * 3600000), "Present"), 0);
    assert Midnight(9 * 3600000) == 0;
    assert r1.out.Ok?;
    assert r1.state.docs == map[0 := AttendanceDoc(2, 3, 9 * 3600000, Present, Some(7))];
    var r2 := MarkAttendance(r1.state, map[], caller, MarkInput(Some(2), Some(3), Some(10 * 3600000), "Absent"), 0);
    assert Midnight(10 * 3600000) == 0;
    assert !HasSlot(r1.state.docs, 2, 3, 0);
    assert r2.out.Ok?;
    assert r2.state.docs[0].date == 9 * 3600000 && r2.state.docs[1].date == 10 * 3600000;
  }

  /** A record for this student and subject on the day starting at `day`. */
  predicate HasDay(m: map<Id, AttendanceDoc>, student: Id, subject: Id, day: Time) {
    exists i :: i in m && m[i].student == student && m[i].subject == subject && Midnight(m[i].date) == day
  }

  /** At most one record per student, subject and day. */
  ghost predicate OnePerDay(m: map<Id, AttendanceDoc>) {
    forall i, j :: i in m && j in m && i != j ==>
      !(m[i].student == m[j].student && m[i].subject == m[j].subject && Midnight(m[i].date) == Midnight(m[j].date))
  }

  /** `markAttendance` as its message intends ("already marked for this
      student on this date"): the duplicate check looks for any record on
      the requested day. */
  function MarkAttendanceDaily(c: Collection<AttendanceDoc>, faculties: map<Id, FacultyDoc>, caller: User, in_: MarkInput, now: Time): (r: Step<Collection<AttendanceDoc>, Id>)
    ensures MissingField(in_) ==> r.out == Err(BadRequest)
    ensures r.out == Err(Conflict) <==>
      !MissingField(in_) && HasDay(c.docs, in_.student.value, in_.subject.value, Midnight(in_.date.GetOr(now)))
    ensures r.out.Ok? <==>
      && !MissingField(in_)
      && !HasDay(c.docs, in_.student.value, in_.subject.value, Midnight(in_.date.GetOr(now)))
      && ParseStatus(in_.status).Some?
      && ResolveFacultyId(faculties, caller).Some?
    ensures r.out.Err? ==> r.state == c
    ensures r.out.Ok? ==>
      r.state.docs == c.docs[c.next := AttendanceDoc(in_.student.value, in_.subject.value, in_.date.GetOr(now),
                                                     ParseStatus(in_.status).value, ResolveFacultyId(faculties, caller))]
    ensures c.Valid() && OnePerDay(c.docs) ==> r.state.Valid() && OnePerDay(r.state.docs)
  {
    if MissingField(in_) then Step(c, Err(BadRequest))
    else
      var when := in_.date.GetOr(now);
      if HasDay(c.docs, in_.student.value, in_.subject.value, Midnight(when)) then Step(c, Err(Conflict))
      else
        var status := ParseStatus(in_.status);
        var marker := ResolveFacultyId(faculties, caller);
        if status.None? || marker.None? then Step(c, Err(BadRequest))
        else
          var d := AttendanceDoc(in_.student.value, in_.subject.value, when, status.value, marker);
          assert c.Valid() && OnePerDay(c.docs) ==> OnePerDay(c.Insert(d).docs) by {
            if c.Valid() && OnePerDay(c.docs) {
              var m := c.Insert(d).docs;
              forall i, j | i in m && j in m && i != j
                ensures !(m[i].student == m[j].student && m[i].subject == m[j].subject && Midnight(m[i].date) == Midnight(m[j].date))
              {
                if i == c.next { assert m[j] == c.docs[j]; }
                else if j == c.next { assert m[i] == c.docs[i]; }
                else { assert m[i] == c.docs[i] && m[j] == c.docs[j]; }
              }
            }
          }
          Step(c.Insert(d), Ok(c.next))
  }

  /** With the day check, the second mark of a day is refused whatever
      the hour. */
  lemma DailyRefusesSameDay(c: Collection<AttendanceDoc>, faculties: map<Id, FacultyDoc>, caller: User, in_: MarkInput, later: MarkInput, now: Time)
    requires MarkAttendanceDaily(c, faculties, caller, in_, now).out.Ok?
    requires later.student == in_.student && later.subject == in_.subject && later.status != ""
    requires Midnight(later.date.GetOr(now)) == Midnight(in_.date.GetOr(now))
    ensures MarkAttendanceDaily(MarkAttendanceDaily(c, faculties, caller, in_, now).state, faculties, caller, later, now).out
            == Err(Conflict)
  {
    var r := MarkAttendanceDaily(c, faculties, caller, in_, now);
    assert r.state.docs[c.next].student == in_.student.value;
    assert HasDay(r.state.docs, in_.student.value, in_.subject.value, Midnight(in_.date.GetOr(now)));
  }

  /** One record per day is stricter than one record per instant. */
  lemma OnePerDayIsUnique(m: map<Id, AttendanceDoc>)
    requires OnePerDay(m)
    ensures UniqueSlots(m)
  {
  }

  // ----- markBulkAttendance -----

  /** One element of the bulk array, as the validators admit it. */
  datatype BulkRecord = BulkRecord(student: Id, status: Status)

  /** The status the last record for `student` carries, if any: some
      record lists the student with that status, and none after it lists
      the student again. */
  function LastStatus(records: seq<BulkRecord>, student: Id): (r: Option<Status>)
    ensures r.Some? <==> exists k :: 0 <= k < |records| && records[k].student == student
    ensures r.Some? ==> exists k :: 0 <= k < |records| && records[k] == BulkRecord(student, r.value) &&
                                    forall j :: k < j < |records| ==> records[j].student != student
  {
    if records == [] then None
    else
      var n := |records| - 1;
      if records[n].student == student then Some(records[n].status)
      else
        var r := LastStatus(records[..n], student);
        assert forall k :: 0 <= k < n ==> records[..n][k] == records[k];
        r
  }

  /** The record at the slot holds this status and marker. */
  predicate Holds(m: map<Id, AttendanceDoc>, student: Id, subject: Id, date: Time, status: Status, marker: Option<Id>) {
    exists i :: i in m && AtSlot(m[i], student, subject, date) && m[i].status == status && m[i].markedBy == marker
  }

  /** One `updateOne` with `upsert: true`: the first record at the slot
      gets the status and marker, or a record is inserted at the slot. */
  function Upsert(c: Collection<AttendanceDoc>, student: Id, subject: Id, date: Time, status: Status, marker: Option<Id>): (r: Collection<AttendanceDoc>)
    ensures c.Valid() ==> r.Valid()
    ensures AttendanceInvariant(c) ==> AttendanceInvariant(r)
    ensures c.Valid() ==> Holds(r.docs, student, subject, date, status, marker)
    ensures c.docs.Keys <= r.docs.Keys <= c.docs.Keys + {c.next}
    ensures r.next >= c.next
    ensures c.Valid() ==> forall i :: i in c.docs ==>
      AtSlot(r.docs[i], c.docs[i].student, c.docs[i].subject, c.docs[i].date)
      && (!AtSlot(c.docs[i], student, subject, date) ==> r.docs[i] == c.docs[i])
    ensures c.Valid() ==> forall i :: i in r.docs && i !in c.docs ==> AtSlot(r.docs[i], student, subject, date)
  {
    match FindFirst(c.docs, (d: AttendanceDoc) => AtSlot(d, student, subject, date))
    case Some(i) =>
      var r := Collection(c.docs[i := c.docs[i].(status := status, markedBy := marker)], c.next);
      assert AttendanceInvariant(c) ==> AttendanceInvariant(r) by {
        if AttendanceInvariant(c) {
          forall j, k | j in r.docs && k in r.docs && j != k
            ensures !AtSlot(r.docs[j], r.docs[k].student, r.docs[k].subject, r.docs[k].date)
          {
            assert AtSlot(r.docs[j], c.docs[j].student, c.docs[j].subject, c.docs[j].date);
            assert AtSlot(r.docs[k], c.docs[k].student, c.docs[k].subject, c.docs[k].date);
          }
        }
      }
      assert r.docs[i].status == status && r.docs[i].markedBy == marker;
      r
    case None =>
      var d := AttendanceDoc(student, subject, date, status, marker);
      assert AttendanceInvariant(c) ==> AttendanceInvariant(c.Insert(d)) by {
        if AttendanceInvariant(c) { InsertFreeSlot(c, d); }
      }
      assert c.Valid() ==> c.Insert(d).docs[c.next] == d;
      c.Insert(d)
  }

  /** Whether some record of the list names this student. */
  predicate Listed(records: seq<BulkRecord>, student: Id) {
    exists k :: 0 <= k < |records| && records[k].student == student
  }

  /** The bulk write: the upserts in list order. */
  function UpsertAll(c: Collection<AttendanceDoc>, records: seq<BulkRecord>, subject: Id, date: Time, marker: Option<Id>): (r: Collection<AttendanceDoc>)
    ensures c.Valid() ==> r.Valid()
    ensures AttendanceInvariant(c) ==> AttendanceInvariant(r)
    ensures c.docs.Keys <= r.docs.Keys
    decreases |records|
  {
    if records == [] then c
    else
      var n := |records| - 1;
      var init := UpsertAll(c, records[..n], subject, date, marker);
      Upsert(init, records[n].student, subject, date, records[n].status, marker)
  }

  /** The bulk write keeps every record's slot and changes only records
      at the slot of a listed student. */
  lemma {:induction false} BulkKeepsOthers(c: Collection<AttendanceDoc>, records: seq<BulkRecord>, subject: Id, date: Time, marker: Option<Id>, i: Id)
    requires c.Valid() && i in c.docs
    ensures AtSlot(UpsertAll(c, records, subject, date, marker).docs[i], c.docs[i].student, c.docs[i].subject, c.docs[i].date)
    ensures c.docs[i].subject != subject || c.docs[i].date != date || !Listed(records, c.docs[i].student) ==>
              UpsertAll(c, records, subject, date, marker).docs[i] == c.docs[i]
    decreases |records|
  {
    if records != [] {
      var n := |records| - 1;
      var init := UpsertAll(c, records[..n], subject, date, marker);
      BulkKeepsOthers(c, records[..n], subject, date, marker, i);
      assert UpsertAll(c, records, subject, date, marker) == Upsert(init, records[n].student, subject, date, records[n].status, marker);
      if !Listed(records, c.docs[i].student) {
        assert !Listed(records[..n], c.docs[i].student) by {
          assert forall k :: 0 <= k < n ==> records[..n][k] == records[k];
        }
      }
    }
  }

  /** The bulk write adds records only at the slot of a listed student. */
  lemma {:induction false} BulkAddsListed(c: Collection<AttendanceDoc>, records: seq<BulkRecord>, subject: Id, date: Time, marker: Option<Id>, i: Id)
    requires c.Valid() && i in UpsertAll(c, records, subject, date, marker).docs && i !in c.docs
    ensures UpsertAll(c, records, subject, date, marker).docs[i].subject == subject
    ensures UpsertAll(c, records, subject, date, marker).docs[i].date == date
    ensures Listed(records, UpsertAll(c, records, subject, date, marker).docs[i].student)
    decreases |records|
  {
    var n := |records| - 1;
    var init := UpsertAll(c, records[..n], subject, date, marker);
    var r := UpsertAll(c, records, subject, date, marker);
    assert r == Upsert(init, records[n].student, subject, date, records[n].status, marker);
    if i in init.docs {
      BulkAddsListed(c, records[..n], subject, date, marker, i);
      assert AtSlot(r.docs[i], init.docs[i].student, init.docs[i].subject, init.docs[i].date);
      var k :| 0 <= k < n && records[..n][k].student == r.docs[i].student;
      assert records[k] == records[..n][k];
    } else {
      assert records[n].student == r.docs[i].student;
    }
  }

  /** After the bulk write, the record of each listed student at the slot
      holds the status of the last record naming that student, marked by
      the caller. */
  lemma {:induction false} BulkLastWins(c: Collection<AttendanceDoc>, records: seq<BulkRecord>, subject: Id, date: Time, marker: Option<Id>)
    requires c.Valid()
    ensures forall s :: Listed(records, s) ==>
      Holds(UpsertAll(c, records, subject, date, marker).docs, s, subject, date, LastStatus(records, s).value, marker)
    decreases |records|
  {
    if records != [] {
      var n := |records| - 1;
      var init := UpsertAll(c, records[..n], subject, date, marker);
      BulkLastWins(c, records[..n], subject, date, marker);
      var r := UpsertAll(c, records, subject, date, marker);
      assert r == Upsert(init, records[n].student, subject, date, records[n].status, marker);
      forall s | Listed(records, s)
        ensures Holds(r.docs, s, subject, date, LastStatus(records, s).value, marker)
      {
        if s != records[n].student {
          var k :| 0 <= k < |records| && records[k].student == s;
          assert records[..n][k] == records[k];
          assert Listed(records[..n], s);
          var st := LastStatus(records[..n], s).value;
          assert LastStatus(records, s).value == st;
          var i :| i in init.docs && AtSlot(init.docs[i], s, subject, date) && init.docs[i].status == st && init.docs[i].markedBy == marker;
          assert r.docs[i] == init.docs[i];
        }
      }
    }
  }

  /** `markBulkAttendance`: 400 without a subject or a records array;
      otherwise one upsert per record, keyed on the exact date sent (or
      now), and the reply counts the records sent. */
  function MarkBulkAttendance(
    c: Collection<AttendanceDoc>, faculties: map<Id, FacultyDoc>, caller: User,
    subject: Option<Id>, date: Option<Time>, records: Option<seq<BulkRecord>>, now: Time): (r: Step<Collection<AttendanceDoc>, nat>)
    ensures subject.None? || records.None? ==> r == Step(c, Err(BadRequest))
    ensures subject.Some? && records.Some? ==> r.out == Ok(|records.value|)
    ensures AttendanceInvariant(c) ==> AttendanceInvariant(r.state)
    ensures c.Valid() && r.out.Ok? ==> forall s :: Listed(records.value, s) ==>
      Holds(r.state.docs, s, subject.value, date.GetOr(now), LastStatus(records.value, s).value, ResolveFacultyId(faculties, caller))
    ensures c.Valid() && r.out.Ok? ==> forall i :: i in c.docs ==>
      && i in r.state.docs
      && AtSlot(r.state.docs[i], c.docs[i].student, c.docs[i].subject, c.docs[i].date)
      && (c.docs[i].subject != subject.value || c.docs[i].date != date.GetOr(now) || !Listed(records.value, c.docs[i].student) ==>
            r.state.docs[i] == c.docs[i])
    ensures c.Valid() && r.out.Ok? ==> forall i :: i in r.state.docs && i !in c.docs ==>
      r.state.docs[i].subject == subject.value && r.state.docs[i].date == date.GetOr(now)
      && Listed(records.value, r.state.docs[i].student)
  {
    if subject.None? || records.None? then Step(c, Err(BadRequest))
    else
      var when := date.GetOr(now);
      var marker := ResolveFacultyId(faculties, caller);
      var after := UpsertAll(c, records.value, subject.value, when, marker);
      assert c.Valid() ==> forall i :: i in c.docs ==>
        && i in after.docs
        && AtSlot(after.docs[i], c.docs[i].student, c.docs[i].subject, c.docs[i].date)
        && (c.docs[i].subject != subject.value || c.docs[i].date != when || !Listed(records.value, c.docs[i].student) ==>
              after.docs[i] == c.docs[i]) by {
        if c.Valid() {
          forall i | i in c.docs
            ensures AtSlot(after.docs[i], c.docs[i].student, c.docs[i].subject, c.docs[i].date)
            ensures c.docs[i].subject != subject.value || c.docs[i].date != when || !Listed(records.value, c.docs[i].student) ==>
                      after.docs[i] == c.docs[i]
          {
            BulkKeepsOthers(c, records.value, subject.value, when, marker, i);
          }
        }
      }
      assert c.Valid() ==> forall s :: Listed(records.value, s) ==>
        Holds(after.docs, s, subject.value, when, LastStatus(records.value, s).value, marker) by {
        if c.Valid() { BulkLastWins(c, records.value, subject.value, when, marker); }
      }
      assert c.Valid() ==> forall i :: i in after.docs && i !in c.docs ==>
        after.docs[i].subject == subject.value && after.docs[i].date == when
        && Listed(records.value, after.docs[i].student) by {
        if c.Valid() {
          forall i | i in after.docs && i !in c.docs
            ensures after.docs[i].subject == subject.value && after.docs[i].date == when
            ensures Listed(records.value, after.docs[i].student)
          {
            BulkAddsListed(c, records.value, subject.value, when, marker, i);
          }
        }
      }
      Step(after, Ok(|records.value|))
  }

  /** With the unique index in place, each listed student ends up with
      exactly one record at the slot. */
  lemma BulkExactlyOne(c: Collection<AttendanceDoc>, faculties: map<Id, FacultyDoc>, caller: User,
                       subject: Id, date: Time, records: seq<BulkRecord>, now: Time, s: Id)
    requires AttendanceInvariant(c) && Listed(records, s)
    ensures var r := MarkBulkAttendance(c, faculties, caller, Some(subject), Some(date), Some(records), now);
            exists i :: i in r.state.docs && AtSlot(r.state.docs[i], s, subject, date)
              && forall j :: j in r.state.docs && AtSlot(r.state.docs[j], s, subject, date) ==> j == i
  {
    var r := MarkBulkAttendance(c, faculties, caller, Some(subject), Some(date), Some(records), now);
    var st := LastStatus(records, s).value;
    assert Holds(r.state.docs, s, subject, date, st, ResolveFacultyId(faculties, caller));
    var i :| i in r.state.docs && AtSlot(r.state.docs[i], s, subject, date);
    assert UniqueSlots(r.state.docs);
  }

  // ----- statistics and listings -----

  function CountPresent(xs: seq<Status>): (n: nat)
    ensures n <= |xs|
    ensures n == |xs| <==> forall k :: 0 <= k < |xs| ==> xs[k] == Present
    ensures n == 0 <==> forall k :: 0 <= k < |xs| ==> xs[k] == Absent
  {
    if xs == [] then 0 else (if xs[0] == Present then 1 else 0) + CountPresent(xs[1..])
  }

  datatype AttendanceStats = AttendanceStats(totalClasses: nat, present: nat, absent: int, percentage: real)

  /** The statistics of a student's records: present and absent add up to
      the classes, and the percentage is 0 without classes. */
  function StatsOf(xs: seq<Status>): (s: AttendanceStats)
    ensures s.totalClasses == |xs| && s.present == CountPresent(xs)
    ensures s.present + s.absent == s.totalClasses && s.absent >= 0
    ensures 0.0 <= s.percentage <= 100.0
    ensures |xs| == 0 ==> s.percentage == 0.0
    ensures s == StatsFrom(|xs|, CountPresent(xs))
  {
    StatsFrom(|xs|, CountPresent(xs))
  }

  /** The statistics of `p` presences out of `n` classes. */
  function StatsFrom(n: nat, p: nat): (s: AttendanceStats)
    requires p <= n
    ensures s.totalClasses == n && s.present == p
    ensures s.present + s.absent == s.totalClasses && s.absent >= 0
    ensures 0.0 <= s.percentage <= 100.0
    ensures n == 0 ==> s.percentage == 0.0
    ensures n > 0 ==> s.percentage * s.totalClasses as real == s.present as real * 100.0
  {
    AttendanceStats(n, p, n - p, if n > 0 then Percent(p, n) else 0.0)
  }

  /** A full percentage means no absence at all, and a zero one no
      presence, once there are classes. */
  lemma PercentageExtremes(xs: seq<Status>)
    requires xs != []
    ensures StatsOf(xs).percentage == 100.0 <==> forall k :: 0 <= k < |xs| ==> xs[k] == Present
    ensures StatsOf(xs).percentage == 0.0 <==> forall k :: 0 <= k < |xs| ==> xs[k] == Absent
  {
    var s := StatsOf(xs);
    assert s.percentage * s.totalClasses as real == s.present as real * 100.0;
    if s.percentage == 100.0 { assert s.present as real == |xs| as real; }
  }

  function StatusesOf(c: Collection<AttendanceDoc>, ids: seq<Id>): (xs: seq<Status>)
    requires forall k :: 0 <= k < |ids| ==> ids[k] in c.docs
    ensures |xs| == |ids|
    ensures forall k :: 0 <= k < |ids| ==> xs[k] == c.docs[ids[k]].status
  {
    seq(|ids|, k requires 0 <= k < |ids| => c.docs[ids[k]].status)
  }

  /** The optional filters of the per-student listing. */
  datatype StudentQuery = StudentQuery(subject: Option<Id>, startDate: Option<Time>, endDate: Option<Time>)

  predicate InStudentQuery(studentId: Id, q: StudentQuery, d: AttendanceDoc) {
    && d.student == studentId
    && (q.subject.Some? ==> d.subject == q.subject.value)
    && (q.startDate.Some? ==> q.startDate.value <= d.date)
    && (q.endDate.Some? ==> d.date <= q.endDate.value)
  }

  datatype Listing = Listing(ids: seq<Id>, stats: AttendanceStats)

  /** `getAttendanceByStudent`: the student's records, narrowed to the
      subject and to the inclusive date range when given, and their
      statistics. */
  function GetAttendanceByStudent(c: Collection<AttendanceDoc>, studentId: Id, q: StudentQuery): (r: Listing)
    ensures forall i :: i in r.ids <==> i in c.docs && InStudentQuery(studentId, q, c.docs[i])
    ensures r.stats.totalClasses == |r.ids| == Count(c.docs, (d: AttendanceDoc) => InStudentQuery(studentId, q, d))
    ensures forall k :: 0 <= k < |r.ids| ==> r.ids[k] in c.docs
    ensures r.stats == StatsOf(StatusesOf(c, r.ids))
  {
    var ids := Where(c.docs, (d: AttendanceDoc) => InStudentQuery(studentId, q, d));
    Listing(ids, StatsOf(StatusesOf(c, ids)))
  }

  /** The optional filters of the per-subject listing: a day, or else a
      date range. */
  datatype SubjectQuery = SubjectQuery(date: Option<Time>, startDate: Option<Time>, endDate: Option<Time>)

  /** A day given as a date keeps the records from its midnight to its
      last millisecond. */
  predicate InSubjectQuery(subjectId: Id, q: SubjectQuery, d: AttendanceDoc) {
    && d.subject == subjectId
    && if q.date.Some? then Midnight(q.date.value) <= d.date <= Midnight(q.date.value) + DayMillis - 1
       else (q.startDate.Some? ==> q.startDate.value <= d.date) && (q.endDate.Some? ==> d.date <= q.endDate.value)
  }

  /** The day window holds exactly the records of that calendar day. */
  lemma DayWindowIsTheDay(subjectId: Id, day: Time, d: AttendanceDoc)
    requires d.subject == subjectId
    ensures InSubjectQuery(subjectId, SubjectQuery(Some(day), None, None), d) <==> Midnight(d.date) == Midnight(day)
  {
    if Midnight(day) <= d.date <= Midnight(day) + DayMillis - 1 {
      SameDay(day, d.date);
    }
  }

  datatype SubjectListing = SubjectListing(ids: seq<Id>, totalRecords: nat, present: nat, absent: int)

  /** `getAttendanceBySubject`: the subject's records in the window and
      their present and absent counts. */
  function GetAttendanceBySubject(c: Collection<AttendanceDoc>, subjectId: Id, q: SubjectQuery): (r: SubjectListing)
    ensures forall i :: i in r.ids <==> i in c.docs && InSubjectQuery(subjectId, q, c.docs[i])
    ensures r.totalRecords == |r.ids| && r.present + r.absent == r.totalRecords && r.absent >= 0
    ensures forall k :: 0 <= k < |r.ids| ==> r.ids[k] in c.docs
    ensures r.present == CountPresent(StatusesOf(c, r.ids))
  {
    var ids := Where(c.docs, (d: AttendanceDoc) => InSubjectQuery(subjectId, q, d));
    var p := CountPresent(StatusesOf(c, ids));
    SubjectListing(ids, |ids|, p, |ids| - p)
  }

  // ----- updateAttendance and deleteAttendance -----

  /** `updateAttendance`: 400 unless the status is Present or Absent, 404
      for an unknown id; otherwise the status and the marker change and
      nothing else. */
  function UpdateAttendance(c: Collection<AttendanceDoc>, faculties: map<Id, FacultyDoc>, caller: User, id: Id, status: string): (r: Step<Collection<AttendanceDoc>, AttendanceDoc>)
    ensures r.out == Err(BadRequest) <==> ParseStatus(status).None?
    ensures r.out == Err(NotFound) <==> ParseStatus(status).Some? && id !in c.docs
    ensures r.out.Err? ==> r.state == c
    ensures r.out.Ok? ==>
      && id in c.docs
      && r.out.value == c.docs[id].(status := ParseStatus(status).value, markedBy := ResolveFacultyId(faculties, caller))
      && r.state == Collection(c.docs[id := r.out.value], c.next)
    ensures AttendanceInvariant(c) ==> AttendanceInvariant(r.state)
  {
    var st := ParseStatus(status);
    if st.None? then Step(c, Err(BadRequest))
    else if id !in c.docs then Step(c, Err(NotFound))
    else
      var d := c.docs[id].(status := st.value, markedBy := ResolveFacultyId(faculties, caller));
      var r := Collection(c.docs[id := d], c.next);
      assert AttendanceInvariant(c) ==> AttendanceInvariant(r) by {
        if AttendanceInvariant(c) {
          forall j, k | j in r.docs && k in r.docs && j != k
            ensures !AtSlot(r.docs[j], r.docs[k].student, r.docs[k].subject, r.docs[k].date)
          {
            assert AtSlot(r.docs[j], c.docs[j].student, c.docs[j].subject, c.docs[j].date);
            assert AtSlot(r.docs[k], c.docs[k].student, c.docs[k].subject, c.docs[k].date);
          }
        }
      }
      Step(r, Ok(d))
  }

  /** Repeating an update changes nothing more. */
  lemma UpdateIdempotent(c: Collection<AttendanceDoc>, faculties: map<Id, FacultyDoc>, caller: User, id: Id, status: string)
    requires UpdateAttendance(c, faculties, caller, id, status).out.Ok?
    ensures var once := UpdateAttendance(c, faculties, caller, id, status);
            var twice := UpdateAttendance(once.state, faculties, caller, id, status);
            twice.state == once.state && twice.out == once.out
  {
    var once := UpdateAttendance(c, faculties, caller, id, status);
    assert once.state.docs[id := once.out.value] == once.state.docs;
  }

  /** `deleteAttendance`: 404 for an unknown id, else the record is gone. */
  function DeleteAttendance(c: Collection<AttendanceDoc>, id: Id): (r: Step<Collection<AttendanceDoc>, AttendanceDoc>)
    ensures r.out == Err(NotFound) <==> id !in c.docs
    ensures r.out.Err? ==> r.state == c
    ensures r.out.Ok? ==> r.out.value == c.docs[id] && r.state.docs == c.docs - {id} && r.state.next == c.next
    ensures AttendanceInvariant(c) ==> AttendanceInvariant(r.state)
  {
    if id !in c.docs then Step(c, Err(NotFound))
    else Step(Collection(c.docs - {id}, c.next), Ok(c.docs[id]))
  }
}

=== FILE: audit.dfy ===
/** The audit side channel: the entry a handler asks to record, the schema
    that decides whether it is stored, the fire-and-forget write whose
    failure never reaches the handler, and the administrator's filtered,
    paged listing and grouped counts. */
module Audit {
  import opened Common
  import opened Store

  datatype Action =
    | CreateStudent | UpdateStudent | DeleteStudent
    | CreateFaculty | UpdateFaculty | DeleteFaculty
    | CreateSubject | UpdateSubject | DeleteSubject
    | AddMarks | UpdateMarks | DeleteMarks | BulkAddMarks
    | MarkAttendance
    | CreateAssignment | DeleteAssignment | GradeSubmission
    | SendNotification

  /** The stored spelling of an action. */
  function ActionName(a: Action): (s: string)
    ensures s != ""
  {
    match a
    case CreateStudent => "CREATE_STUDENT"
    case UpdateStudent => "UPDATE_STUDENT"
    case DeleteStudent => "DELETE_STUDENT"
    case CreateFaculty => "CREATE_FACULTY"
    case UpdateFaculty => "UPDATE_FACULTY"
    case DeleteFaculty => "DELETE_FACULTY"
    case CreateSubject => "CREATE_SUBJECT"
    case UpdateSubject => "UPDATE_SUBJECT"
    case DeleteSubject => "DELETE_SUBJECT"
    case AddMarks => "ADD_MARKS"
    case UpdateMarks => "UPDATE_MARKS"
    case DeleteMarks => "DELETE_MARKS"
    case BulkAddMarks => "BULK_ADD_MARKS"
    case MarkAttendance => "MARK_ATTENDANCE"
    case CreateAssignment => "CREATE_ASSIGNMENT"
    case DeleteAssignment => "DELETE_ASSIGNMENT"
    case GradeSubmission => "GRADE_SUBMISSION"
    case SendNotification => "SEND_NOTIFICATION"
  }

  /** The schema's enum check on `action`. */
  function ParseAction(s: string): (a: Option<Action>)
    ensures a.Some? ==> ActionName(a.value) == s
    ensures a.None? ==> forall b :: ActionName(b) != s
  {
    if s == "CREATE_STUDENT" then Some(CreateStudent)
    else if s == "UPDATE_STUDENT" then Some(UpdateStudent)
    else if s == "DELETE_STUDENT" then Some(DeleteStudent)
    else if s == "CREATE_FACULTY" then Some(CreateFaculty)
    else if s == "UPDATE_FACULTY" then Some(UpdateFaculty)
    else if s == "DELETE_FACULTY" then Some(DeleteFaculty)
    else if s == "CREATE_SUBJECT" then Some(CreateSubject)
    else if s == "UPDATE_SUBJECT" then Some(UpdateSubject)
    else if s == "DELETE_SUBJECT" then Some(DeleteSubject)
    else if s == "ADD_MARKS" then Some(AddMarks)
    else if s == "UPDATE_MARKS" then Some(UpdateMarks)
    else if s == "DELETE_MARKS" then Some(DeleteMarks)
    else if s == "BULK_ADD_MARKS" then Some(BulkAddMarks)
    else if s == "MARK_ATTENDANCE" then Some(MarkAttendance)
    else if s == "CREATE_ASSIGNMENT" then Some(CreateAssignment)
    else if s == "DELETE_ASSIGNMENT" then Some(DeleteAssignment)
    else if s == "GRADE_SUBMISSION" then Some(GradeSubmission)
    else if s == "SEND_NOTIFICATION" then Some(SendNotification)
    else None
  }

  /** Every action survives a trip through its stored spelling. */
  lemma ActionRoundTrip(a: Action)
    ensures ParseAction(ActionName(a)) == Some(a)
  {
    if IsRecordAction(a) {
      RecordActionRoundTrip(a);
    } else if IsMarksAction(a) {
      MarksActionRoundTrip(a);
    } else {
      CourseworkActionRoundTrip(a);
    }
  }

  /** The actions on student, faculty and subject records. */
  predicate IsRecordAction(a: Action) {
    a.CreateStudent? || a.UpdateStudent? || a.DeleteStudent? ||
    a.CreateFaculty? || a.UpdateFaculty? || a.DeleteFaculty? ||
    a.CreateSubject? || a.UpdateSubject? || a.DeleteSubject?
  }

  /** The actions on marks and attendance. */
  predicate IsMarksAction(a: Action) {
    a.AddMarks? || a.UpdateMarks? || a.DeleteMarks? || a.BulkAddMarks? || a.MarkAttendance?
  }

  lemma RecordActionRoundTrip(a: Action)
    requires IsRecordAction(a)
    ensures ParseAction(ActionName(a)) == Some(a)
  {
  }

  lemma MarksActionRoundTrip(a: Action)
    requires IsMarksAction(a)
    ensures ParseAction(ActionName(a)) == Some(a)
  {
  }

  lemma CourseworkActionRoundTrip(a: Action)
    requires !IsRecordAction(a) && !IsMarksAction(a)
    ensures ParseAction(ActionName(a)) == Some(a)
  {
  }

  datatype TargetModel =
    | StudentModel | FacultyModel | SubjectModel | ResultModel
    | AttendanceModel | AssignmentModel | NotificationModel

  function ModelName(t: TargetModel): (s: string)
    ensures s != ""
  {
    match t
    case StudentModel => "Student"
    case FacultyModel => "Faculty"
    case SubjectModel => "Subject"
    case ResultModel => "Result"
    case AttendanceModel => "Attendance"
    case AssignmentModel => "Assignment"
    case NotificationModel => "Notification"
  }

  /** The schema's enum check on `targetModel`. */
  function ParseModel(s: string): (t: Option<TargetModel>)
    ensures t.Some? ==> ModelName(t.value) == s
    ensures t.None? ==> forall u :: ModelName(u) != s
  {
    if s == "Student" then Some(StudentModel)
    else if s == "Faculty" then Some(FacultyModel)
    else if s == "Subject" then Some(SubjectModel)
    else if s == "Result" then Some(ResultModel)
    else if s == "Attendance" then Some(AttendanceModel)
    else if s == "Assignment" then Some(AssignmentModel)
    else if s == "Notification" then Some(NotificationModel)
    else None
  }

  lemma ModelRoundTrip(t: TargetModel)
    ensures ParseModel(ModelName(t)) == Some(t)
  {
  }

  /** A free-form JSON payload (the schema's `Mixed` details). */
  datatype Value =
    | Null
    | Bool(b: bool)
    | Num(x: real)
    | Str(s: string)
    | List(items: seq<Value>)
    | Object(fields: map<string, Value>)

  /** JavaScript falsiness of a payload. */
  predicate Falsy(v: Value) {
    v == Null || v == Bool(false) || v == Num(0.0) || v == Str("")
  }

  /** What a handler passes to `logAudit`; a property it leaves out is
      None, or "" for a string. */
  datatype AuditArgs = AuditArgs(
    action: string,
    performedBy: Option<Id>,
    targetModel: string,
    targetId: Option<Id>,
    description: string,
    details: Option<Value>,
    ipAddress: string)

  /** A stored audit entry. */
  datatype Entry = Entry(
    action: Action,
    performedBy: Id,
    targetModel: TargetModel,
    targetId: Option<Id>,
    description: string,
    details: Value,
    ipAddress: Option<string>,
    createdAt: Time)

  /** The entry `logAudit` asks to create, if the schema accepts it: the
      enums must name known values and `performedBy` and `description`
      must be present; the rest is copied, with a missing target id,
      details and IP address stored as null, `{}` and null. */
  function BuildEntry(args: AuditArgs, now: Time): (r: Option<Entry>)
    ensures r.Some? <==>
      && ParseAction(args.action).Some?
      && args.performedBy.Some?
      && ParseModel(args.targetModel).Some?
      && args.description != ""
    ensures r.Some? ==>
      && ActionName(r.value.action) == args.action
      && Some(r.value.performedBy) == args.performedBy
      && ModelName(r.value.targetModel) == args.targetModel
      && r.value.description == args.description
      && r.value.targetId == args.targetId
      && r.value.createdAt == now
    ensures r.Some? && (args.details.None? || Falsy(args.details.value)) ==> r.value.details == Object(map[])
    ensures r.Some? && args.details.Some? && !Falsy(args.details.value) ==> r.value.details == args.details.value
    ensures r.Some? ==> (r.value.ipAddress.None? <==> args.ipAddress == "")
    ensures r.Some? && r.value.ipAddress.Some? ==> r.value.ipAddress.value == args.ipAddress
  {
    var action := ParseAction(args.action);
    var model := ParseModel(args.targetModel);
    if action.None? || args.performedBy.None? || model.None? || args.description == "" then None
    else
      var details := if args.details.None? || Falsy(args.details.value) then Object(map[]) else args.details.value;
      var ip := if args.ipAddress == "" then None else Some(args.ipAddress);
      Some(Entry(action.value, args.performedBy.value, model.value, args.targetId,
                 args.description, details, ip, now))
  }

  /** `logAudit(args)`: the write is started and never awaited. When the
      entry is valid and the database accepts it, it is appended; a
      rejected or failed write is caught and only logged, so the log is
      unchanged. Nothing is returned to the handler either way. */
  function LogAudit(log: Collection<Entry>, args: AuditArgs, now: Time, writeSucceeds: bool): (r: Collection<Entry>)
    ensures log.Valid() ==> forall i :: i in log.docs ==> i in r.docs && r.docs[i] == log.docs[i]
    ensures |r.docs.Keys - log.docs.Keys| <= 1
    ensures (writeSucceeds && BuildEntry(args, now).Some?) ==>
      r.docs.Keys == log.docs.Keys + {log.next} && r.docs[log.next] == BuildEntry(args, now).value
    ensures !writeSucceeds || BuildEntry(args, now).None? ==> r == log
    ensures log.Valid() ==> r.Valid()
  {
    var e := BuildEntry(args, now);
    if writeSucceeds && e.Some? then log.Insert(e.value) else log
  }

  /** Entries were created in clock order: a later id never has an
      earlier timestamp. */
  ghost predicate Chronological(log: Collection<Entry>) {
    forall i, j :: i in log.docs && j in log.docs && i < j ==> log.docs[i].createdAt <= log.docs[j].createdAt
  }

  /** With a clock that never runs backwards, logging keeps the entries in
      clock order. */
  lemma LogKeepsChronological(log: Collection<Entry>, args: AuditArgs, now: Time, writeSucceeds: bool)
    requires log.Valid() && Chronological(log)
    requires forall i :: i in log.docs ==> log.docs[i].createdAt <= now
    ensures Chronological(LogAudit(log, args, now, writeSucceeds))
  {
  }

  // ----- Listing -----

  /** The optional filters of the listing; "" means absent. */
  datatype Filter = Filter(action: string, targetModel: string, performedBy: Option<Id>)

  /** The conjunction of the present filters. */
  predicate Matches(f: Filter, e: Entry) {
    && (f.action == "" || ActionName(e.action) == f.action)
    && (f.targetModel == "" || ModelName(e.targetModel) == f.targetModel)
    && (f.performedBy.None? || e.performedBy == f.performedBy.value)
  }

  function Reverse(xs: seq<Id>): (r: seq<Id>)
    ensures |r| == |xs|
    ensures forall k :: 0 <= k < |xs| ==> r[k] == xs[|xs| - 1 - k]
    ensures forall i :: i in r <==> i in xs
  {
    if xs == [] then [] else Reverse(xs[1..]) + [xs[0]]
  }

  predicate Descending(ids: seq<Id>) {
    forall a, b :: 0 <= a < b < |ids| ==> ids[a] > ids[b]
  }

  /** The matching ids, newest first. */
  function Newest(log: Collection<Entry>, f: Filter): (ids: seq<Id>)
    ensures forall i :: i in ids <==> i in log.docs && Matches(f, log.docs[i])
    ensures Descending(ids)
    ensures |ids| == Count(log.docs, (e: Entry) => Matches(f, e))
  {
    Reverse(Where(log.docs, (e: Entry) => Matches(f, e)))
  }

  const DefaultPage := 1
  const DefaultLimit := 30

  datatype Page = Page(ids: seq<Id>, count: nat, total: nat, totalPages: nat, currentPage: int)

  /** `ceil(total / limit)`: the fewest pages of `limit` entries that
      hold `total` entries. */
  function CeilDiv(total: nat, limit: nat): (q: nat)
    requires limit > 0
    ensures q * limit >= total
    ensures q > 0 ==> (q - 1) * limit < total
  {
    (total + limit - 1) / limit
  }

  /** `(page - 1) * limit`, the entries of the earlier pages. */
  function Skip(page: int, limit: int): (n: nat)
    requires page >= 1 && limit >= 1
    ensures page == 1 ==> n == 0
    ensures page > 1 ==> n >= limit
  {
    (page - 1) * limit
  }

  /** The window `all[skip .. skip + limit]`, cut short at the end. */
  function Window(all: seq<Id>, skip: nat, limit: nat): (ids: seq<Id>)
    ensures |ids| == if skip >= |all| then 0 else if |all| - skip < limit then |all| - skip else limit
    ensures forall k :: 0 <= k < |ids| ==> skip + k < |all| && ids[k] == all[skip + k]
  {
    if skip >= |all| then [] else all[skip .. if skip + limit < |all| then skip + limit else |all|]
  }

  /** `getAuditLogs`: the matching entries newest first, `limit` of them
      after skipping `(page - 1) * limit`; `total` counts every match. */
  function GetAuditLogs(log: Collection<Entry>, f: Filter, page: Option<int>, limit: Option<int>): (r: Page)
    requires page.GetOr(DefaultPage) >= 1 && limit.GetOr(DefaultLimit) >= 1
    ensures r.total == Count(log.docs, (e: Entry) => Matches(f, e))
    ensures r.ids == Window(Newest(log, f), Skip(page.GetOr(DefaultPage), limit.GetOr(DefaultLimit)), limit.GetOr(DefaultLimit))
    ensures r.count == |r.ids| <= limit.GetOr(DefaultLimit)
    ensures r.totalPages == CeilDiv(r.total, limit.GetOr(DefaultLimit))
    ensures r.currentPage == page.GetOr(DefaultPage)
  {
    var p, l := page.GetOr(DefaultPage), limit.GetOr(DefaultLimit);
    var all := Newest(log, f);
    var ids := Window(all, Skip(p, l), l);
    Page(ids, |ids|, |all|, CeilDiv(|all|, l), p)
  }

  /** Every listed entry matches the filter, and the listing runs from
      newer to older entries. */
  lemma ListingMatchesNewestFirst(log: Collection<Entry>, f: Filter, page: Option<int>, limit: Option<int>)
    requires page.GetOr(DefaultPage) >= 1 && limit.GetOr(DefaultLimit) >= 1
    ensures var ids := GetAuditLogs(log, f, page, limit).ids;
            && (forall k :: 0 <= k < |ids| ==> ids[k] in log.docs && Matches(f, log.docs[ids[k]]))
            && Descending(ids)
  {
    WindowOfDescending(Newest(log, f), Skip(page.GetOr(DefaultPage), limit.GetOr(DefaultLimit)), limit.GetOr(DefaultLimit));
  }

  lemma WindowOfDescending(all: seq<Id>, skip: nat, limit: nat)
    requires Descending(all)
    ensures forall k :: 0 <= k < |Window(all, skip, limit)| ==> Window(all, skip, limit)[k] in all
    ensures Descending(Window(all, skip, limit))
  {
    var w := Window(all, skip, limit);
    forall k | 0 <= k < |w| ensures w[k] in all {
      assert w[k] == all[skip + k];
    }
  }

  /** In a log kept in clock order the listing is by creation time,
      newest first. */
  lemma ListingByTime(log: Collection<Entry>, f: Filter, page: Option<int>, limit: Option<int>)
    requires Chronological(log)
    requires page.GetOr(DefaultPage) >= 1 && limit.GetOr(DefaultLimit) >= 1
    ensures var ids := GetAuditLogs(log, f, page, limit).ids;
            forall a, b :: 0 <= a < b < |ids| ==> log.docs[ids[a]].createdAt >= log.docs[ids[b]].createdAt
  {
    ListingMatchesNewestFirst(log, f, page, limit);
  }

  /** `getAuditLogById`. */
  function GetAuditLogById(log: Collection<Entry>, id: Id): (r: Outcome<Entry>)
    ensures r.Err? <==> id !in log.docs
    ensures r.Err? ==> r.error == NotFound
    ensures r.Ok? ==> r.value == log.docs[id]
  {
    if id in log.docs then Ok(log.docs[id]) else Err(NotFound)
  }

  // ----- Grouped counts -----

  /** One group of an aggregation: a key and how many entries carry it. */
  datatype Bucket<K> = Bucket(key: K, count: nat)

  /** How often `k` occurs in `xs`. */
  function Occurrences<K(==)>(xs: seq<K>, k: K): nat {
    if xs == [] then 0
    else Occurrences(xs[..|xs| - 1], k) + (if xs[|xs| - 1] == k then 1 else 0)
  }

  /** The count the buckets give a key. */
  function CountIn<K(==)>(bs: seq<Bucket<K>>, k: K): nat {
    if bs == [] then 0 else (if bs[0].key == k then bs[0].count else 0) + CountIn(bs[1..], k)
  }

  function KeySet<K(==)>(bs: seq<Bucket<K>>): set<K> {
    if bs == [] then {} else {bs[0].key} + KeySet(bs[1..])
  }

  /** No key has two buckets. */
  predicate DistinctKeys<K(==)>(bs: seq<Bucket<K>>) {
    bs == [] || (bs[0].key !in KeySet(bs[1..]) && DistinctKeys(bs[1..]))
  }

  function Total<K>(bs: seq<Bucket<K>>): nat {
    if bs == [] then 0 else bs[0].count + Total(bs[1..])
  }

  predicate Positive<K>(bs: seq<Bucket<K>>) {
    forall k :: 0 <= k < |bs| ==> bs[k].count > 0
  }

  /** One more occurrence of `x`: its bucket grows, or a new one starts. */
  function Bump<K(==,!new)>(bs: seq<Bucket<K>>, x: K): (r: seq<Bucket<K>>)
    ensures forall k :: CountIn(r, k) == CountIn(bs, k) + (if k == x then 1 else 0)
    ensures KeySet(r) == KeySet(bs) + {x}
    ensures DistinctKeys(bs) ==> DistinctKeys(r)
    ensures Positive(bs) ==> Positive(r)
    ensures Total(r) == Total(bs) + 1
  {
    if bs == [] then [Bucket(x, 1)]
    else if bs[0].key == x then [bs[0].(count := bs[0].count + 1)] + bs[1..]
    else
      var rest := Bump(bs[1..], x);
      assert ([bs[0]] + rest)[1..] == rest;
      [bs[0]] + rest
  }

  /** `$group: { _id: key, count: { $sum: 1 } }`: one bucket per distinct
      key, counting its occurrences. */
  function Tally<K(==,!new)>(xs: seq<K>): (r: seq<Bucket<K>>)
    ensures forall k :: CountIn(r, k) == Occurrences(xs, k)
    ensures DistinctKeys(r) && Positive(r)
    ensures Total(r) == |xs|
    ensures forall k :: 0 <= k < |xs| ==> xs[k] in KeySet(r)
  {
    if xs == [] then []
    else
      var prefix := xs[..|xs| - 1];
      var r := Bump(Tally(prefix), xs[|xs| - 1]);
      assert forall k :: 0 <= k < |xs| - 1 ==> xs[k] == prefix[k];
      r
  }

  /** Places a bucket in front of the first one with a smaller count. */
  function InsertByCount<K(==,!new)>(b: Bucket<K>, bs: seq<Bucket<K>>): (r: seq<Bucket<K>>)
    ensures forall k :: CountIn(r, k) == CountIn(bs, k) + (if k == b.key then b.count else 0)
    ensures KeySet(r) == KeySet(bs) + {b.key}
    ensures DistinctKeys(bs) && b.key !in KeySet(bs) ==> DistinctKeys(r)
    ensures Positive(bs) && b.count > 0 ==> Positive(r)
    ensures Total(r) == Total(bs) + b.count
    ensures |r| == |bs| + 1
    ensures forall k :: 0 <= k < |r| ==> r[k] == b || r[k] in bs
  {
    if bs == [] || bs[0].count < b.count then [b] + bs
    else
      var rest := InsertByCount(b, bs[1..]);
      var r := [bs[0]] + rest;
      assert r[1..] == rest;
      assert forall k :: 0 <= k < |rest| ==> rest[k] == b || rest[k] in bs by {
        forall k | 0 <= k < |rest| && rest[k] != b ensures rest[k] in bs {
          assert rest[k] in bs[1..];
        }
      }
      r
  }

  /** Counts never increase along the sequence. */
  predicate SortedByCount<K>(bs: seq<Bucket<K>>) {
    forall a, b :: 0 <= a < b < |bs| ==> bs[a].count >= bs[b].count
  }

  /** Inserting into a sorted sequence keeps it sorted. */
  lemma {:induction false} InsertKeepsSorted<K(!new)>(b: Bucket<K>, bs: seq<Bucket<K>>)
    requires SortedByCount(bs)
    ensures SortedByCount(InsertByCount(b, bs))
  {
    if bs != [] && bs[0].count >= b.count {
      var rest := InsertByCount(b, bs[1..]);
      InsertKeepsSorted(b, bs[1..]);
      assert InsertByCount(b, bs) == [bs[0]] + rest;
      forall k | 0 <= k < |rest| ensures bs[0].count >= rest[k].count {
        if rest[k] != b {
          assert rest[k] in bs;
          var j :| 0 <= j < |bs| && bs[j] == rest[k];
          assert j == 0 || bs[0].count >= bs[j].count;
        }
      }
    }
  }

  /** `$sort: { count: -1 }`. */
  function SortByCount<K(==,!new)>(bs: seq<Bucket<K>>): (r: seq<Bucket<K>>)
    ensures SortedByCount(r)
    ensures |r| == |bs|
    ensures forall k :: CountIn(r, k) == CountIn(bs, k)
    ensures KeySet(r) == KeySet(bs)
    ensures DistinctKeys(bs) ==> DistinctKeys(r)
    ensures Positive(bs) ==> Positive(r)
    ensures Total(r) == Total(bs)
  {
    if bs == [] then []
    else
      InsertKeepsSorted(bs[0], SortByCount(bs[1..]));
      InsertByCount(bs[0], SortByCount(bs[1..]))
  }

  /** The reply of `getAuditStats`. */
  datatype Stats = Stats(
    totalLogs: nat,
    last24Hours: nat,
    byAction: seq<Bucket<Action>>,
    byModel: seq<Bucket<TargetModel>>)

  function ActionsOf(log: Collection<Entry>): (xs: seq<Action>)
    ensures |xs| == |log.docs|
  {
    var ids := AllIds(log.docs);
    seq(|ids|, k requires 0 <= k < |ids| => log.docs[ids[k]].action)
  }

  function ModelsOf(log: Collection<Entry>): (xs: seq<TargetModel>)
    ensures |xs| == |log.docs|
  {
    var ids := AllIds(log.docs);
    seq(|ids|, k requires 0 <= k < |ids| => log.docs[ids[k]].targetModel)
  }

  predicate IsRecent(now: Time, e: Entry) {
    e.createdAt >= now - DayMillis
  }

  /** `getAuditStats(now)`: the entry count, the entries of the last 24
      hours, and the entries grouped by action and by target model, each
      grouping one bucket per key that occurs, largest first, adding up to
      the entry count. */
  function GetAuditStats(log: Collection<Entry>, now: Time): (r: Stats)
    ensures r.totalLogs == |log.docs|
    ensures r.last24Hours == Count(log.docs, (e: Entry) => IsRecent(now, e))
    ensures r.last24Hours <= r.totalLogs
    ensures forall a :: CountIn(r.byAction, a) == Occurrences(ActionsOf(log), a)
    ensures forall t :: CountIn(r.byModel, t) == Occurrences(ModelsOf(log), t)
    ensures DistinctKeys(r.byAction) && Positive(r.byAction) && SortedByCount(r.byAction)
    ensures DistinctKeys(r.byModel) && Positive(r.byModel) && SortedByCount(r.byModel)
    ensures Total(r.byAction) == r.totalLogs && Total(r.byModel) == r.totalLogs
  {
    Stats(|log.docs|, Count(log.docs, (e: Entry) => IsRecent(now, e)), SortByCount(Tally(ActionsOf(log))), SortByCount(Tally(ModelsOf(log))))
  }
}

=== FILE: common.dfy ===
/** Shared vocabulary of the academic-records model: identifiers, time,
    optional values, the error kinds the controllers raise and the
    authenticated caller. */
module Common {

  /** A document id (a Mongo ObjectId, abstracted to a natural number). */
  type Id = nat

  /** A point in time in milliseconds since the epoch; the clock is always
      a parameter, never read. */
  type Time = int

  /** The length of a day in milliseconds. */
  const DayMillis := 24 * 60 * 60 * 1000

  /** The start of the day holding `t` (`setHours(0, 0, 0, 0)`, with the
      server's clock taken to be on UTC). */
  function Midnight(t: Time): (m: Time)
    ensures m <= t < m + DayMillis
    ensures m % DayMillis == 0
  {
    t - t % DayMillis
  }

  /** Two instants on the same day are exactly those with the same
      midnight. */
  lemma SameDay(t: Time, u: Time)
    requires Midnight(t) <= u < Midnight(t) + DayMillis
    ensures Midnight(u) == Midnight(t)
  {
    var m := Midnight(t);
    assert m % DayMillis == 0;
    assert (u - m) % DayMillis == u - m;
    assert u % DayMillis == u - m;
  }

  datatype Option<+T> = None | Some(value: T) {
    /** The value, or `default` when absent (the source's `x || default`
        for non-falsy values). */
    function GetOr(default: T): T {
      match this
      case Some(v) => v
      case None => default
    }
  }

  /** The error kinds a handler raises, each mapped to an HTTP status by
      Constants.StatusCode. */
  datatype ErrorKind = BadRequest | Unauthorized | Forbidden | NotFound | Conflict | Internal

  /** What a handler answers: a value, or the error it threw. */
  datatype Outcome<+T> = Ok(value: T) | Err(error: ErrorKind) {
    predicate IsFailure() { Err? }

    function PropagateFailure<U>(): Outcome<U>
      requires Err?
    {
      Err(error)
    }

    function Extract(): T
      requires Ok?
    {
      value
    }
  }

  /** The result of a mutating operation: the collection afterwards and the
      handler's answer. */
  datatype Step<+S, +T> = Step(state: S, out: Outcome<T>)

  /** The role claim of a token; any string other than the three known
      roles is `OtherRole`. */
  datatype Role = Admin | Faculty | Student | OtherRole(name: string)

  /** The authenticated caller (`req.user`): the user id, the role and the
      optional faculty-profile claim. */
  datatype User = User(id: Id, role: Role, facultyId: Option<Id>)
}

=== FILE: constants.dfy ===
/** The fixed tables of the configuration: the permissions each role holds,
    the HTTP status of each error kind, and the shared error messages. */
module Constants {
  import opened Common

  datatype Permission = Read | Create | Update | Delete | ManageUsers

  /** `ROLE_PERMISSIONS[role] || []`: an unrecognised role holds nothing. */
  function RolePermissions(role: Role): (ps: set<Permission>)
    ensures Read in ps <==> !role.OtherRole?
    ensures Create in ps <==> role == Admin || role == Faculty
    ensures Update in ps <==> role == Admin || role == Faculty
    ensures Delete in ps <==> role == Admin
    ensures ManageUsers in ps <==> role == Admin
  {
    match role
    case Admin => {Read, Create, Update, Delete, ManageUsers}
    case Faculty => {Read, Create, Update}
    case Student => {Read}
    case OtherRole(_) => {}
  }

  /** Each role holds every permission of the role below it, and strictly more. */
  lemma PermissionChain()
    ensures RolePermissions(Student) < RolePermissions(Faculty) < RolePermissions(Admin)
    ensures forall name :: RolePermissions(OtherRole(name)) < RolePermissions(Student)
  {
    assert Create in RolePermissions(Faculty) - RolePermissions(Student);
    assert Delete in RolePermissions(Admin) - RolePermissions(Faculty);
    forall name ensures RolePermissions(OtherRole(name)) < RolePermissions(Student) {
      assert Read in RolePermissions(Student);
    }
  }

  const SuccessStatus := 200
  const CreatedStatus := 201

  /** `STATUS_CODES` for the error kinds. */
  function StatusCode(kind: ErrorKind): (code: int)
    ensures 400 <= code < 600
    ensures code >= 500 <==> kind == Internal
  {
    match kind
    case BadRequest => 400
    case Unauthorized => 401
    case Forbidden => 403
    case NotFound => 404
    case Conflict => 409
    case Internal => 500
  }

  /** Different error kinds never share a status, so 401, 403, 404 and 409
      tell a caller apart why it was turned away. */
  lemma StatusCodesDistinct(k1: ErrorKind, k2: ErrorKind)
    ensures StatusCode(k1) == StatusCode(k2) <==> k1 == k2
  {
  }

  /** The status back to an error kind: the inverse of StatusCode. */
  function KindOfStatus(code: int): (kind: Option<ErrorKind>)
    ensures kind.Some? ==> StatusCode(kind.value) == code
    ensures kind.None? ==> forall k :: StatusCode(k) != code
  {
    if code == 400 then Some(BadRequest)
    else if code == 401 then Some(Unauthorized)
    else if code == 403 then Some(Forbidden)
    else if code == 404 then Some(NotFound)
    else if code == 409 then Some(Conflict)
    else if code == 500 then Some(Internal)
    else None
  }

  const UnauthorizedMessage := "Unauthorized access"
  const ForbiddenMessage := "Access forbidden"
  const InvalidTokenMessage := "Invalid or expired token"
  const InternalErrorMessage := "Internal server error"
}

=== FILE: error_handler.dfy ===
/** The application error type and the last-resort error middleware that
    turns any thrown error into a status and a message. */
module ErrorHandler {
  import opened Common
  import opened Constants
  import opened Text

  /** A thrown JavaScript error as the middleware reads it. Absent string
      properties are "", absent numbers are None. */
  datatype JsError = JsError(
    name: string,                // err.name
    message: string,             // err.message
    statusCode: Option<int>,     // err.statusCode
    code: Option<int>,           // driver error code; 11000 is a duplicate key
    isOperational: bool,         // set by AppError only
    path: string,                // CastError: the offending path
    value: string,               // CastError: the offending value
    fieldMessages: seq<string>,  // ValidationError: the message of each failed field
    keyFields: seq<string>)      // duplicate key: the fields of err.keyValue

  /** The reply the middleware sends (the stack trace is not modelled). */
  datatype Reply = Reply(status: int, message: string)

  const DuplicateKeyCode := 11000
  const CorsRejection := "Not allowed by CORS"

  /** `new AppError(message, statusCode = 500)`: an operational error whose
      status defaults to 500 when the argument is omitted. */
  function AppError(message: string, statusCode: Option<int>): (e: JsError)
  {
    JsError("Error", message, Some(statusCode.GetOr(500)), None, true, "", "", [], [])
  }

  /** The error a handler throws for an error kind: an AppError carrying
      that kind's status. */
  function KindError(kind: ErrorKind, message: string): JsError {
    AppError(message, Some(StatusCode(kind)))
  }

  predicate IsTokenError(err: JsError) {
    err.name == "JsonWebTokenError" || err.name == "TokenExpiredError"
  }

  predicate IsBadInputError(err: JsError) {
    err.name == "CastError" || err.name == "ValidationError"
  }

  /** True when none of the middleware's special cases applies, so the
      error's own status (or 500) and message stand. */
  predicate IsPlain(err: JsError) {
    && !Contains(err.message, CorsRejection)
    && err.name != "MulterError"
    && err.code != Some(DuplicateKeyCode)
    && !IsTokenError(err)
    && !IsBadInputError(err)
  }

  /** `errorHandler(err)`: each special case overrides the ones checked
      before it, the CORS rejection last of all; in production a
      non-operational error only ever shows the generic message. */
  function Handle(err: JsError, production: bool): (r: Reply)
    ensures Contains(err.message, CorsRejection) ==> r.status == 403
    ensures !Contains(err.message, CorsRejection) && err.name == "MulterError" ==> r.status == 400
    ensures (!Contains(err.message, CorsRejection) && err.name != "MulterError"
             && err.code == Some(DuplicateKeyCode)) ==> r.status == 409
    ensures (!Contains(err.message, CorsRejection) && err.code != Some(DuplicateKeyCode)
             && IsTokenError(err)) ==> r.status == 401
    ensures (!Contains(err.message, CorsRejection) && err.code != Some(DuplicateKeyCode)
             && IsBadInputError(err)) ==> r.status == 400
    ensures IsPlain(err) ==> r.status == (if err.statusCode.Some? && err.statusCode.value != 0 then err.statusCode.value else 500)
    ensures IsPlain(err) && (!production || err.isOperational) ==>
              r.message == (if err.message != "" then err.message else InternalErrorMessage)
    ensures production && !err.isOperational ==> r.message == InternalErrorMessage
  {
    var status0 := if err.statusCode.Some? && err.statusCode.value != 0 then err.statusCode.value else 500;
    var message0 := if err.message != "" then err.message else InternalErrorMessage;
    var r1 := if err.name == "JsonWebTokenError" then Reply(401, InvalidTokenMessage) else Reply(status0, message0);
    var r2 := if err.name == "TokenExpiredError" then Reply(401, "Token has expired, please login again") else r1;
    var r3 := if err.name == "CastError" then Reply(400, "Invalid " + err.path + ": " + err.value) else r2;
    var r4 := if err.name == "ValidationError" then Reply(400, Join(err.fieldMessages, ". ")) else r3;
    var r5 := if err.code == Some(DuplicateKeyCode)
              then Reply(409, "Duplicate value for field: " + Join(err.keyFields, ", ")) else r4;
    var r6 := if err.name == "MulterError" then Reply(400, "File upload error: " + err.message) else r5;
    var r7 := if Contains(err.message, CorsRejection) then Reply(403, "Origin not allowed by CORS policy") else r6;
    if production && !err.isOperational then Reply(r7.status, InternalErrorMessage) else r7
  }

  /** An error a handler throws for an error kind reaches the client with
      exactly that kind's status and its own message, in every
      environment, as long as the message is non-empty and does not look
      like a CORS rejection. */
  lemma KindErrorReply(kind: ErrorKind, message: string, production: bool)
    requires message != "" && !Contains(message, CorsRejection)
    ensures Handle(KindError(kind, message), production) == Reply(StatusCode(kind), message)
  {
  }

  /** An AppError built without a status reaches the client as a 500 with
      its own message. */
  lemma AppErrorDefaultsTo500(message: string, production: bool)
    requires message != "" && !Contains(message, CorsRejection)
    ensures Handle(AppError(message, None), production) == Reply(500, message)
  {
  }

  /** A status of 0 is falsy, so it too falls back to 500. */
  lemma ZeroStatusFallsBack(message: string)
    requires message != "" && !Contains(message, CorsRejection)
    ensures Handle(AppError(message, Some(0)), false).status == 500
  {
  }
}

=== FILE: grading.dfy ===
/** The letter grade of a result and its grade point on the 10-point
    scale. The controller and the Result schema each carry an identical
    copy of the grading table; this one definition models both. */
module Grading {
  import opened Common

  datatype Grade = APlus | A | BPlus | B | CPlus | C | D | F

  /** Position of a grade on the scale, F lowest. */
  function Rank(g: Grade): (n: nat)
    ensures n <= 7
    ensures n == 0 <==> g == F
  {
    match g
    case F => 0
    case D => 1
    case C => 2
    case CPlus => 3
    case B => 4
    case BPlus => 5
    case A => 6
    case APlus => 7
  }

  /** The least total that earns a grade. */
  function Threshold(g: Grade): (t: real)
    ensures g == F <==> t == 0.0
  {
    match g
    case APlus => 90.0
    case A => 80.0
    case BPlus => 70.0
    case B => 60.0
    case CPlus => 50.0
    case C => 40.0
    case D => 33.0
    case F => 0.0
  }

  /** A higher grade always needs a strictly higher total. */
  lemma ThresholdsIncrease(g: Grade, h: Grade)
    ensures Rank(g) < Rank(h) <==> Threshold(g) < Threshold(h)
  {
  }

  /** `calculateGrade(totalMarks)`: the highest grade whose threshold the
      total reaches; a total below 33 (even a negative one) is F. */
  function CalculateGrade(total: real): (g: Grade)
    ensures g != F ==> total >= Threshold(g)
    ensures forall h :: Rank(h) > Rank(g) ==> total < Threshold(h)
  {
    if total >= 90.0 then APlus
    else if total >= 80.0 then A
    else if total >= 70.0 then BPlus
    else if total >= 60.0 then B
    else if total >= 50.0 then CPlus
    else if total >= 40.0 then C
    else if total >= 33.0 then D
    else F
  }

  /** The grade is determined by the thresholds alone: a grade is the
      answer exactly when the total reaches it and no higher grade. */
  lemma GradeCharacterised(total: real, g: Grade)
    requires g != F ==> total >= Threshold(g)
    requires forall h :: Rank(h) > Rank(g) ==> total < Threshold(h)
    ensures CalculateGrade(total) == g
  {
  }

  /** A larger total never earns a lower grade. */
  lemma GradeMonotone(t1: real, t2: real)
    requires t1 <= t2
    ensures Rank(CalculateGrade(t1)) <= Rank(CalculateGrade(t2))
  {
  }

  /** The grade points of the 10-point table. */
  function GradePoint(g: Grade): (p: int)
    ensures 0 <= p <= 10
    ensures p == 0 <==> g == F
  {
    match g
    case APlus => 10
    case A => 9
    case BPlus => 8
    case B => 7
    case CPlus => 6
    case C => 5
    case D => 4
    case F => 0
  }

  /** Grade points follow the order of the grades. */
  lemma GradePointMonotone(g: Grade, h: Grade)
    ensures Rank(g) < Rank(h) <==> GradePoint(g) < GradePoint(h)
  {
  }

  /** The stored spelling of a grade, one of the schema's enum values. */
  function GradeName(g: Grade): (s: string)
    ensures |s| <= 2
  {
    match g
    case APlus => "A+"
    case A => "A"
    case BPlus => "B+"
    case B => "B"
    case CPlus => "C+"
    case C => "C"
    case D => "D"
    case F => "F"
  }

  /** The schema's enum check: a stored string names a grade. */
  function ParseGrade(s: string): (g: Option<Grade>)
    ensures g.Some? ==> GradeName(g.value) == s
    ensures g.None? ==> forall h :: GradeName(h) != s
  {
    if s == "A+" then Some(APlus)
    else if s == "A" then Some(A)
    else if s == "B+" then Some(BPlus)
    else if s == "B" then Some(B)
    else if s == "C+" then Some(CPlus)
    else if s == "C" then Some(C)
    else if s == "D" then Some(D)
    else if s == "F" then Some(F)
    else None
  }

  lemma GradeNameRoundTrip(g: Grade)
    ensures ParseGrade(GradeName(g)) == Some(g)
  {
  }
}

=== FILE: layers.dfy ===
/** Where the request validators and the schemas disagree. The validators
    run first and are looser than the schemas in three places: subject
    credits, result marks and the length of a notice's title. A request the
    validator passes can still be refused by the schema on save, which the
    error handler turns into a 400. */
module Layers {
  import opened Common
  import opened Text
  import opened Validators
  import opened Profiles
  import Results
  import Notifications

  /** A whole number as a request field, written in decimal the way
      JavaScript prints it (below 10^21): the integer check reads back `k`. */
  function Whole(k: int): (f: Field)
    ensures f.Scalar? && f.number == Some(k as real)
    ensures IsIntText(f.text) && IntValue(f.text) == k
  {
    var digits := NatText(if k < 0 then -k else k);
    NatTextRoundTrip(if k < 0 then -k else k);
    assert ("-" + digits)[1..] == digits;
    Scalar(if k < 0 then "-" + digits else digits, Some(k as real), None)
  }

  /** The credits the validator passes but the subject schema refuses are
      exactly 7 to 10. */
  lemma CreditBoundsDiffer(k: int)
    ensures (CreditsErrors(map["credits" := Whole(k)]) == [] && !(MinCredits <= k <= MaxCredits)) <==> 7 <= k <= 10
  {
    assert Get(map["credits" := Whole(k)], "credits") == Whole(k);
  }

  /** A subject with more than six credits is refused on save however it
      got past the validator. */
  lemma OverCreditedSubjectRefused(c: Store.Collection<SubjectDoc>, s: SubjectDoc)
    requires s.credits > MaxCredits
    ensures SaveSubject(c, s).out == Err(BadRequest)
  {
  }

  /** The marks the add-marks validator passes but the result schema
      refuses: internal marks above 40, external marks above 60. */
  lemma MarkBoundsDiffer(text: string, x: real)
    ensures (MarkOk(Scalar(text, Some(x), None)) && !(0.0 <= x <= Results.MaxInternal)) <==> x > Results.MaxInternal
    ensures (MarkOk(Scalar(text, Some(x), None)) && !(0.0 <= x <= Results.MaxExternal)) <==> x > Results.MaxExternal
  {
  }

  /** Marks the validator passes (any non-negative number) but above the
      schema's caps are refused by `addMarks`: 400 when the key is free,
      409 when it is taken. */
  lemma OverMarkedResultRefused(c: Store.Collection<Results.ResultDoc>, in_: Results.MarksInput,
                                internal: Field, external: Field)
    requires !Results.MissingField(in_)
    requires MarkOk(internal) && internal.number == in_.internalMarks
    requires MarkOk(external) && external.number == in_.externalMarks
    requires in_.internalMarks.value > Results.MaxInternal || in_.externalMarks.value > Results.MaxExternal
    ensures Results.AddMarks(c, in_).out.Err?
    ensures !Results.HasKey(c.docs, in_.student.value, in_.subject.value, in_.semester.value) ==>
      Results.AddMarks(c, in_).out == Err(BadRequest)
  {
  }

  /** The two layers measure a title differently: validator.js's `isLength`
      counts an astral character once, Mongoose's `maxlength` counts its
      two UTF-16 units. So 101 to 500 astral characters pass the validator's
      500 bound, and an admin notice with such a title is refused on save. */
  lemma AstralTitleRefused(c: Store.Collection<Notifications.NotificationDoc>, caller: User, title: string, message: string)
    requires 100 < |title| <= MaxTextLength
    requires forall k :: 0 <= k < |title| ==> IsAstral(title[k])
    ensures RequiredTextOk(Scalar(title, None, None))
    ensures Notifications.CreateAdminNotification(c, caller, title, message).out == Err(BadRequest)
  {
    TrimOfTrimmed(title);
    CountExtremes(title, IsPresentationSelector);
  }
}

=== FILE: notifications.dfy ===
/** Notices to students: an admin broadcasts to everyone, a faculty member
    writes to the students of one subject. Each notice remembers which
    students have read it; a student sees the notices aimed at them with a
    read flag and an unread count. */
module Notifications {
  import opened Common
  import opened Store
  import opened Text
  import opened Profiles

  datatype SenderRole = AdminSender | FacultySender
  datatype TargetType = All | SubjectTarget

  /** A notice; `sender` is the sending user, `readBy` the students (by
      student profile id) who have read it. */
  datatype NotificationDoc = NotificationDoc(
    title: string,
    message: string,
    sender: Id,
    senderRole: SenderRole,
    targetType: TargetType,
    subject: Option<Id>,
    readBy: seq<Id>)

  const MaxTitle := 200
  const MaxMessage := 2000

  /** What the schema enforces on save (after its trim setters ran):
      title and message required and within their `maxlength`, which
      compares JavaScript's `length`, in UTF-16 code units. */
  predicate NotificationSchemaValid(n: NotificationDoc) {
    && n.title != "" && Utf16Length(n.title) <= MaxTitle
    && n.message != "" && Utf16Length(n.message) <= MaxMessage
  }

  predicate NoDuplicates(s: seq<Id>) {
    forall a, b :: 0 <= a < b < |s| ==> s[a] != s[b]
  }

  /** How the handlers shape a notice: a broadcast is the admin's and has no
      subject, a subject notice is a faculty member's and names its subject;
      nobody is listed twice as a reader. */
  predicate WellFormed(n: NotificationDoc) {
    && NotificationSchemaValid(n)
    && (n.targetType == All <==> n.senderRole == AdminSender)
    && (n.targetType == SubjectTarget <==> n.subject.Some?)
    && NoDuplicates(n.readBy)
  }

  ghost predicate NotificationsInvariant(c: Collection<NotificationDoc>) {
    c.Valid() && forall i :: i in c.docs ==> WellFormed(c.docs[i])
  }

  /** Title and message within the schema's limits once trimmed, counted
      in UTF-16 code units. */
  predicate TextsOk(title: string, message: string) {
    && Trim(title) != "" && Utf16Length(Trim(title)) <= MaxTitle
    && Trim(message) != "" && Utf16Length(Trim(message)) <= MaxMessage
  }

  /** A new notice as `Notification.create` stores it: trimmed title and
      message, nobody has read it yet; a notice with a subject is a
      faculty member's, one without is an admin broadcast. */
  function NewNotice(title: string, message: string, sender: Id, subject: Option<Id>): (n: NotificationDoc)
    ensures n.title == Trim(title) && n.message == Trim(message) && n.sender == sender
    ensures n.subject == subject && n.readBy == []
    ensures subject.None? ==> n.senderRole == AdminSender && n.targetType == All
    ensures subject.Some? ==> n.senderRole == FacultySender && n.targetType == SubjectTarget
  {
    var role := if subject.None? then AdminSender else FacultySender;
    var target := if subject.None? then All else SubjectTarget;
    NotificationDoc(Trim(title), Trim(message), sender, role, target, subject, [])
  }

  /** The schema accepts a new notice exactly when its texts are within
      limits, and an accepted one is well formed. */
  lemma NewNoticeValid(title: string, message: string, sender: Id, subject: Option<Id>)
    ensures NotificationSchemaValid(NewNotice(title, message, sender, subject)) <==> TextsOk(title, message)
    ensures TextsOk(title, message) ==> WellFormed(NewNotice(title, message, sender, subject))
  {
  }

  /** Storing a well-formed notice keeps the collection consistent. */
  lemma InsertNoticeKeeps(c: Collection<NotificationDoc>, n: NotificationDoc)
    requires NotificationsInvariant(c)
    requires WellFormed(n)
    ensures NotificationsInvariant(c.Insert(n))
  {
    var after := c.Insert(n);
    forall i | i in after.docs ensures WellFormed(after.docs[i]) {
      if i != c.next {
        assert after.docs[i] == c.docs[i];
      }
    }
  }

  // ----- createAdminNotification -----

  /** `createAdminNotification`: 400 when title or message is missing or
      the schema refuses them (blank after trimming, or too long);
      otherwise a broadcast from the caller to every student. */
  function CreateAdminNotification(c: Collection<NotificationDoc>, caller: User, title: string, message: string): (r: Step<Collection<NotificationDoc>, Id>)
    ensures r.out.Ok? <==> TextsOk(title, message)
    ensures r.out.Err? ==> r.out.error == BadRequest && r.state == c
    ensures title == "" || message == "" ==> r.out == Err(BadRequest)
    ensures r.out.Ok? ==> r.out.value == c.next && r.state == c.Insert(NewNotice(title, message, caller.id, None))
    ensures NotificationsInvariant(c) ==> NotificationsInvariant(r.state)
  {
    if title == "" || message == "" then Step(c, Err(BadRequest))
    else
      var n := NewNotice(title, message, caller.id, None);
      NewNoticeValid(title, message, caller.id, None);
      if !NotificationSchemaValid(n) then Step(c, Err(BadRequest))
      else
        assert NotificationsInvariant(c) ==> NotificationsInvariant(c.Insert(n)) by {
          if NotificationsInvariant(c) { InsertNoticeKeeps(c, n); }
        }
        Step(c.Insert(n), Ok(c.next))
  }

  // ----- createFacultyNotification -----

  /** The ownership check as written reads `subject.faculty`, a path the
      subject schema does not have, so the value compared is always
      `undefined`. */
  function FacultyFieldAsWritten(s: SubjectDoc): (f: Option<Id>)
    ensures f.None?
  {
    None
  }

  /** `String(a) !== String(b)` on a possibly undefined id: `"undefined"`
      never spells an ObjectId. */
  predicate SameIdText(a: Option<Id>, b: Id) {
    a == Some(b)
  }

  /** `createFacultyNotification` as written: 400 without title, message
      or subject id, 404 without a faculty profile, 404 for an unknown
      subject, 403 unless the subject's `faculty` is the caller's profile,
      400 when the schema refuses; otherwise a notice to that subject. */
  function CreateFacultyNotificationAsWritten(c: Collection<NotificationDoc>, faculties: map<Id, FacultyDoc>,
                                              subjects: map<Id, SubjectDoc>, caller: User,
                                              title: string, message: string, subject: Option<Id>): (r: Step<Collection<NotificationDoc>, Id>)
    ensures title == "" || message == "" || subject.None? ==> r.out == Err(BadRequest)
    ensures r.out.Err? ==> r.state == c
    ensures r.out == Err(Forbidden) <==>
      && title != "" && message != "" && subject.Some?
      && FacultyOfUser(faculties, caller.id).Some? && subject.value in subjects
      && !SameIdText(FacultyFieldAsWritten(subjects[subject.value]), FacultyOfUser(faculties, caller.id).value)
    ensures r.out.Ok? ==>
      && subject.Some? && subject.value in subjects && FacultyOfUser(faculties, caller.id).Some?
      && SameIdText(FacultyFieldAsWritten(subjects[subject.value]), FacultyOfUser(faculties, caller.id).value)
  {
    if title == "" || message == "" || subject.None? then Step(c, Err(BadRequest))
    else
      var f := FacultyOfUser(faculties, caller.id);
      if f.None? then Step(c, Err(NotFound))
      else if subject.value !in subjects then Step(c, Err(NotFound))
      else if !SameIdText(FacultyFieldAsWritten(subjects[subject.value]), f.value) then Step(c, Err(Forbidden))
      else
        var n := NewNotice(title, message, caller.id, subject);
        if !NotificationSchemaValid(n) then Step(c, Err(BadRequest))
        else Step(c.Insert(n), Ok(c.next))
  }

  /** As written no faculty notice is ever stored: every complete request
      from a faculty member with a profile, for an existing subject, is
      refused 403, even for a subject assigned to that very member. */
  lemma FacultyNoticeAlwaysForbidden(c: Collection<NotificationDoc>, faculties: map<Id, FacultyDoc>,
                                     subjects: map<Id, SubjectDoc>, caller: User,
                                     title: string, message: string, subject: Id)
    requires title != "" && message != ""
    requires FacultyOfUser(faculties, caller.id).Some?
    requires subject in subjects
    ensures CreateFacultyNotificationAsWritten(c, faculties, subjects, caller, title, message, Some(subject)).out == Err(Forbidden)
    ensures CreateFacultyNotificationAsWritten(c, faculties, subjects, caller, title, message, Some(subject)).state == c
  {
  }

  /** In the concrete case below, user 1's faculty profile is 5. */
  lemma ProfileFive()
    ensures FacultyOfUser(map[5 := FacultyDoc(1)], 1) == Some(5)
  {
    var faculties := map[5 := FacultyDoc(1)];
    assert 5 in faculties && faculties[5].user == 1;
  }

  /** A concrete case: faculty profile 5 of user 1 is the assigned faculty
      of subject 3, yet its notice to subject 3 is refused. */
  lemma AssignedFacultyRefused()
    ensures CreateFacultyNotificationAsWritten(
              Collection(map[], 0), map[5 := FacultyDoc(1)],
              map[3 := SubjectDoc("Algorithms", "CS201", "CS", 3, Some(5), 4)],
              User(1, Faculty, Some(5)), "Quiz", "Friday", Some(3)).out == Err(Forbidden)
  {
    ProfileFive();
    FacultyNoticeAlwaysForbidden(Collection(map[], 0), map[5 := FacultyDoc(1)],
      map[3 := SubjectDoc("Algorithms", "CS201", "CS", 3, Some(5), 4)],
      User(1, Faculty, Some(5)), "Quiz", "Friday", 3);
  }

  /** `createFacultyNotification` with the ownership check on the field
      the subject schema does have, `assignedFaculty`: the caller's
      profile must be the subject's assigned faculty. */
  function CreateFacultyNotification(c: Collection<NotificationDoc>, faculties: map<Id, FacultyDoc>,
                                     subjects: map<Id, SubjectDoc>, caller: User,
                                     title: string, message: string, subject: Option<Id>): (r: Step<Collection<NotificationDoc>, Id>)
    ensures title == "" || message == "" || subject.None? ==> r.out == Err(BadRequest)
    ensures r.out == Err(NotFound) <==>
      && title != "" && message != "" && subject.Some?
      && (FacultyOfUser(faculties, caller.id).None? || subject.value !in subjects)
    ensures r.out == Err(Forbidden) <==>
      && title != "" && message != "" && subject.Some?
      && FacultyOfUser(faculties, caller.id).Some? && subject.value in subjects
      && subjects[subject.value].assignedFaculty != FacultyOfUser(faculties, caller.id)
    ensures r.out.Ok? <==>
      && subject.Some? && subject.value in subjects
      && FacultyOfUser(faculties, caller.id).Some?
      && subjects[subject.value].assignedFaculty == FacultyOfUser(faculties, caller.id)
      && TextsOk(title, message)
    ensures r.out.Err? ==> r.state == c
    ensures r.out.Ok? ==> r.out.value == c.next && r.state == c.Insert(NewNotice(title, message, caller.id, subject))
    ensures NotificationsInvariant(c) ==> NotificationsInvariant(r.state)
  {
    if title == "" || message == "" || subject.None? then Step(c, Err(BadRequest))
    else
      var f := FacultyOfUser(faculties, caller.id);
      if f.None? then Step(c, Err(NotFound))
      else if subject.value !in subjects then Step(c, Err(NotFound))
      else if subjects[subject.value].assignedFaculty != f then Step(c, Err(Forbidden))
      else
        var n := NewNotice(title, message, caller.id, subject);
        NewNoticeValid(title, message, caller.id, subject);
        if !NotificationSchemaValid(n) then Step(c, Err(BadRequest))
        else
          assert NotificationsInvariant(c) ==> NotificationsInvariant(c.Insert(n)) by {
            if NotificationsInvariant(c) { InsertNoticeKeeps(c, n); }
          }
          Step(c.Insert(n), Ok(c.next))
  }

  lemma QuizTextsOk()
    ensures TextsOk("Quiz", "Friday")
  {
    TrimOfTrimmed("Quiz");
    TrimOfTrimmed("Friday");
  }

  /** With the check on `assignedFaculty`, the assigned faculty member's
      notice in the concrete case goes through. */
  lemma AssignedFacultyAccepted()
    ensures CreateFacultyNotification(
              Collection(map[], 0), map[5 := FacultyDoc(1)],
              map[3 := SubjectDoc("Algorithms", "CS201", "CS", 3, Some(5), 4)],
              User(1, Faculty, Some(5)), "Quiz", "Friday", Some(3)).out == Ok(0)
  {
    ProfileFive();
    QuizTextsOk();
    var subjects := map[3 := SubjectDoc("Algorithms", "CS201", "CS", 3, Some(5), 4)];
    assert 3 in subjects && subjects[3].assignedFaculty == Some(5);
  }

  // ----- What a student sees -----

  /** The audience query: broadcasts, and notices of a subject the student
      is enrolled in. */
  predicate VisibleTo(n: NotificationDoc, subjects: seq<Id>) {
    n.targetType == All || (n.targetType == SubjectTarget && n.subject.Some? && n.subject.value in subjects)
  }

  function Audience(subjects: seq<Id>): NotificationDoc -> bool {
    (n: NotificationDoc) => VisibleTo(n, subjects)
  }

  /** The audience query with `readBy: { $ne: studentId }`. */
  function UnreadBy(me: Id, subjects: seq<Id>): NotificationDoc -> bool {
    (n: NotificationDoc) => VisibleTo(n, subjects) && me !in n.readBy
  }

  /** A notice as a student receives it: the id and whether they read it;
      `readBy` itself is not passed on. */
  datatype NoticeView = NoticeView(id: Id, isRead: bool)

  function Views(docs: map<Id, NotificationDoc>, me: Id, ids: seq<Id>): (vs: seq<NoticeView>)
    requires forall i :: i in ids ==> i in docs
    ensures |vs| == |ids|
    ensures forall k :: 0 <= k < |ids| ==> vs[k].id == ids[k] && (vs[k].isRead <==> me in docs[ids[k]].readBy)
  {
    if ids == [] then []
    else [NoticeView(ids[0], me in docs[ids[0]].readBy)] + Views(docs, me, ids[1..])
  }

  /** `enriched.filter((n) => !n.isRead).length`. */
  function CountUnread(vs: seq<NoticeView>): (n: nat)
    ensures n <= |vs|
  {
    if vs == [] then 0
    else (if vs[0].isRead then 0 else 1) + CountUnread(vs[1..])
  }

  /** The listed notices the student has not read. */
  function UnreadIds(docs: map<Id, NotificationDoc>, me: Id, ids: seq<Id>): (u: set<Id>)
    requires forall i :: i in ids ==> i in docs
    ensures forall i :: i in u <==> i in ids && me !in docs[i].readBy
  {
    set i | i in ids && me !in docs[i].readBy
  }

  /** Peeling the first id off an ascending listing. */
  lemma UnreadIdsStep(docs: map<Id, NotificationDoc>, me: Id, ids: seq<Id>)
    requires forall i :: i in ids ==> i in docs
    requires Ascending(ids) && ids != []
    ensures Ascending(ids[1..])
    ensures |UnreadIds(docs, me, ids)| == (if me in docs[ids[0]].readBy then 0 else 1) + |UnreadIds(docs, me, ids[1..])|
  {
    var rest := ids[1..];
    AscendingTail(ids);
    var all := UnreadIds(docs, me, ids);
    var tail := UnreadIds(docs, me, rest);
    if me in docs[ids[0]].readBy {
      assert all == tail;
    } else {
      assert all == tail + {ids[0]};
    }
  }

  /** The unread entries of a listing are its unread notices. */
  lemma {:induction false} CountUnreadIsUnreadIds(docs: map<Id, NotificationDoc>, me: Id, ids: seq<Id>)
    requires forall i :: i in ids ==> i in docs
    requires Ascending(ids)
    ensures CountUnread(Views(docs, me, ids)) == |UnreadIds(docs, me, ids)|
  {
    if ids == [] {
      assert UnreadIds(docs, me, ids) == {};
    } else {
      UnreadIdsStep(docs, me, ids);
      CountUnreadIsUnreadIds(docs, me, ids[1..]);
      var vs := Views(docs, me, ids);
      assert vs[1..] == Views(docs, me, ids[1..]);
    }
  }

  datatype Inbox = Inbox(notices: seq<NoticeView>, unreadCount: nat)

  /** `getMyNotifications`: 404 without a student profile; otherwise every
      notice aimed at the student, each flagged read exactly when the
      student is in its `readBy`, and the number not read. */
  function GetMyNotifications(c: Collection<NotificationDoc>, students: map<Id, StudentDoc>, caller: User): (r: Outcome<Inbox>)
    ensures r == Err(NotFound) <==> StudentOfUser(students, caller.id).None?
    ensures r.Ok? ==>
      var me := StudentOfUser(students, caller.id).value;
      && (forall k :: 0 <= k < |r.value.notices| ==>
            && r.value.notices[k].id in c.docs
            && VisibleTo(c.docs[r.value.notices[k].id], students[me].subjects)
            && (r.value.notices[k].isRead <==> me in c.docs[r.value.notices[k].id].readBy))
      && (forall i :: i in c.docs && VisibleTo(c.docs[i], students[me].subjects) ==>
            exists k :: 0 <= k < |r.value.notices| && r.value.notices[k].id == i)
      && r.value.unreadCount == CountUnread(r.value.notices)
  {
    var student := StudentOfUser(students, caller.id);
    if student.None? then Err(NotFound)
    else
      var me := student.value;
      var ids := Where(c.docs, Audience(students[me].subjects));
      var vs := Views(c.docs, me, ids);
      assert forall i :: i in c.docs && VisibleTo(c.docs[i], students[me].subjects) ==>
        exists k :: 0 <= k < |vs| && vs[k].id == i by {
        forall i | i in c.docs && VisibleTo(c.docs[i], students[me].subjects)
          ensures exists k :: 0 <= k < |vs| && vs[k].id == i
        {
          assert i in ids;
          var k :| 0 <= k < |ids| && ids[k] == i;
          assert vs[k].id == i;
        }
      }
      Ok(Inbox(vs, CountUnread(vs)))
  }

  /** `getUnreadCount`: 404 without a student profile, else the number of
      notices aimed at the student that they have not read. */
  function GetUnreadCount(c: Collection<NotificationDoc>, students: map<Id, StudentDoc>, caller: User): (r: Outcome<nat>)
    ensures r == Err(NotFound) <==> StudentOfUser(students, caller.id).None?
    ensures r.Ok? ==> r.value <= |c.docs|
    ensures r.Ok? ==> (r.value == 0 <==>
      forall i :: i in c.docs && VisibleTo(c.docs[i], students[StudentOfUser(students, caller.id).value].subjects) ==>
        StudentOfUser(students, caller.id).value in c.docs[i].readBy)
  {
    var student := StudentOfUser(students, caller.id);
    if student.None? then Err(NotFound)
    else
      var me := student.value;
      CountZero(c.docs, UnreadBy(me, students[me].subjects));
      Ok(Count(c.docs, UnreadBy(me, students[me].subjects)))
  }

  /** The badge and the inbox agree: the unread count of the listing is
      the count the badge query returns. */
  lemma BadgeMatchesInbox(c: Collection<NotificationDoc>, students: map<Id, StudentDoc>, caller: User)
    requires StudentOfUser(students, caller.id).Some?
    ensures GetMyNotifications(c, students, caller).value.unreadCount == GetUnreadCount(c, students, caller).value
  {
    var me := StudentOfUser(students, caller.id).value;
    var subjects := students[me].subjects;
    var ids := Where(c.docs, Audience(subjects));
    CountUnreadIsUnreadIds(c.docs, me, ids);
    assert UnreadIds(c.docs, me, ids) == Matching(c.docs, UnreadBy(me, subjects));
  }

  // ----- markAsRead / markAllAsRead -----

  /** `$addToSet`: append `me` unless already present. */
  function AddReader(readBy: seq<Id>, me: Id): (r: seq<Id>)
    ensures me in r
    ensures forall x :: x in r <==> x in readBy || x == me
    ensures NoDuplicates(readBy) ==> NoDuplicates(r)
    ensures me in readBy ==> r == readBy
  {
    if me in readBy then readBy else readBy + [me]
  }

  /** `markAsRead`: 404 without a student profile or for an unknown
      notice; otherwise the student is among its readers, added once. The
      notice need not be aimed at the student. */
  function MarkAsRead(c: Collection<NotificationDoc>, students: map<Id, StudentDoc>, caller: User, id: Id): (r: Step<Collection<NotificationDoc>, Id>)
    ensures r.out == Err(NotFound) <==> StudentOfUser(students, caller.id).None? || id !in c.docs
    ensures r.out.Err? ==> r.state == c
    ensures r.out.Ok? ==>
      && r.state.next == c.next && r.state.docs.Keys == c.docs.Keys
      && (forall i :: i in c.docs && i != id ==> r.state.docs[i] == c.docs[i])
      && r.state.docs[id] == c.docs[id].(readBy := AddReader(c.docs[id].readBy, StudentOfUser(students, caller.id).value))
    ensures NotificationsInvariant(c) ==> NotificationsInvariant(r.state)
  {
    var student := StudentOfUser(students, caller.id);
    if student.None? || id !in c.docs then Step(c, Err(NotFound))
    else
      var n := c.docs[id].(readBy := AddReader(c.docs[id].readBy, student.value));
      Step(Collection(c.docs[id := n], c.next), Ok(id))
  }

  /** Marking the same notice read twice is marking it once. */
  lemma MarkAsReadIdempotent(c: Collection<NotificationDoc>, students: map<Id, StudentDoc>, caller: User, id: Id)
    ensures MarkAsRead(MarkAsRead(c, students, caller, id).state, students, caller, id).state
            == MarkAsRead(c, students, caller, id).state
  {
    var r := MarkAsRead(c, students, caller, id);
    if r.out.Ok? {
      assert r.state.docs[id := r.state.docs[id]] == r.state.docs;
    }
  }

  /** The notice after `markAllAsRead`: the student added to the readers
      of every notice aimed at them. */
  function ReadAllFor(n: NotificationDoc, me: Id, subjects: seq<Id>): (m: NotificationDoc)
    ensures VisibleTo(n, subjects) ==> m == n.(readBy := AddReader(n.readBy, me))
    ensures !VisibleTo(n, subjects) ==> m == n
  {
    if VisibleTo(n, subjects) && me !in n.readBy then n.(readBy := n.readBy + [me]) else n
  }

  /** `markAllAsRead`: 404 without a student profile; otherwise the
      student becomes a reader of every notice aimed at them and nothing
      else changes. */
  function MarkAllAsRead(c: Collection<NotificationDoc>, students: map<Id, StudentDoc>, caller: User): (r: Step<Collection<NotificationDoc>, nat>)
    ensures r.out == Err(NotFound) <==> StudentOfUser(students, caller.id).None?
    ensures r.out.Err? ==> r.state == c
    ensures r.out.Ok? ==>
      var me := StudentOfUser(students, caller.id).value;
      && r.state.next == c.next && r.state.docs.Keys == c.docs.Keys
      && (forall i :: i in c.docs ==> r.state.docs[i] == ReadAllFor(c.docs[i], me, students[me].subjects))
  {
    var student := StudentOfUser(students, caller.id);
    if student.None? then Step(c, Err(NotFound))
    else
      var me := student.value;
      var subjects := students[me].subjects;
      var updated := Count(c.docs, UnreadBy(me, subjects));
      Step(Collection(map i | i in c.docs :: ReadAllFor(c.docs[i], me, subjects), c.next), Ok(updated))
  }

  /** After `markAllAsRead` the student has nothing unread. */
  lemma NothingUnreadAfterReadAll(c: Collection<NotificationDoc>, students: map<Id, StudentDoc>, caller: User)
    requires StudentOfUser(students, caller.id).Some?
    ensures GetUnreadCount(MarkAllAsRead(c, students, caller).state, students, caller) == Ok(0)
  {
    var me := StudentOfUser(students, caller.id).value;
    var after := MarkAllAsRead(c, students, caller).state;
    var p := UnreadBy(me, students[me].subjects);
    assert Matching(after.docs, p) == {} by {
      forall i | i in after.docs ensures !p(after.docs[i]) {
        assert after.docs[i] == ReadAllFor(c.docs[i], me, students[me].subjects);
      }
    }
  }

  /** Marking everything read keeps the collection consistent. */
  lemma ReadAllKeepsInvariant(c: Collection<NotificationDoc>, students: map<Id, StudentDoc>, caller: User)
    requires NotificationsInvariant(c)
    ensures NotificationsInvariant(MarkAllAsRead(c, students, caller).state)
  {
    var r := MarkAllAsRead(c, students, caller);
    if r.out.Ok? {
      forall i | i in r.state.docs ensures WellFormed(r.state.docs[i]) {
        assert i in c.docs;
      }
    }
  }

  // ----- getSentNotifications / deleteNotification -----

  /** `getSentNotifications`: the notices the caller sent. */
  function GetSentNotifications(c: Collection<NotificationDoc>, caller: User): (r: seq<Id>)
    ensures forall i :: i in r <==> i in c.docs && c.docs[i].sender == caller.id
    ensures Ascending(r)
  {
    Where(c.docs, (n: NotificationDoc) => n.sender == caller.id)
  }

  /** `deleteNotification`: 404 for an unknown notice, 403 for anyone but
      its sender; otherwise the notice is gone and no other changes. */
  function DeleteNotification(c: Collection<NotificationDoc>, caller: User, id: Id): (r: Step<Collection<NotificationDoc>, Id>)
    ensures r.out == Err(NotFound) <==> id !in c.docs
    ensures r.out == Err(Forbidden) <==> id in c.docs && c.docs[id].sender != caller.id
    ensures r.out.Ok? <==> id in c.docs && c.docs[id].sender == caller.id
    ensures r.out.Err? ==> r.state == c
    ensures r.out.Ok? ==>
      && r.state.next == c.next
      && (forall i :: i in r.state.docs <==> i in c.docs && i != id)
      && (forall i :: i in r.state.docs ==> r.state.docs[i] == c.docs[i])
    ensures NotificationsInvariant(c) ==> NotificationsInvariant(r.state)
  {
    if id !in c.docs then Step(c, Err(NotFound))
    else if c.docs[id].sender != caller.id then Step(c, Err(Forbidden))
    else Step(Collection(c.docs - {id}, c.next), Ok(id))
  }

  /** Only the sender can remove a notice: a caller who deletes a notice
      successfully sent it, whatever their role. */
  lemma OnlySenderDeletes(c: Collection<NotificationDoc>, caller: User, other: User, id: Id)
    requires DeleteNotification(c, caller, id).out.Ok?
    requires other.id != caller.id
    ensures DeleteNotification(c, other, id).out == Err(Forbidden)
  {
  }
}

=== FILE: profiles.dfy ===
/** The profile collections the record handlers read: students (with their
    enrolled subjects), subjects (with credits and an optional assigned
    faculty) and faculty profiles, with their schema bounds, defaults and
    unique indexes. */
module Profiles {
  import opened Common
  import opened Store
  import opened Text

  /** A faculty profile; only the link to its user matters here. */
  datatype FacultyDoc = FacultyDoc(user: Id)

  datatype StudentDoc = StudentDoc(
    user: Id,
    enrollmentNumber: string,
    course: string,
    semester: int,
    subjects: seq<Id>,
    attendance: real,
    cgpa: real)

  datatype SubjectDoc = SubjectDoc(
    subjectName: string,
    subjectCode: string,
    department: string,
    semester: int,
    assignedFaculty: Option<Id>,
    credits: int)

  /** `Student.findOne({ user })`: the caller's student profile. */
  function StudentOfUser(students: map<Id, StudentDoc>, user: Id): (r: Option<Id>)
    ensures r.Some? ==> r.value in students && students[r.value].user == user
    ensures r.None? <==> forall i :: i in students ==> students[i].user != user
  {
    FindFirst(students, (s: StudentDoc) => s.user == user)
  }

  /** `Faculty.findOne({ user })`: the caller's faculty profile. */
  function FacultyOfUser(faculties: map<Id, FacultyDoc>, user: Id): (r: Option<Id>)
    ensures r.Some? ==> r.value in faculties && faculties[r.value].user == user
    ensures r.None? <==> forall i :: i in faculties ==> faculties[i].user != user
  {
    FindFirst(faculties, (f: FacultyDoc) => f.user == user)
  }

  // ----- Student schema -----

  const MinSemester := 1
  const MaxSemester := 12

  /** The bounds the student schema enforces on save. */
  predicate StudentSchemaValid(s: StudentDoc) {
    && s.enrollmentNumber != "" && s.course != ""
    && MinSemester <= s.semester <= MaxSemester
    && 0.0 <= s.attendance <= 100.0
    && 0.0 <= s.cgpa <= 10.0
  }

  /** The unique indexes on `user` and `enrollmentNumber`. */
  ghost predicate UniqueStudents(m: map<Id, StudentDoc>) {
    forall i, j :: i in m && j in m && i != j ==>
      m[i].user != m[j].user && m[i].enrollmentNumber != m[j].enrollmentNumber
  }

  ghost predicate StudentsInvariant(c: Collection<StudentDoc>) {
    && c.Valid()
    && UniqueStudents(c.docs)
    && forall i :: i in c.docs ==> StudentSchemaValid(c.docs[i])
  }

  /** A new student as the schema defaults it: no subjects, attendance 0,
      CGPA 0. */
  function NewStudent(user: Id, enrollmentNumber: string, course: string, semester: int): (s: StudentDoc)
    ensures s.subjects == [] && s.attendance == 0.0 && s.cgpa == 0.0
    ensures StudentSchemaValid(s) <==>
      Trim(enrollmentNumber) != "" && Trim(course) != "" && 1 <= semester <= 12
  {
    StudentDoc(user, Trim(enrollmentNumber), Trim(course), semester, [], 0.0, 0.0)
  }

  /** The document as the schema's `trim` setters leave it: enrolment
      number and course trimmed, the rest as given. */
  function StoredStudent(s: StudentDoc): (d: StudentDoc)
    ensures d.enrollmentNumber == Trim(s.enrollmentNumber) && d.course == Trim(s.course)
    ensures d.(enrollmentNumber := s.enrollmentNumber, course := s.course) == s
  {
    s.(enrollmentNumber := Trim(s.enrollmentNumber), course := Trim(s.course))
  }

  /** A student built by `NewStudent` is already in its stored form. */
  lemma NewStudentIsStored(user: Id, enrollmentNumber: string, course: string, semester: int)
    ensures StoredStudent(NewStudent(user, enrollmentNumber, course, semester)) == NewStudent(user, enrollmentNumber, course, semester)
  {
    TrimIdempotent(enrollmentNumber);
    TrimIdempotent(course);
  }

  /** Two students that one of the unique indexes keeps apart. */
  predicate Clashes(a: StudentDoc, b: StudentDoc) {
    a.user == b.user || a.enrollmentNumber == b.enrollmentNumber
  }

  /** Saving a student: the trim setters, then schema validation (400),
      then the two unique indexes (409), then the insert. */
  function SaveStudent(c: Collection<StudentDoc>, s: StudentDoc): (r: Step<Collection<StudentDoc>, Id>)
    ensures r.out == Err(BadRequest) <==> !StudentSchemaValid(StoredStudent(s))
    ensures Trim(s.enrollmentNumber) == "" || Trim(s.course) == "" ==> r.out == Err(BadRequest)
    ensures r.out.Err? ==> r.state == c
    ensures r.out == Err(Conflict) <==>
      StudentSchemaValid(StoredStudent(s)) && (exists i :: i in c.docs && Clashes(c.docs[i], StoredStudent(s)))
    ensures r.out.Ok? ==> r.state.docs == c.docs[r.out.value := StoredStudent(s)]
    ensures r.out.Ok? && c.Valid() ==> r.out.value !in c.docs
    ensures StudentsInvariant(c) ==> StudentsInvariant(r.state)
  {
    var stored := StoredStudent(s);
    if !StudentSchemaValid(stored) then Step(c, Err(BadRequest))
    else if exists i :: i in c.docs && Clashes(c.docs[i], stored) then Step(c, Err(Conflict))
    else Step(c.Insert(stored), Ok(c.next))
  }

  // ----- Subject schema -----

  const MinCredits := 1
  const MaxCredits := 6

  /** The bounds the subject schema enforces on save. */
  predicate SubjectSchemaValid(s: SubjectDoc) {
    && s.subjectName != "" && s.subjectCode != "" && s.department != ""
    && MinSemester <= s.semester <= MaxSemester
    && MinCredits <= s.credits <= MaxCredits
  }

  /** The stored form of a subject code: trimmed and upper-cased. */
  function NormalCode(code: string): (r: string)
    ensures forall k :: 0 <= k < |r| ==> !IsLower(r[k])
    ensures |r| <= |code|
  {
    ToUpper(Trim(code))
  }

  /** Normalising a stored code again changes nothing. */
  lemma NormalCodeIdempotent(code: string)
    ensures NormalCode(NormalCode(code)) == NormalCode(code)
  {
    var t := Trim(code);
    UpperKeepsTrimmed(t);
    TrimOfTrimmed(ToUpper(t));
    ToUpperIdempotent(t);
  }

  lemma UpperKeepsTrimmed(t: string)
    requires Trimmed(t)
    ensures Trimmed(ToUpper(t))
  {
  }

  /** The unique index on the (normalised) subject code. */
  ghost predicate UniqueCodes(m: map<Id, SubjectDoc>) {
    forall i, j :: i in m && j in m && i != j ==> m[i].subjectCode != m[j].subjectCode
  }

  /** A code that is already in its stored form. */
  predicate IsNormalCode(code: string) {
    NormalCode(code) == code
  }

  /** A stored subject: schema-valid, with its code in stored form. */
  predicate StoredSubjectOk(d: SubjectDoc) {
    SubjectSchemaValid(d) && IsNormalCode(d.subjectCode)
  }

  ghost predicate SubjectsInvariant(c: Collection<SubjectDoc>) {
    && c.Valid()
    && UniqueCodes(c.docs)
    && forall i :: i in c.docs ==> StoredSubjectOk(c.docs[i])
  }

  /** Inserting a valid subject whose normalised code is new keeps the
      collection's invariant. */
  lemma InsertSubjectKeeps(c: Collection<SubjectDoc>, stored: SubjectDoc)
    requires SubjectsInvariant(c)
    requires StoredSubjectOk(stored)
    requires forall i :: i in c.docs ==> c.docs[i].subjectCode != stored.subjectCode
    ensures SubjectsInvariant(c.Insert(stored))
  {
    var d := c.Insert(stored);
    assert d.docs == c.docs[c.next := stored];
    forall i | i in d.docs
      ensures StoredSubjectOk(d.docs[i])
    {
      if i != c.next { assert d.docs[i] == c.docs[i]; }
    }
    forall i, j | i in d.docs && j in d.docs && i != j
      ensures d.docs[i].subjectCode != d.docs[j].subjectCode
    {
      if i == c.next { assert d.docs[j] == c.docs[j]; }
      else if j == c.next { assert d.docs[i] == c.docs[i]; }
      else { assert d.docs[i] == c.docs[i] && d.docs[j] == c.docs[j]; }
    }
  }

  /** Saving a subject: the code is trimmed and upper-cased, the document
      validated (400), the code checked against the unique index (409). */
  function SaveSubject(c: Collection<SubjectDoc>, s: SubjectDoc): (r: Step<Collection<SubjectDoc>, Id>)
    ensures r.out == Err(BadRequest) <==> !SubjectSchemaValid(Stored(s))
    ensures r.out == Err(Conflict) <==>
      SubjectSchemaValid(Stored(s)) && exists i :: i in c.docs && c.docs[i].subjectCode == Stored(s).subjectCode
    ensures r.out.Err? ==> r.state == c
    ensures r.out.Ok? ==> r.state.docs == c.docs[r.out.value := Stored(s)]
    ensures r.out.Ok? && c.Valid() ==> r.out.value !in c.docs
    ensures SubjectsInvariant(c) ==> SubjectsInvariant(r.state)
  {
    var stored := Stored(s);
    if !SubjectSchemaValid(stored) then Step(c, Err(BadRequest))
    else if exists i :: i in c.docs && c.docs[i].subjectCode == stored.subjectCode then Step(c, Err(Conflict))
    else
      NormalCodeIdempotent(s.subjectCode);
      assert SubjectsInvariant(c) ==> SubjectsInvariant(c.Insert(stored)) by {
        if SubjectsInvariant(c) { InsertSubjectKeeps(c, stored); }
      }
      Step(c.Insert(stored), Ok(c.next))
  }

  /** The document as the schema's setters leave it: name and department
      trimmed, the code trimmed and upper-cased, the rest as given. */
  function Stored(s: SubjectDoc): (d: SubjectDoc)
    ensures d.subjectName == Trim(s.subjectName) && d.department == Trim(s.department)
    ensures d.subjectCode == NormalCode(s.subjectCode)
    ensures d.semester == s.semester && d.assignedFaculty == s.assignedFaculty && d.credits == s.credits
    ensures d.(subjectName := s.subjectName, subjectCode := s.subjectCode, department := s.department) == s
  {
    s.(subjectName := Trim(s.subjectName), subjectCode := NormalCode(s.subjectCode), department := Trim(s.department))
  }

  /** A name or department that is blank once trimmed is refused with 400,
      whatever the rest of the subject. */
  lemma BlankSubjectRefused(c: Collection<SubjectDoc>, s: SubjectDoc)
    requires forall k :: 0 <= k < |s.subjectName| ==> IsSpace(s.subjectName[k])
    ensures SaveSubject(c, s).out == Err(BadRequest)
  {
    TrimBlank(s.subjectName);
  }

  /** Saving the stored form again stores the same document. */
  lemma StoredIdempotent(s: SubjectDoc)
    ensures Stored(Stored(s)) == Stored(s)
  {
    TrimIdempotent(s.subjectName);
    TrimIdempotent(s.department);
    NormalCodeIdempotent(s.subjectCode);
  }

  /** Two codes that differ only in letter case name the same subject: the
      second save is refused. */
  lemma CaseInsensitiveCodes()
    ensures var c := Collection(map[], 0);
            var s := SubjectDoc("Data Structures", "cs101", "CSE", 3, None, 4);
            var r1 := SaveSubject(c, s);
            r1.out.Ok? && SaveSubject(r1.state, s.(subjectCode := "CS101")).out == Err(Conflict)
  {
    var c := Collection(map[], 0);
    var s := SubjectDoc("Data Structures", "cs101", "CSE", 3, None, 4);
    TrimOfTrimmed("Data Structures");
    TrimOfTrimmed("CSE");
    LowerCodeNormalises();
    UpperCodeNormalises();
    var r1 := SaveSubject(c, s);
    assert SubjectSchemaValid(Stored(s));
    assert r1.out.Ok?;
    var s2 := s.(subjectCode := "CS101");
    assert r1.state.docs[r1.out.value].subjectCode == Stored(s2).subjectCode;
  }

  lemma LowerCodeUpper()
    ensures ToUpper("cs101") == "CS101"
  {
    var u := ToUpper("cs101");
    assert u[0] == 'C' && u[1] == 'S' && u[2] == '1' && u[3] == '0' && u[4] == '1';
  }

  lemma LowerCodeNormalises()
    ensures NormalCode("cs101") == "CS101"
  {
    TrimOfTrimmed("cs101");
    LowerCodeUpper();
  }

  lemma UpperCodeNormalises()
    ensures NormalCode("CS101") == "CS101"
  {
    TrimOfTrimmed("CS101");
    UpperOfUpper("CS101");
  }
}

=== FILE: result_stats.dfy ===
/** The statistics the result listings attach: per student (marks,
    percentage, credit-weighted SGPA) and per subject (pass/fail counts,
    average, highest and lowest total). Ratios are exact; the two-decimal
    rounding of the replies is not modelled. */
module ResultStats {
  import opened Common
  import opened Grading

  /** One result as the statistics read it: its total, its grade and the
      credits of its subject (None when the subject is missing). */
  datatype Scored = Scored(total: real, grade: Grade, credits: Option<int>)

  function Sum(xs: seq<real>): (s: real)
    ensures |xs| == 0 ==> s == 0.0
  {
    if xs == [] then 0.0 else xs[0] + Sum(xs[1..])
  }

  /** A sum of values in [lo, hi] lies between n·lo and n·hi. */
  lemma {:induction false} SumBounds(xs: seq<real>, lo: real, hi: real)
    requires forall k :: 0 <= k < |xs| ==> lo <= xs[k] <= hi
    ensures |xs| as real * lo <= Sum(xs) <= |xs| as real * hi
  {
    if xs != [] {
      SumBounds(xs[1..], lo, hi);
    }
  }

  /** A value between n·lo and n·hi, divided by a positive n, lies
      between lo and hi. */
  lemma DivBetween(x: real, n: real, lo: real, hi: real)
    requires n > 0.0 && n * lo <= x <= n * hi
    ensures lo <= x / n <= hi
    ensures x / n * n == x
  {
    assert x / n * n == x;
  }

  function Totals(rows: seq<Scored>): (ts: seq<real>)
    ensures |ts| == |rows|
    ensures forall k :: 0 <= k < |rows| ==> ts[k] == rows[k].total
  {
    seq(|rows|, k requires 0 <= k < |rows| => rows[k].total)
  }

  // ----- Per-student statistics -----

  const MaxMarksPerSubject := 100
  const DefaultCredits := 3

  /** `r.subject?.credits || 3`: a missing subject or a credit count of 0
      (falsy) counts as 3 credits. */
  function EffectiveCredits(c: Option<int>): (n: int)
    ensures c.Some? && c.value != 0 ==> n == c.value
    ensures c.None? || c.value == 0 ==> n == DefaultCredits
    ensures n != 0
  {
    if c.Some? && c.value != 0 then c.value else DefaultCredits
  }

  function CreditSum(rows: seq<Scored>): int {
    if rows == [] then 0 else EffectiveCredits(rows[0].credits) + CreditSum(rows[1..])
  }

  function PointSum(rows: seq<Scored>): int {
    if rows == [] then 0
    else GradePoint(rows[0].grade) * EffectiveCredits(rows[0].credits) + PointSum(rows[1..])
  }

  /** The SGPA: grade points weighted by credits, divided by the credits;
      0 when the credits do not add up to a positive number. */
  function Sgpa(rows: seq<Scored>): (r: real)
    ensures CreditSum(rows) > 0 ==> r * CreditSum(rows) as real == PointSum(rows) as real
    ensures CreditSum(rows) <= 0 ==> r == 0.0
  {
    if CreditSum(rows) > 0 then PointSum(rows) as real / CreditSum(rows) as real else 0.0
  }

  /** The credit-weighted points never exceed ten points per credit. */
  lemma {:induction false} PointsBounded(rows: seq<Scored>)
    requires forall k :: 0 <= k < |rows| ==> EffectiveCredits(rows[k].credits) > 0
    ensures 0 <= PointSum(rows) <= 10 * CreditSum(rows)
    ensures rows != [] ==> CreditSum(rows) > 0
  {
    if rows != [] {
      PointsBounded(rows[1..]);
      var c := EffectiveCredits(rows[0].credits);
      var p := GradePoint(rows[0].grade);
      assert 0 <= p * c <= 10 * c;
    }
  }

  /** With positive credits the SGPA lies on the 10-point scale. */
  lemma SgpaInRange(rows: seq<Scored>)
    requires forall k :: 0 <= k < |rows| ==> EffectiveCredits(rows[k].credits) > 0
    ensures 0.0 <= Sgpa(rows) <= 10.0
  {
    PointsBounded(rows);
    if CreditSum(rows) > 0 {
      DivBetween(PointSum(rows) as real, CreditSum(rows) as real, 0.0, 10.0);
    }
  }

  /** When every subject earned the same grade, the SGPA is that grade's
      point, whatever the credits. */
  lemma {:induction false} UniformPoints(rows: seq<Scored>, g: Grade)
    requires forall k :: 0 <= k < |rows| ==> rows[k].grade == g
    ensures PointSum(rows) == GradePoint(g) * CreditSum(rows)
  {
    if rows != [] {
      UniformPoints(rows[1..], g);
    }
  }

  lemma UniformSgpa(rows: seq<Scored>, g: Grade)
    requires forall k :: 0 <= k < |rows| ==> rows[k].grade == g
    requires CreditSum(rows) > 0
    ensures Sgpa(rows) == GradePoint(g) as real
  {
    UniformPoints(rows, g);
    var c := CreditSum(rows);
    var p := GradePoint(g);
    assert PointSum(rows) as real == p as real * c as real;
    CancelDiv(p as real, c as real);
  }

  lemma CancelDiv(p: real, c: real)
    requires c > 0.0
    ensures p * c / c == p
  {
  }

  datatype StudentStats = StudentStats(
    totalSubjects: nat,
    totalMarksObtained: real,
    totalMaxMarks: nat,
    percentage: real,
    sgpa: real)

  /** The statistics of `getStudentResults`. */
  function StudentStatistics(rows: seq<Scored>): (s: StudentStats)
    ensures s.totalSubjects == |rows|
    ensures s.totalMaxMarks == MaxMarksPerSubject * |rows|
    ensures s.totalMarksObtained == Sum(Totals(rows))
    ensures |rows| == 0 ==> s.percentage == 0.0 && s.sgpa == 0.0
    ensures |rows| > 0 ==> s.percentage * s.totalMaxMarks as real == s.totalMarksObtained * 100.0
    ensures s.sgpa == Sgpa(rows)
  {
    var obtained := Sum(Totals(rows));
    var maxMarks := MaxMarksPerSubject * |rows|;
    StudentStats(
      |rows|, obtained, maxMarks,
      if |rows| > 0 then obtained / maxMarks as real * 100.0 else 0.0,
      Sgpa(rows))
  }

  /** Totals within the schema's [0, 100] give a percentage in [0, 100]. */
  lemma PercentageInRange(rows: seq<Scored>)
    requires forall k :: 0 <= k < |rows| ==> 0.0 <= rows[k].total <= 100.0
    ensures 0.0 <= StudentStatistics(rows).percentage <= 100.0
  {
    SumBounds(Totals(rows), 0.0, 100.0);
  }

  // ----- Per-subject (class) statistics -----

  /** The number of results whose grade is not F. */
  function CountPassed(rows: seq<Scored>): (n: nat)
    ensures n <= |rows|
    ensures n == |rows| <==> forall k :: 0 <= k < |rows| ==> rows[k].grade != F
    ensures n == 0 <==> forall k :: 0 <= k < |rows| ==> rows[k].grade == F
  {
    if rows == [] then 0
    else (if rows[0].grade != F then 1 else 0) + CountPassed(rows[1..])
  }

  function MaxOf(xs: seq<real>): (m: real)
    requires xs != []
    ensures m in xs
    ensures forall k :: 0 <= k < |xs| ==> xs[k] <= m
  {
    if |xs| == 1 then xs[0]
    else
      var rest := MaxOf(xs[1..]);
      if xs[0] >= rest then xs[0] else rest
  }

  function MinOf(xs: seq<real>): (m: real)
    requires xs != []
    ensures m in xs
    ensures forall k :: 0 <= k < |xs| ==> m <= xs[k]
  {
    if |xs| == 1 then xs[0]
    else
      var rest := MinOf(xs[1..]);
      if xs[0] <= rest then xs[0] else rest
  }

  /** `part / whole * 100` for a part of a non-empty whole. */
  function Percent(part: nat, whole: nat): (r: real)
    requires 0 < whole && part <= whole
    ensures 0.0 <= r <= 100.0
    ensures r * whole as real == part as real * 100.0
  {
    DivBetween(part as real * 100.0, whole as real, 0.0, 100.0);
    assert part as real / whole as real * 100.0 == part as real * 100.0 / whole as real;
    part as real / whole as real * 100.0
  }

  /** The average of a non-empty sequence: the value that, counted once
      per element, gives back the sum. */
  function Mean(xs: seq<real>): (r: real)
    requires xs != []
    ensures r * (|xs| as real) == Sum(xs)
  {
    DivTimes(Sum(xs), |xs| as real);
    Sum(xs) / (|xs| as real)
  }

  lemma DivTimes(x: real, n: real)
    requires n != 0.0
    ensures x / n * n == x
  {
  }

  /** The average lies between the least and the greatest element. */
  lemma MeanBetween(xs: seq<real>)
    requires xs != []
    ensures MinOf(xs) <= Mean(xs) <= MaxOf(xs)
  {
    var lo, hi := MinOf(xs), MaxOf(xs);
    SumBounds(xs, lo, hi);
    SumOverLength(xs, lo, hi);
  }

  lemma SumOverLength(xs: seq<real>, lo: real, hi: real)
    requires xs != []
    requires |xs| as real * lo <= Sum(xs) <= |xs| as real * hi
    ensures lo <= Mean(xs) <= hi
  {
    DivBetween(Sum(xs), |xs| as real, lo, hi);
  }

  datatype ClassStats = ClassStats(
    totalStudents: nat,
    passedStudents: nat,
    failedStudents: int,
    passPercentage: real,
    avgMarks: real,
    highestMarks: real,
    lowestMarks: real)

  /** The share of `passed` out of `n` as a percentage; 0 out of none. */
  function PassRate(passed: nat, n: nat): (r: real)
    requires passed <= n
    ensures 0.0 <= r <= 100.0
    ensures n == 0 ==> r == 0.0
    ensures r * n as real == passed as real * 100.0
  {
    if n == 0 then 0.0 else Percent(passed, n)
  }

  /** The statistics of `getResultsBySubject`: every figure is 0 for an
      empty class; otherwise the highest and lowest totals are attained
      and bound every total, and the average lies between them. */
  function ClassStatistics(rows: seq<Scored>): (s: ClassStats)
    ensures s.totalStudents == |rows|
    ensures s.passedStudents == CountPassed(rows)
    ensures s.passedStudents + s.failedStudents == s.totalStudents && s.failedStudents >= 0
    ensures 0.0 <= s.passPercentage <= 100.0
    ensures |rows| == 0 ==>
      s.passPercentage == 0.0 && s.avgMarks == 0.0 && s.highestMarks == 0.0 && s.lowestMarks == 0.0
    ensures s.passPercentage == PassRate(s.passedStudents, s.totalStudents)
    ensures |rows| > 0 ==> s.avgMarks == Mean(Totals(rows))
    ensures |rows| > 0 ==> s.highestMarks in Totals(rows) && s.lowestMarks in Totals(rows)
    ensures forall k :: 0 <= k < |rows| ==> s.lowestMarks <= rows[k].total <= s.highestMarks
    ensures s.lowestMarks <= s.avgMarks <= s.highestMarks
  {
    var n := |rows|;
    var passed := CountPassed(rows);
    if n == 0 then ClassStats(0, 0, 0, 0.0, 0.0, 0.0, 0.0)
    else
      var ts := Totals(rows);
      var hi := MaxOf(ts);
      var lo := MinOf(ts);
      MeanBetween(ts);
      ClassStats(n, passed, n - passed, PassRate(passed, n), Mean(ts), hi, lo)
  }


}

=== FILE: results.dfy ===
/** The result store: one document per (student, subject, semester), whose
    total and grade are derived from the two scores whenever it is saved,
    and the handlers that add, bulk-add, update, list and delete results. */
module Results {
  import opened Common
  import opened Store
  import opened Text
  import opened Grading
  import opened ResultStats
  import opened Profiles
  import Audit

  datatype ResultDoc = ResultDoc(
    student: Id,
    subject: Id,
    internalMarks: real,
    externalMarks: real,
    totalMarks: real,
    grade: Grade,
    semester: int)

  const MaxInternal := 40.0
  const MaxExternal := 60.0
  const MaxTotal := 100.0

  /** The bounds the result schema checks when a document is validated. */
  predicate SchemaValid(d: ResultDoc) {
    && 0.0 <= d.internalMarks <= MaxInternal
    && 0.0 <= d.externalMarks <= MaxExternal
    && 0.0 <= d.totalMarks <= MaxTotal
    && MinSemester <= d.semester <= MaxSemester
  }

  /** Total and grade agree with the two scores. */
  predicate Consistent(d: ResultDoc) {
    d.totalMarks == d.internalMarks + d.externalMarks && d.grade == CalculateGrade(d.totalMarks)
  }

  /** The pre-save hook: the total is recomputed from the scores and the
      grade from the total; nothing else changes. */
  function PreSave(d: ResultDoc): (r: ResultDoc)
    ensures Consistent(r)
    ensures r.(totalMarks := d.totalMarks, grade := d.grade) == d
    ensures Consistent(d) ==> r == d
  {
    var total := d.internalMarks + d.externalMarks;
    d.(totalMarks := total, grade := CalculateGrade(total))
  }

  /** Scores within their bounds give a total within the schema's
      [0, 100], so the total bound never rejects a saved document. */
  lemma SavedTotalInRange(d: ResultDoc)
    requires 0.0 <= d.internalMarks <= MaxInternal && 0.0 <= d.externalMarks <= MaxExternal
    ensures 0.0 <= PreSave(d).totalMarks <= MaxTotal
  {
  }

  /** `save()`: the schema is validated first, then the pre-save hook runs,
      so a document that passes is stored consistent. */
  function Save(d: ResultDoc): (r: Outcome<ResultDoc>)
    ensures r.Ok? <==> SchemaValid(d)
    ensures r.Ok? ==> Consistent(r.value) && SchemaValid(r.value)
    ensures r.Ok? ==> r.value.(totalMarks := d.totalMarks, grade := d.grade) == d
    ensures r.Err? ==> r.error == BadRequest
  {
    if SchemaValid(d) then Ok(PreSave(d)) else Err(BadRequest)
  }

  /** The unique index on (student, subject, semester). */
  predicate SameKey(a: ResultDoc, b: ResultDoc) {
    a.student == b.student && a.subject == b.subject && a.semester == b.semester
  }

  ghost predicate UniqueResults(m: map<Id, ResultDoc>) {
    forall i, j :: i in m && j in m && i != j ==> !SameKey(m[i], m[j])
  }

  /** What every stored result satisfies. */
  ghost predicate ResultsInvariant(c: Collection<ResultDoc>) {
    && c.Valid()
    && UniqueResults(c.docs)
    && forall i :: i in c.docs ==> SchemaValid(c.docs[i]) && Consistent(c.docs[i])
  }

  /** Storing a valid, consistent document under a fresh id or over
      itself keeps the invariant when no other document shares its key. */
  lemma PutKeeps(c: Collection<ResultDoc>, id: Id, d: ResultDoc)
    requires ResultsInvariant(c)
    requires SchemaValid(d) && Consistent(d)
    requires forall i :: i in c.docs && i != id ==> !SameKey(c.docs[i], d)
    requires id in c.docs || id == c.next
    ensures ResultsInvariant(Collection(c.docs[id := d], if id == c.next then c.next + 1 else c.next))
  {
    var m := c.docs[id := d];
    forall i, j | i in m && j in m && i != j
      ensures !SameKey(m[i], m[j])
    {
      if i == id { assert m[j] == c.docs[j]; }
      else if j == id { assert m[i] == c.docs[i]; }
      else { assert m[i] == c.docs[i] && m[j] == c.docs[j]; }
    }
  }

  // ----- addMarks -----

  /** The body of an add request; a property that is not sent is None. */
  datatype MarksInput = MarksInput(
    student: Option<Id>,
    subject: Option<Id>,
    internalMarks: Option<real>,
    externalMarks: Option<real>,
    semester: Option<int>)

  /** The handler's own presence check: a missing id, a missing score or a
      missing or zero (falsy) semester. */
  predicate MissingField(in_: MarksInput) {
    in_.student.None? || in_.subject.None? || in_.internalMarks.None? || in_.externalMarks.None?
    || in_.semester.None? || in_.semester.value == 0
  }

  /** The document `create` is given (total and grade not yet set). */
  function Draft(in_: MarksInput): ResultDoc
    requires !MissingField(in_)
  {
    ResultDoc(in_.student.value, in_.subject.value, in_.internalMarks.value, in_.externalMarks.value,
              0.0, F, in_.semester.value)
  }

  predicate HasKey(m: map<Id, ResultDoc>, student: Id, subject: Id, semester: int) {
    exists i :: i in m && m[i].student == student && m[i].subject == subject && m[i].semester == semester
  }

  /** `addMarks`: 400 for a missing field, 409 (store unchanged) when the
      student already has a result for the subject in that semester, 400
      when the schema rejects a score or the semester, else the new result
      is stored with its total and grade derived. */
  function AddMarks(c: Collection<ResultDoc>, in_: MarksInput): (r: Step<Collection<ResultDoc>, Id>)
    ensures MissingField(in_) ==> r.out == Err(BadRequest)
    ensures r.out == Err(Conflict) <==>
      !MissingField(in_) && HasKey(c.docs, in_.student.value, in_.subject.value, in_.semester.value)
    ensures r.out.Ok? <==>
      && !MissingField(in_)
      && !HasKey(c.docs, in_.student.value, in_.subject.value, in_.semester.value)
      && 0.0 <= in_.internalMarks.value <= MaxInternal
      && 0.0 <= in_.externalMarks.value <= MaxExternal
      && MinSemester <= in_.semester.value <= MaxSemester
    ensures r.out.Err? ==> r.state == c && r.out.error in {BadRequest, Conflict}
    ensures r.out.Ok? ==>
      && r.out.value == c.next
      && r.state.docs.Keys == c.docs.Keys + {c.next}
      && (forall i :: i in c.docs && i != c.next ==> r.state.docs[i] == c.docs[i])
      && var d := r.state.docs[c.next];
         && d.student == in_.student.value && d.subject == in_.subject.value
         && d.semester == in_.semester.value
         && d.internalMarks == in_.internalMarks.value && d.externalMarks == in_.externalMarks.value
         && d.totalMarks == d.internalMarks + d.externalMarks
         && d.grade == CalculateGrade(d.totalMarks)
    ensures ResultsInvariant(c) ==> ResultsInvariant(r.state)
  {
    if MissingField(in_) then Step(c, Err(BadRequest))
    else if HasKey(c.docs, in_.student.value, in_.subject.value, in_.semester.value) then Step(c, Err(Conflict))
    else
      match Save(Draft(in_))
      case Err(e) => Step(c, Err(e))
      case Ok(d) =>
        assert ResultsInvariant(c) ==> ResultsInvariant(c.Insert(d)) by {
          if ResultsInvariant(c) { PutKeeps(c, c.next, d); }
        }
        Step(c.Insert(d), Ok(c.next))
  }

  /** Adding the same marks twice: the second request is a conflict and
      changes nothing, so a key is never stored twice. */
  lemma AddMarksTwice(c: Collection<ResultDoc>, in_: MarksInput)
    requires AddMarks(c, in_).out.Ok?
    ensures var r := AddMarks(c, in_);
            AddMarks(r.state, in_) == Step(r.state, Err(Conflict))
  {
    var r := AddMarks(c, in_);
    var d := r.state.docs[c.next];
    assert d.student == in_.student.value && d.subject == in_.subject.value && d.semester == in_.semester.value;
    assert HasKey(r.state.docs, in_.student.value, in_.subject.value, in_.semester.value);
  }

  // ----- addBulkMarks -----

  /** One element of the bulk array as sent (no validator runs on it). */
  datatype BulkRow = BulkRow(
    student: Option<Id>,
    subject: Option<Id>,
    internalMarks: Option<real>,
    externalMarks: Option<real>,
    semester: Option<int>)

  /** A row the schema accepts once the handler has added its total and
      grade: every required field present and in its bounds. */
  predicate RowValid(row: BulkRow) {
    && row.student.Some? && row.subject.Some? && row.semester.Some?
    && row.internalMarks.Some? && 0.0 <= row.internalMarks.value <= MaxInternal
    && row.externalMarks.Some? && 0.0 <= row.externalMarks.value <= MaxExternal
    && MinSemester <= row.semester.value <= MaxSemester
  }

  /** The document the handler builds for a row: its total and its grade
      computed from the two scores. */
  function Processed(row: BulkRow): (d: ResultDoc)
    requires RowValid(row)
    ensures Consistent(d) && SchemaValid(d)
    ensures d.student == row.student.value && d.subject == row.subject.value && d.semester == row.semester.value
    ensures d.internalMarks == row.internalMarks.value && d.externalMarks == row.externalMarks.value
  {
    var total := row.internalMarks.value + row.externalMarks.value;
    ResultDoc(row.student.value, row.subject.value, row.internalMarks.value, row.externalMarks.value,
              total, CalculateGrade(total), row.semester.value)
  }

  /** The total the handler stores, as written, for a row whose two marks
      arrive as JSON strings of digits: JavaScript's `+` joins the two
      strings, and the schema's cast of `totalMarks` then reads the joined
      digits as one number. Numeric marks are added, as in `Processed`. */
  function StringMarksTotal(internal: string, external: string): (total: nat)
    requires AllDigits(internal) && AllDigits(external)
    ensures total == DigitsValue(internal) * Pow10(|external|) + DigitsValue(external)
  {
    DigitsValueConcat(internal, external);
    DigitsValue(internal + external)
  }

  /** The as-written total is not the sum: marks "3" and "4" are stored with
      total 34 and grade D where 7 and F are meant, and marks "30" and "40"
      make a total of 3040, which the schema's cap of 100 refuses though
      their sum 70 is fine. */
  lemma StringMarksConcatenated(student: Id, subject: Id)
    ensures StringMarksTotal("3", "4") == 34
    ensures CalculateGrade(34.0) == D && CalculateGrade(7.0) == F
    ensures !Consistent(ResultDoc(student, subject, 3.0, 4.0, 34.0, CalculateGrade(34.0), 1))
    ensures StringMarksTotal("30", "40") as real > MaxTotal
  {
    assert DigitsValue("3") == 3 && DigitsValue("4") == 4;
    assert "30"[..1] == "3" && "40"[..1] == "4";
    assert DigitsValue("30") == 30 && DigitsValue("40") == 40;
    assert Pow10(2) == 100;
  }

  /** The unordered bulk insert, row by row: invalid rows are dropped,
      a row whose key is taken is refused and remembered, every other row
      is stored under the next id. */
  datatype BulkStep = BulkStep(state: Collection<ResultDoc>, inserted: nat, duplicate: bool)

  /** A document built from one of the rows. */
  predicate FromRows(d: ResultDoc, rows: seq<BulkRow>) {
    exists k :: 0 <= k < |rows| && RowValid(rows[k]) && d == Processed(rows[k])
  }

  /** The insert of a single row. */
  function InsertRow(c: Collection<ResultDoc>, row: BulkRow): (r: BulkStep)
    ensures r.state.next == c.next + r.inserted && r.inserted <= 1
    ensures r.inserted == 1 ==> RowValid(row) && r.state.docs == c.docs[c.next := Processed(row)]
    ensures r.inserted == 0 ==> r.state == c
    ensures RowValid(row) && !r.duplicate ==> r.inserted == 1
    ensures c.Valid() ==> r.state.Valid()
    ensures ResultsInvariant(c) ==> ResultsInvariant(r.state)
  {
    if !RowValid(row) then BulkStep(c, 0, false)
    else if HasKey(c.docs, row.student.value, row.subject.value, row.semester.value) then BulkStep(c, 0, true)
    else
      var d := Processed(row);
      assert ResultsInvariant(c) ==> ResultsInvariant(c.Insert(d)) by {
        if ResultsInvariant(c) { PutKeeps(c, c.next, d); }
      }
      BulkStep(c.Insert(d), 1, false)
  }

  function InsertRows(c: Collection<ResultDoc>, rows: seq<BulkRow>): (r: BulkStep)
    ensures r.state.next == c.next + r.inserted && r.inserted <= |rows|
    decreases |rows|
  {
    if rows == [] then BulkStep(c, 0, false)
    else
      var here := InsertRow(c, rows[0]);
      var rest := InsertRows(here.state, rows[1..]);
      BulkStep(rest.state, here.inserted + rest.inserted, here.duplicate || rest.duplicate)
  }

  /** The bulk insert adds documents under the fresh ids only and leaves
      the stored ones alone. */
  lemma {:induction false} InsertRowsFrame(c: Collection<ResultDoc>, rows: seq<BulkRow>)
    requires c.Valid()
    ensures InsertRows(c, rows).state.Valid()
    ensures forall i :: i in c.docs ==> i in InsertRows(c, rows).state.docs && InsertRows(c, rows).state.docs[i] == c.docs[i]
    decreases |rows|
  {
    if rows != [] {
      var here := InsertRow(c, rows[0]);
      InsertRowsFrame(here.state, rows[1..]);
      assert InsertRows(c, rows).state == InsertRows(here.state, rows[1..]).state;
    }
  }

  /** The bulk insert's new documents sit exactly at the ids it handed out. */
  lemma {:induction false} InsertRowsKeys(c: Collection<ResultDoc>, rows: seq<BulkRow>)
    requires c.Valid()
    ensures forall i :: i in InsertRows(c, rows).state.docs <==> i in c.docs || c.next <= i < InsertRows(c, rows).state.next
    decreases |rows|
  {
    if rows != [] {
      var here := InsertRow(c, rows[0]);
      var tail := InsertRows(here.state, rows[1..]);
      InsertRowsKeys(here.state, rows[1..]);
      assert InsertRows(c, rows).state == tail.state;
      forall i ensures i in tail.state.docs <==> i in c.docs || c.next <= i < tail.state.next {
        assert i in here.state.docs <==> i in c.docs || c.next <= i < here.state.next;
      }
    }
  }

  /** When every row is valid and none collides, every row is stored. */
  lemma {:induction false} ValidRowsAllInserted(c: Collection<ResultDoc>, rows: seq<BulkRow>)
    requires forall k :: 0 <= k < |rows| ==> RowValid(rows[k])
    requires !InsertRows(c, rows).duplicate
    ensures InsertRows(c, rows).inserted == |rows|
    decreases |rows|
  {
    if rows != [] {
      assert forall k :: 0 <= k < |rows[1..]| ==> rows[1..][k] == rows[k + 1];
      ValidRowsAllInserted(InsertRow(c, rows[0]).state, rows[1..]);
    }
  }

  /** The bulk insert keeps the collection's invariant, row after row. */
  lemma {:induction false} InsertRowsKeeps(c: Collection<ResultDoc>, rows: seq<BulkRow>)
    requires ResultsInvariant(c)
    ensures ResultsInvariant(InsertRows(c, rows).state)
    decreases |rows|
  {
    if rows != [] {
      InsertRowsKeeps(InsertRow(c, rows[0]).state, rows[1..]);
    }
  }

  /** Every document the bulk insert adds was built from one of the rows. */
  lemma {:induction false} InsertedFromRows(c: Collection<ResultDoc>, rows: seq<BulkRow>)
    requires c.Valid()
    ensures forall i :: c.next <= i < InsertRows(c, rows).state.next ==>
      i in InsertRows(c, rows).state.docs && FromRows(InsertRows(c, rows).state.docs[i], rows)
    decreases |rows|
  {
    if rows != [] {
      var here := InsertRow(c, rows[0]);
      var r := InsertRows(c, rows);
      var rest := InsertRows(here.state, rows[1..]);
      assert r.state == rest.state;
      assert here.state.Valid();
      InsertRowsKeys(c, rows);
      InsertRowsFrame(here.state, rows[1..]);
      InsertedFromRows(here.state, rows[1..]);
      forall i | c.next <= i < r.state.next
        ensures FromRows(r.state.docs[i], rows)
      {
        if i < here.state.next {
          assert here.inserted == 1 && i == c.next;
          assert r.state.docs[i] == Processed(rows[0]);
        } else {
          assert FromRows(r.state.docs[i], rows[1..]);
          var k :| 0 <= k < |rows[1..]| && RowValid(rows[1..][k]) && r.state.docs[i] == Processed(rows[1..][k]);
          assert rows[1..][k] == rows[k + 1];
        }
      }
    }
  }

  /** `addBulkMarks`: an empty array is 400. Otherwise the rows are
      inserted unordered; when some row collided with an existing key the
      request answers 409 (the duplicate-key error), though the other rows
      stay stored; else it answers the number of stored rows. */
  function AddBulkMarks(c: Collection<ResultDoc>, rows: seq<BulkRow>): (r: Step<Collection<ResultDoc>, nat>)
    ensures rows == [] ==> r == Step(c, Err(BadRequest))
    ensures r.out.Ok? ==> r.out.value <= |rows| && r.state.next == c.next + r.out.value
    ensures rows != [] && (forall k :: 0 <= k < |rows| ==> RowValid(rows[k])) && r.out.Ok? ==> r.out.value == |rows|
    ensures r.out.Err? ==> r.out.error in {BadRequest, Conflict}
    ensures c.Valid() ==> forall i :: i in c.docs ==> i in r.state.docs && r.state.docs[i] == c.docs[i]
    ensures c.Valid() ==> forall i :: i in r.state.docs && i !in c.docs ==> FromRows(r.state.docs[i], rows)
    ensures ResultsInvariant(c) ==> ResultsInvariant(r.state)
  {
    if rows == [] then Step(c, Err(BadRequest))
    else
      var b := InsertRows(c, rows);
      assert c.Valid() ==> forall i :: i in c.docs ==> i in b.state.docs && b.state.docs[i] == c.docs[i] by {
        if c.Valid() { InsertRowsFrame(c, rows); }
      }
      assert (forall k :: 0 <= k < |rows| ==> RowValid(rows[k])) && !b.duplicate ==> b.inserted == |rows| by {
        if (forall k :: 0 <= k < |rows| ==> RowValid(rows[k])) && !b.duplicate { ValidRowsAllInserted(c, rows); }
      }
      assert ResultsInvariant(c) ==> ResultsInvariant(b.state) by {
        if ResultsInvariant(c) { InsertRowsKeeps(c, rows); }
      }
      assert c.Valid() ==> forall i :: i in b.state.docs && i !in c.docs ==> FromRows(b.state.docs[i], rows) by {
        if c.Valid() {
          InsertRowsKeys(c, rows);
          InsertedFromRows(c, rows);
          forall i | i in b.state.docs && i !in c.docs
            ensures FromRows(b.state.docs[i], rows)
          {
            assert c.next <= i < b.state.next;
          }
        }
      }
      Step(b.state, if b.duplicate then Err(Conflict) else Ok(b.inserted))
  }

  /** Every document the bulk route stores carries the total and grade of
      its own scores, like one saved through `addMarks`. */
  lemma BulkRowsConsistent(c: Collection<ResultDoc>, rows: seq<BulkRow>)
    requires c.Valid()
    ensures var r := AddBulkMarks(c, rows);
            forall i :: i in r.state.docs && i !in c.docs ==>
              SchemaValid(r.state.docs[i]) && Consistent(r.state.docs[i])
  {
  }

  // ----- updateMarks -----

  /** The audit payload of an update: the four figures before and after. */
  function Figures(d: ResultDoc): (v: Audit.Value)
    ensures v.Object? && v.fields.Keys == {"internalMarks", "externalMarks", "totalMarks", "grade"}
    ensures v.fields["grade"] == Audit.Str(GradeName(d.grade))
  {
    Audit.Object(map["internalMarks" := Audit.Num(d.internalMarks), "externalMarks" := Audit.Num(d.externalMarks),
               "totalMarks" := Audit.Num(d.totalMarks), "grade" := Audit.Str(GradeName(d.grade))])
  }

  function UpdateAuditArgs(id: Id, before: ResultDoc, after: ResultDoc, caller: Id, ip: string): (a: Audit.AuditArgs)
    ensures Audit.BuildEntry(a, 0).Some?
  {
    Audit.ActionRoundTrip(Audit.UpdateMarks);
    Audit.ModelRoundTrip(Audit.ResultModel);
    Audit.AuditArgs(Audit.ActionName(Audit.UpdateMarks), Some(caller), Audit.ModelName(Audit.ResultModel), Some(id),
              "Updated marks for result " + NatText(id),
              Some(Audit.Object(map["oldValues" := Figures(before), "newValues" := Figures(after)])), ip)
  }

  datatype UpdateStep = UpdateStep(results: Collection<ResultDoc>, log: Collection<Audit.Entry>, out: Outcome<ResultDoc>)

  /** `updateMarks`: 404 for an unknown id; otherwise the scores that were
      sent replace the stored ones, the document is validated (400) and
      saved with its total and grade recomputed, and an UPDATE_MARKS entry
      is written to the audit log. The audit write is not awaited: whether
      it succeeds does not change the reply. */
  function UpdateMarksOf(
    c: Collection<ResultDoc>, log: Collection<Audit.Entry>, id: Id,
    internalMarks: Option<real>, externalMarks: Option<real>,
    caller: Id, ip: string, now: Time, auditWriteSucceeds: bool): (r: UpdateStep)
    ensures r.out == Err(NotFound) <==> id !in c.docs
    ensures r.out.Err? ==> r.results == c && r.log == log && r.out.error in {NotFound, BadRequest}
    ensures r.out.Ok? ==>
      && id in c.docs
      && r.results.docs == c.docs[id := r.out.value]
      && r.results.next == c.next
      && r.out.value.internalMarks == internalMarks.GetOr(c.docs[id].internalMarks)
      && r.out.value.externalMarks == externalMarks.GetOr(c.docs[id].externalMarks)
      && r.out.value.student == c.docs[id].student
      && r.out.value.subject == c.docs[id].subject
      && r.out.value.semester == c.docs[id].semester
      && Consistent(r.out.value)
    ensures r.out.Ok? && auditWriteSucceeds ==>
      && r.log.docs.Keys == log.docs.Keys + {log.next}
      && r.log.docs[log.next].action == Audit.UpdateMarks
      && r.log.docs[log.next].targetModel == Audit.ResultModel
      && r.log.docs[log.next].targetId == Some(id)
      && r.log.docs[log.next].performedBy == caller
    ensures r.out.Ok? && !auditWriteSucceeds ==> r.log == log
  {
    if id !in c.docs then UpdateStep(c, log, Err(NotFound))
    else
      var before := c.docs[id];
      var edited := before.(internalMarks := internalMarks.GetOr(before.internalMarks),
                            externalMarks := externalMarks.GetOr(before.externalMarks));
      match Save(edited)
      case Err(e) => UpdateStep(c, log, Err(e))
      case Ok(after) =>
        var args := UpdateAuditArgs(id, before, after, caller, ip);
        Audit.ActionRoundTrip(Audit.UpdateMarks);
        Audit.ModelRoundTrip(Audit.ResultModel);
        UpdateStep(Collection(c.docs[id := after], c.next), Audit.LogAudit(log, args, now, auditWriteSucceeds),
                   Ok(after))
  }

  /** Over valid stored results an update succeeds exactly when the edited
      scores are within the schema's caps, and the results stay valid. */
  lemma UpdateMarksKeeps(
    c: Collection<ResultDoc>, log: Collection<Audit.Entry>, id: Id,
    internalMarks: Option<real>, externalMarks: Option<real>,
    caller: Id, ip: string, now: Time, auditWriteSucceeds: bool)
    requires ResultsInvariant(c)
    ensures var r := UpdateMarksOf(c, log, id, internalMarks, externalMarks, caller, ip, now, auditWriteSucceeds);
      && ResultsInvariant(r.results)
      && (id in c.docs ==>
           (r.out.Ok? <==>
             && 0.0 <= internalMarks.GetOr(c.docs[id].internalMarks) <= MaxInternal
             && 0.0 <= externalMarks.GetOr(c.docs[id].externalMarks) <= MaxExternal))
  {
    var r := UpdateMarksOf(c, log, id, internalMarks, externalMarks, caller, ip, now, auditWriteSucceeds);
    if r.out.Ok? {
      var after := r.out.value;
      assert forall i :: i in c.docs && i != id ==> !SameKey(c.docs[i], after) by {
        assert SameKey(c.docs[id], after);
      }
      PutKeeps(c, id, after);
      assert r.results == Collection(c.docs[id := after], c.next);
    }
  }

  /** A failed audit write is invisible to the caller: the reply and the
      result store are the same either way. */
  lemma AuditDoesNotDecide(
    c: Collection<ResultDoc>, log: Collection<Audit.Entry>, id: Id,
    internalMarks: Option<real>, externalMarks: Option<real>, caller: Id, ip: string, now: Time)
    ensures var ok := UpdateMarksOf(c, log, id, internalMarks, externalMarks, caller, ip, now, true);
            var failed := UpdateMarksOf(c, log, id, internalMarks, externalMarks, caller, ip, now, false);
            ok.out == failed.out && ok.results == failed.results
  {
  }

  /** Sending no score re-saves a stored result unchanged. */
  lemma EmptyUpdateIsIdentity(c: Collection<ResultDoc>, log: Collection<Audit.Entry>, id: Id, caller: Id, ip: string, now: Time)
    requires ResultsInvariant(c) && id in c.docs
    ensures var r := UpdateMarksOf(c, log, id, None, None, caller, ip, now, false);
            r.out == Ok(c.docs[id]) && r.results == c
  {
    var r := UpdateMarksOf(c, log, id, None, None, caller, ip, now, false);
    assert r.results.docs == c.docs;
  }

  // ----- listings and delete -----

  /** The results of one student, optionally of one semester (an empty or
      absent query parameter does not filter). */
  predicate OfStudent(studentId: Id, semester: Option<int>, d: ResultDoc) {
    d.student == studentId && (semester.Some? ==> d.semester == semester.value)
  }

  predicate OfSubject(subjectId: Id, semester: Option<int>, d: ResultDoc) {
    d.subject == subjectId && (semester.Some? ==> d.semester == semester.value)
  }

  /** A result as the statistics read it, with the credits of its subject
      (None when the subject no longer exists). */
  function ScoredOf(subjects: map<Id, SubjectDoc>, d: ResultDoc): (s: Scored)
    ensures s.total == d.totalMarks && s.grade == d.grade
    ensures s.credits.Some? <==> d.subject in subjects
  {
    Scored(d.totalMarks, d.grade, if d.subject in subjects then Some(subjects[d.subject].credits) else None)
  }

  function ScoredRows(c: Collection<ResultDoc>, subjects: map<Id, SubjectDoc>, ids: seq<Id>): (rows: seq<Scored>)
    requires forall k :: 0 <= k < |ids| ==> ids[k] in c.docs
    ensures |rows| == |ids|
    ensures forall k :: 0 <= k < |ids| ==> rows[k] == ScoredOf(subjects, c.docs[ids[k]])
  {
    seq(|ids|, k requires 0 <= k < |ids| => ScoredOf(subjects, c.docs[ids[k]]))
  }

  datatype StudentReport = StudentReport(ids: seq<Id>, stats: StudentStats)

  /** `getStudentResults`: the student's results and their statistics; with
      valid stored results and subjects the percentage is in [0, 100] and
      the SGPA on the 10-point scale. */
  function GetStudentResults(c: Collection<ResultDoc>, subjects: map<Id, SubjectDoc>, studentId: Id, semester: Option<int>): (r: StudentReport)
    ensures forall i :: i in r.ids <==> i in c.docs && OfStudent(studentId, semester, c.docs[i])
    ensures r.stats.totalSubjects == |r.ids| == Count(c.docs, (d: ResultDoc) => OfStudent(studentId, semester, d))
    ensures r.stats.totalMaxMarks == MaxMarksPerSubject * |r.ids|
    ensures r.ids == [] ==> r.stats.percentage == 0.0 && r.stats.sgpa == 0.0
    ensures ResultsInvariant(c) ==> 0.0 <= r.stats.percentage <= 100.0
    ensures (forall s :: s in subjects ==> SubjectSchemaValid(subjects[s])) ==> 0.0 <= r.stats.sgpa <= 10.0
    ensures r.stats == StudentStatistics(ScoredRows(c, subjects, r.ids))
  {
    var p := (d: ResultDoc) => OfStudent(studentId, semester, d);
    var ids := Where(c.docs, p);
    var rows := ScoredRows(c, subjects, ids);
    assert ResultsInvariant(c) ==> 0.0 <= StudentStatistics(rows).percentage <= 100.0 by {
      if ResultsInvariant(c) { PercentageInRange(rows); }
    }
    assert (forall s :: s in subjects ==> SubjectSchemaValid(subjects[s])) ==> 0.0 <= Sgpa(rows) <= 10.0 by {
      if forall s :: s in subjects ==> SubjectSchemaValid(subjects[s]) { SgpaInRange(rows); }
    }
    StudentReport(ids, StudentStatistics(rows))
  }

  datatype SubjectReport = SubjectReport(ids: seq<Id>, stats: ClassStats)

  /** The ids of the subject's results, oldest first. */
  function SubjectIds(c: Collection<ResultDoc>, subjectId: Id, semester: Option<int>): (ids: seq<Id>)
    ensures forall i :: i in ids <==> i in c.docs && OfSubject(subjectId, semester, c.docs[i])
    ensures forall k :: 0 <= k < |ids| ==> ids[k] in c.docs
  {
    Where(c.docs, (d: ResultDoc) => OfSubject(subjectId, semester, d))
  }

  /** `getResultsBySubject`: the subject's results and the class
      statistics, every stored total between the lowest and the highest. */
  function GetResultsBySubject(c: Collection<ResultDoc>, subjectId: Id, semester: Option<int>): (r: SubjectReport)
    ensures forall i :: i in r.ids <==> i in c.docs && OfSubject(subjectId, semester, c.docs[i])
    ensures r.stats.totalStudents == |r.ids|
    ensures r.stats.passedStudents + r.stats.failedStudents == |r.ids|
    ensures r.stats.passedStudents == |r.ids| <==> forall k :: 0 <= k < |r.ids| ==> c.docs[r.ids[k]].grade != F
    ensures forall k :: 0 <= k < |r.ids| ==>
      r.stats.lowestMarks <= c.docs[r.ids[k]].totalMarks <= r.stats.highestMarks
    ensures r.stats.lowestMarks <= r.stats.avgMarks <= r.stats.highestMarks
    ensures r.stats == ClassStatistics(ScoredRows(c, map[], r.ids))
  {
    var ids := SubjectIds(c, subjectId, semester);
    SubjectReport(ids, ClassStatistics(ScoredRows(c, map[], ids)))
  }

  /** With valid stored results every figure of the subject report is in
      [0, 100]. */
  lemma SubjectFiguresInRange(c: Collection<ResultDoc>, subjectId: Id, semester: Option<int>)
    requires ResultsInvariant(c)
    ensures var s := GetResultsBySubject(c, subjectId, semester).stats;
            0.0 <= s.lowestMarks <= s.avgMarks <= s.highestMarks <= MaxTotal
  {
    var ids := SubjectIds(c, subjectId, semester);
    var rows := ScoredRows(c, map[], ids);
    var s := ClassStatistics(rows);
    if ids != [] {
      var lo :| 0 <= lo < |rows| && Totals(rows)[lo] == s.lowestMarks;
      var hi :| 0 <= hi < |rows| && Totals(rows)[hi] == s.highestMarks;
      assert SchemaValid(c.docs[ids[lo]]) && SchemaValid(c.docs[ids[hi]]);
    }
  }

  /** `deleteResult`: 404 for an unknown id, else the result is gone and
      nothing else changes. */
  function DeleteResult(c: Collection<ResultDoc>, id: Id): (r: Step<Collection<ResultDoc>, ResultDoc>)
    ensures r.out == Err(NotFound) <==> id !in c.docs
    ensures r.out.Err? ==> r.state == c
    ensures r.out.Ok? ==> r.out.value == c.docs[id] && r.state.docs == c.docs - {id} && r.state.next == c.next
    ensures ResultsInvariant(c) ==> ResultsInvariant(r.state)
  {
    if id !in c.docs then Step(c, Err(NotFound))
    else Step(Collection(c.docs - {id}, c.next), Ok(c.docs[id]))
  }

  /** After a delete the key is free again: the same marks can be added. */
  lemma DeleteFreesKey(c: Collection<ResultDoc>, id: Id)
    requires ResultsInvariant(c) && id in c.docs
    ensures var d := c.docs[id];
            !HasKey(DeleteResult(c, id).state.docs, d.student, d.subject, d.semester)
  {
    var d := c.docs[id];
    var m := DeleteResult(c, id).state.docs;
    forall i | i in m
      ensures !(m[i].student == d.student && m[i].subject == d.subject && m[i].semester == d.semester)
    {
      assert i != id && !SameKey(c.docs[i], d);
    }
  }
}

=== FILE: routes.dfy ===
/** The middleware chains of the four record routers (attendance, results,
    notifications, assignments): each route runs authentication, then its
    gates in order, and the first gate that refuses decides the answer. */
module Routes {
  import opened Common
  import opened Profiles
  import opened Access

  datatype Route =
    // attendance router
    | MarkAttendanceRoute | MarkBulkAttendanceRoute | AttendanceOfStudentRoute
    | AttendanceOfSubjectRoute | UpdateAttendanceRoute | DeleteAttendanceRoute
    // result router
    | AddMarksRoute | AddBulkMarksRoute | ResultsOfStudentRoute
    | ResultsOfSubjectRoute | UpdateMarksRoute | DeleteResultRoute
    // notification router
    | MyNoticesRoute | UnreadCountRoute | ReadAllRoute | ReadOneRoute
    | BroadcastRoute | SubjectNoticeRoute | SentNoticesRoute | DeleteNoticeRoute
    // assignment router
    | MyAssignmentsRoute | CreateAssignmentRoute | ListAssignmentsRoute
    | ViewAssignmentRoute | DeleteAssignmentRoute | SubmitRoute
    | ViewSubmissionsRoute | MySubmissionRoute | GradeRoute

  /** One middleware of a chain. `Validate` is the route's field
      validators; the upload middleware is not a gate here. */
  datatype Stage = Authenticate | Roles(allowed: set<Role>) | OwnData | Validate

  const Staff: set<Role> := {Faculty, Admin}
  const AdminRole: set<Role> := {Admin}
  const StudentRole: set<Role> := {Student}
  const FacultyRole: set<Role> := {Faculty}

  /** The middlewares each route runs before its handler. */
  function Chain(r: Route): (c: seq<Stage>)
    ensures |c| >= 1 && c[0] == Authenticate
  {
    match r
    case MarkAttendanceRoute => [Authenticate, Roles(Staff), Validate]
    case MarkBulkAttendanceRoute => [Authenticate, Roles(Staff), Validate]
    case AttendanceOfStudentRoute => [Authenticate, OwnData]
    case AttendanceOfSubjectRoute => [Authenticate, Roles(Staff)]
    case UpdateAttendanceRoute => [Authenticate, Roles(Staff), Validate]
    case DeleteAttendanceRoute => [Authenticate, Roles(AdminRole), Validate]
    case AddMarksRoute => [Authenticate, Roles(Staff), Validate]
    case AddBulkMarksRoute => [Authenticate, Roles(Staff)]
    case ResultsOfStudentRoute => [Authenticate, OwnData]
    case ResultsOfSubjectRoute => [Authenticate, Roles(Staff)]
    case UpdateMarksRoute => [Authenticate, Roles(Staff), Validate]
    case DeleteResultRoute => [Authenticate, Roles(AdminRole), Validate]
    case MyNoticesRoute => [Authenticate, Roles(StudentRole)]
    case UnreadCountRoute => [Authenticate, Roles(StudentRole)]
    case ReadAllRoute => [Authenticate, Roles(StudentRole)]
    case ReadOneRoute => [Authenticate, Roles(StudentRole), Validate]
    case BroadcastRoute => [Authenticate, Roles(AdminRole), Validate]
    case SubjectNoticeRoute => [Authenticate, Roles(FacultyRole), Validate]
    case SentNoticesRoute => [Authenticate, Roles(Staff)]
    case DeleteNoticeRoute => [Authenticate, Roles(Staff), Validate]
    case MyAssignmentsRoute => [Authenticate, Roles(StudentRole)]
    case CreateAssignmentRoute => [Authenticate, Roles(Staff), Validate]
    case ListAssignmentsRoute => [Authenticate, Roles(Staff)]
    case ViewAssignmentRoute => [Authenticate, Validate]
    case DeleteAssignmentRoute => [Authenticate, Roles(Staff), Validate]
    case SubmitRoute => [Authenticate, Roles(StudentRole)]
    case ViewSubmissionsRoute => [Authenticate, Roles(Staff)]
    case MySubmissionRoute => [Authenticate, Roles(StudentRole)]
    case GradeRoute => [Authenticate, Roles(Staff), Validate]
  }

  /** What the gates see of a request: the authenticated caller (None when
      the token is missing or invalid), the student id in the path, the
      student profiles, and whether the route's validators accept the
      input. */
  datatype Request = Request(
    caller: Option<User>,
    studentParam: Option<Id>,
    students: map<Id, StudentDoc>,
    inputValid: bool)

  /** The decision of one middleware. */
  function StageDecision(s: Stage, req: Request): (d: Decision)
    ensures s == Authenticate ==> (d == Allowed <==> req.caller.Some?)
    ensures s == Validate ==> (d == Allowed <==> req.inputValid)
    ensures s.Roles? ==> d == Authorize(req.caller, s.allowed)
    ensures s == OwnData ==> d == RestrictToOwnData(req.caller, req.studentParam, req.students)
    ensures d.Denied? && s == Validate ==> d.kind == BadRequest
  {
    match s
    case Authenticate => if req.caller.None? then Denied(Unauthorized) else Allowed
    case Roles(allowed) => Authorize(req.caller, allowed)
    case OwnData => RestrictToOwnData(req.caller, req.studentParam, req.students)
    case Validate => if req.inputValid then Allowed else Denied(BadRequest)
  }

  /** Runs the middlewares in order: the first refusal is the answer. */
  function Run(stages: seq<Stage>, req: Request): (d: Decision)
    ensures stages == [] ==> d == Allowed
    ensures stages != [] && StageDecision(stages[0], req).Denied? ==> d == StageDecision(stages[0], req)
  {
    if stages == [] then Allowed
    else
      var first := StageDecision(stages[0], req);
      if first.Denied? then first else Run(stages[1..], req)
  }

  /** The handler is reached exactly when every middleware lets the
      request through, and a refusal is that of the first middleware that
      refuses. */
  lemma {:induction false} RunFirstRefusal(stages: seq<Stage>, req: Request)
    ensures Run(stages, req) == Allowed <==>
      forall k :: 0 <= k < |stages| ==> StageDecision(stages[k], req) == Allowed
    ensures Run(stages, req).Denied? ==>
      exists k :: 0 <= k < |stages| && StageDecision(stages[k], req) == Run(stages, req)
        && forall j :: 0 <= j < k ==> StageDecision(stages[j], req) == Allowed
  {
    if stages != [] && StageDecision(stages[0], req) == Allowed {
      var rest := stages[1..];
      RunFirstRefusal(rest, req);
      assert forall k :: 1 <= k < |stages| ==> stages[k] == rest[k - 1];
      if Run(rest, req).Denied? {
        var k :| 0 <= k < |rest| && StageDecision(rest[k], req) == Run(rest, req)
                 && forall j :: 0 <= j < k ==> StageDecision(rest[j], req) == Allowed;
        assert StageDecision(stages[k + 1], req) == Run(stages, req);
      }
    }
  }

  /** The decision for a request on a route. */
  function Guard(r: Route, req: Request): (d: Decision)
    ensures req.caller.None? ==> d == Denied(Unauthorized)
  {
    Run(Chain(r), req)
  }

  /** Every route of the four routers authenticates first: without a
      valid token nothing else is consulted. */
  lemma EveryRouteAuthenticates(r: Route, req: Request)
    requires req.caller.None?
    ensures Guard(r, req) == Denied(Unauthorized)
  {
  }

  predicate IsStaff(u: User) { u.role == Faculty || u.role == Admin }

  /** With a caller and valid input, a gated chain answers exactly as its
      role gate does, and an own-data chain as the own-data check. */
  lemma GatedChain(allowed: set<Role>, req: Request)
    requires req.caller.Some? && req.inputValid
    ensures Run([Authenticate, Roles(allowed), Validate], req) == Authorize(req.caller, allowed)
    ensures Run([Authenticate, Roles(allowed)], req) == Authorize(req.caller, allowed)
    ensures Run([Authenticate, OwnData], req) == RestrictToOwnData(req.caller, req.studentParam, req.students)
    ensures Run([Authenticate, Validate], req) == Allowed
  {
    assert Run([], req) == Allowed;
    var v := [Validate];
    assert v[1..] == [];
    assert Run(v, req) == Allowed;
    var rv := [Roles(allowed), Validate];
    assert rv[1..] == v;
    assert Run(rv, req) == Authorize(req.caller, allowed);
    var arv := [Authenticate, Roles(allowed), Validate];
    assert arv[1..] == rv;
    var r := [Roles(allowed)];
    assert r[1..] == [];
    var ar := [Authenticate, Roles(allowed)];
    assert ar[1..] == r;
    var o := [OwnData];
    assert o[1..] == [];
    var ao := [Authenticate, OwnData];
    assert ao[1..] == o;
    var av := [Authenticate, Validate];
    assert av[1..] == v;
  }

  /** A route whose chain is authentication, one role gate and the
      validators lets a caller with valid input through exactly when the
      caller's role is in the gate's list. */
  lemma RoleGated(r: Route, allowed: set<Role>, req: Request)
    requires req.caller.Some? && req.inputValid
    requires Chain(r) == [Authenticate, Roles(allowed), Validate]
    ensures Guard(r, req) == Allowed <==> req.caller.value.role in allowed
  {
    GatedChain(allowed, req);
  }

  /** The same for a chain without validators. */
  lemma RoleGatedOnly(r: Route, allowed: set<Role>, req: Request)
    requires req.caller.Some? && req.inputValid
    requires Chain(r) == [Authenticate, Roles(allowed)]
    ensures Guard(r, req) == Allowed <==> req.caller.value.role in allowed
  {
    GatedChain(allowed, req);
  }

  /** With a caller and invalid input, a gated chain that the role gate
      lets through ends in 400. */
  lemma RefusedInput(allowed: set<Role>, req: Request)
    requires req.caller.Some? && req.caller.value.role in allowed && !req.inputValid
    ensures Run([Authenticate, Roles(allowed), Validate], req) == Denied(BadRequest)
    ensures Run([Authenticate, Roles(allowed)], req) == Allowed
  {
    assert Run([], req) == Allowed;
    var v := [Validate];
    var rv := [Roles(allowed), Validate];
    assert rv[1..] == v;
    var arv := [Authenticate, Roles(allowed), Validate];
    assert arv[1..] == rv;
    var r := [Roles(allowed)];
    assert r[1..] == [];
    var ar := [Authenticate, Roles(allowed)];
    assert ar[1..] == r;
  }

  /** Attendance router: marking (single and bulk), the per-subject view
      and updates are for staff; deletion is for administrators. */
  lemma AttendancePolicy(req: Request)
    requires req.caller.Some? && req.inputValid
    ensures Guard(MarkAttendanceRoute, req) == Allowed <==> IsStaff(req.caller.value)
    ensures Guard(MarkBulkAttendanceRoute, req) == Allowed <==> IsStaff(req.caller.value)
    ensures Guard(AttendanceOfSubjectRoute, req) == Allowed <==> IsStaff(req.caller.value)
    ensures Guard(UpdateAttendanceRoute, req) == Allowed <==> IsStaff(req.caller.value)
    ensures Guard(DeleteAttendanceRoute, req) == Allowed <==> req.caller.value.role == Admin
    ensures Guard(AttendanceOfStudentRoute, req) == RestrictToOwnData(req.caller, req.studentParam, req.students)
  {
    RoleGated(MarkAttendanceRoute, Staff, req);
    RoleGated(MarkBulkAttendanceRoute, Staff, req);
    RoleGatedOnly(AttendanceOfSubjectRoute, Staff, req);
    RoleGated(UpdateAttendanceRoute, Staff, req);
    RoleGated(DeleteAttendanceRoute, AdminRole, req);
    GatedChain(Staff, req);
  }

  /** Result router: adding (single and bulk), updating and the per-subject
      view are for staff; deletion is for administrators. */
  lemma ResultPolicy(req: Request)
    requires req.caller.Some? && req.inputValid
    ensures Guard(AddMarksRoute, req) == Allowed <==> IsStaff(req.caller.value)
    ensures Guard(AddBulkMarksRoute, req) == Allowed <==> IsStaff(req.caller.value)
    ensures Guard(UpdateMarksRoute, req) == Allowed <==> IsStaff(req.caller.value)
    ensures Guard(ResultsOfSubjectRoute, req) == Allowed <==> IsStaff(req.caller.value)
    ensures Guard(DeleteResultRoute, req) == Allowed <==> req.caller.value.role == Admin
    ensures Guard(ResultsOfStudentRoute, req) == RestrictToOwnData(req.caller, req.studentParam, req.students)
  {
    RoleGated(AddMarksRoute, Staff, req);
    RoleGatedOnly(AddBulkMarksRoute, Staff, req);
    RoleGated(UpdateMarksRoute, Staff, req);
    RoleGatedOnly(ResultsOfSubjectRoute, Staff, req);
    RoleGated(DeleteResultRoute, AdminRole, req);
    GatedChain(Staff, req);
  }

  /** Bulk marks skip the field validators that single adds and updates
      run: invalid input is turned away from those two but not from the
      bulk route. */
  lemma BulkMarksUnvalidated(req: Request)
    requires req.caller.Some? && IsStaff(req.caller.value) && !req.inputValid
    ensures Guard(AddBulkMarksRoute, req) == Allowed
    ensures Guard(AddMarksRoute, req) == Denied(BadRequest)
    ensures Guard(UpdateMarksRoute, req) == Denied(BadRequest)
  {
    RefusedInput(Staff, req);
  }

  /** Notification router, reading side: the caller's notices, the
      unread count and marking read are for students. */
  lemma NoticeReadingPolicy(req: Request)
    requires req.caller.Some? && req.inputValid
    ensures Guard(MyNoticesRoute, req) == Allowed <==> req.caller.value.role == Student
    ensures Guard(UnreadCountRoute, req) == Allowed <==> req.caller.value.role == Student
    ensures Guard(ReadAllRoute, req) == Allowed <==> req.caller.value.role == Student
    ensures Guard(ReadOneRoute, req) == Allowed <==> req.caller.value.role == Student
  {
    RoleGatedOnly(MyNoticesRoute, StudentRole, req);
    RoleGatedOnly(UnreadCountRoute, StudentRole, req);
    RoleGatedOnly(ReadAllRoute, StudentRole, req);
    RoleGated(ReadOneRoute, StudentRole, req);
  }

  /** Notification router, sending side: broadcasts are for
      administrators, subject notices for faculty, and the sent list and
      deletion for staff. */
  lemma NoticeSendingPolicy(req: Request)
    requires req.caller.Some? && req.inputValid
    ensures Guard(BroadcastRoute, req) == Allowed <==> req.caller.value.role == Admin
    ensures Guard(SubjectNoticeRoute, req) == Allowed <==> req.caller.value.role == Faculty
    ensures Guard(SentNoticesRoute, req) == Allowed <==> IsStaff(req.caller.value)
    ensures Guard(DeleteNoticeRoute, req) == Allowed <==> IsStaff(req.caller.value)
  {
    RoleGated(BroadcastRoute, AdminRole, req);
    RoleGated(SubjectNoticeRoute, FacultyRole, req);
    RoleGatedOnly(SentNoticesRoute, Staff, req);
    RoleGated(DeleteNoticeRoute, Staff, req);
  }

  /** Assignment router, student side: the caller's own assignments,
      submitting and the caller's own submission are for students. */
  lemma AssignmentStudentPolicy(req: Request)
    requires req.caller.Some? && req.inputValid
    ensures Guard(MyAssignmentsRoute, req) == Allowed <==> req.caller.value.role == Student
    ensures Guard(SubmitRoute, req) == Allowed <==> req.caller.value.role == Student
    ensures Guard(MySubmissionRoute, req) == Allowed <==> req.caller.value.role == Student
  {
    RoleGatedOnly(MyAssignmentsRoute, StudentRole, req);
    RoleGatedOnly(SubmitRoute, StudentRole, req);
    RoleGatedOnly(MySubmissionRoute, StudentRole, req);
  }

  /** A single assignment may be viewed by any authenticated caller whose
      request passes the validators. */
  lemma AnyoneViewsAssignment(req: Request)
    requires req.caller.Some? && req.inputValid
    ensures Guard(ViewAssignmentRoute, req) == Allowed
  {
    GatedChain(StudentRole, req);
  }

  /** Assignment router, staff side: creating, listing and deleting
      assignments are for staff. */
  lemma AssignmentStaffPolicy(req: Request)
    requires req.caller.Some? && req.inputValid
    ensures Guard(CreateAssignmentRoute, req) == Allowed <==> IsStaff(req.caller.value)
    ensures Guard(ListAssignmentsRoute, req) == Allowed <==> IsStaff(req.caller.value)
    ensures Guard(DeleteAssignmentRoute, req) == Allowed <==> IsStaff(req.caller.value)
  {
    RoleGated(CreateAssignmentRoute, Staff, req);
    RoleGatedOnly(ListAssignmentsRoute, Staff, req);
    RoleGated(DeleteAssignmentRoute, Staff, req);
  }

  /** Assignment router, grading side: the submissions of an assignment
      and grading them are for staff. */
  lemma GradingPolicy(req: Request)
    requires req.caller.Some? && req.inputValid
    ensures Guard(ViewSubmissionsRoute, req) == Allowed <==> IsStaff(req.caller.value)
    ensures Guard(GradeRoute, req) == Allowed <==> IsStaff(req.caller.value)
  {
    RoleGatedOnly(ViewSubmissionsRoute, Staff, req);
    RoleGated(GradeRoute, Staff, req);
  }

  /** The routes that write records. */
  predicate Writes(r: Route) {
    r in {MarkAttendanceRoute, MarkBulkAttendanceRoute, UpdateAttendanceRoute, DeleteAttendanceRoute,
          AddMarksRoute, AddBulkMarksRoute, UpdateMarksRoute, DeleteResultRoute,
          CreateAssignmentRoute, DeleteAssignmentRoute, GradeRoute,
          BroadcastRoute, SubjectNoticeRoute, DeleteNoticeRoute}
  }

  /** A student never passes the gates of a route that writes attendance,
      results, assignments, grades or notices: the answer is 403. */
  lemma StudentsNeverWrite(r: Route, req: Request)
    requires Writes(r)
    requires req.caller.Some? && req.caller.value.role == Student
    ensures Guard(r, req) == Denied(Forbidden)
  {
    assert StageDecision(Chain(r)[1], req) == Denied(Forbidden);
  }
}

=== FILE: store.dfy ===
/** A Mongo collection abstracted as a finite map from document id to
    document, with a counter that hands out fresh ids in creation order,
    and the ordered queries (`find`, `findOne`, `countDocuments`) the
    controllers run against it. */
module Store {
  import opened Common

  /** Ids listed strictly increasing, i.e. in creation order. */
  ghost predicate Ascending(ids: seq<Id>) {
    forall i, j :: 0 <= i < j < |ids| ==> ids[i] < ids[j]
  }

  /** `m` is the least element of `s`. */
  predicate IsLeast(m: Id, s: set<Id>) {
    m in s && forall x :: x in s ==> m <= x
  }

  lemma {:induction false} MinExists(s: set<Id>)
    requires s != {}
    ensures exists m :: IsLeast(m, s)
  {
    var y :| y in s;
    var rest := s - {y};
    if rest == {} {
      forall x | x in s ensures y <= x {
        assert x !in rest;
      }
      assert IsLeast(y, s);
    } else {
      MinExists(rest);
      var m :| IsLeast(m, rest);
      var least := if y < m then y else m;
      forall x | x in s ensures least <= x {
        if x != y {
          assert x in rest;
        }
      }
      assert IsLeast(least, s);
    }
  }

  /** The least id of a non-empty set. */
  function MinId(s: set<Id>): (m: Id)
    requires s != {}
    ensures m in s && forall x :: x in s ==> m <= x
  {
    MinExists(s);
    var m :| IsLeast(m, s); m
  }

  /** The ids of `s` whose documents satisfy `p`, oldest first. */
  function SelectIds<T>(s: set<Id>, m: map<Id, T>, p: T -> bool): (ids: seq<Id>)
    requires s <= m.Keys
    ensures Ascending(ids)
    ensures forall i :: i in ids <==> i in s && p(m[i])
    decreases s
  {
    if s == {} then []
    else
      var k := MinId(s);
      var rest := SelectIds(s - {k}, m, p);
      assert forall j :: 0 <= j < |rest| ==> k < rest[j] by {
        forall j | 0 <= j < |rest| ensures k < rest[j] {
          assert rest[j] in rest;
        }
      }
      if p(m[k]) then [k] + rest else rest
  }

  /** `find(query)`: the ids of every document satisfying `p`, oldest first. */
  function Where<T>(m: map<Id, T>, p: T -> bool): (ids: seq<Id>)
    ensures Ascending(ids)
    ensures forall i :: i in ids <==> i in m && p(m[i])
    ensures forall k :: 0 <= k < |ids| ==> ids[k] in m && p(m[ids[k]])
  {
    var ids := SelectIds(m.Keys, m, p);
    assert forall k :: 0 <= k < |ids| ==> ids[k] in ids;
    ids
  }

  /** `findOne(query)`: the oldest document satisfying `p`, if any. */
  function FindFirst<T>(m: map<Id, T>, p: T -> bool): (r: Option<Id>)
    ensures r.None? <==> forall i :: i in m ==> !p(m[i])
    ensures r.Some? ==> r.value in m && p(m[r.value])
    ensures r.Some? ==> forall i :: i in m && p(m[i]) ==> r.value <= i
  {
    var ids := Where(m, p);
    if |ids| == 0 then
      assert forall i :: i in m ==> !p(m[i]) by {
        forall i | i in m ensures !p(m[i]) {
          assert i !in ids;
        }
      }
      None
    else
      assert ids[0] in ids;
      assert forall i :: i in m && p(m[i]) ==> ids[0] <= i by {
        forall i | i in m && p(m[i]) ensures ids[0] <= i {
          assert i in ids;
          var k :| 0 <= k < |ids| && ids[k] == i;
        }
      }
      Some(ids[0])
  }

  /** The tail of an ascending listing is ascending and omits its head. */
  lemma AscendingTail(ids: seq<Id>)
    requires Ascending(ids) && ids != []
    ensures Ascending(ids[1..]) && ids[0] !in ids[1..]
  {
    var rest := ids[1..];
    forall a, b | 0 <= a < b < |rest| ensures rest[a] < rest[b] {
      assert rest[a] == ids[a + 1] && rest[b] == ids[b + 1];
    }
    forall k | 0 <= k < |rest| ensures rest[k] != ids[0] {
      assert rest[k] == ids[k + 1];
    }
  }

  /** An ascending listing of a set has one entry per element. */
  lemma {:induction false} AscendingLength(ids: seq<Id>, s: set<Id>)
    requires Ascending(ids)
    requires forall i :: i in ids <==> i in s
    ensures |ids| == |s|
  {
    if ids != [] {
      var rest := ids[1..];
      assert forall i :: i in rest <==> i in s - {ids[0]} by {
        forall i ensures i in rest <==> i in s - {ids[0]} {
          if i in rest {
            var k :| 0 <= k < |rest| && rest[k] == i;
            assert ids[k + 1] == i;
          }
          if i in s - {ids[0]} {
            assert i in ids;
            var k :| 0 <= k < |ids| && ids[k] == i;
            assert k != 0;
            assert rest[k - 1] == i;
          }
        }
      }
      AscendingLength(rest, s - {ids[0]});
    } else {
      assert forall i :: i !in s;
    }
  }

  /** The ids whose documents satisfy `p`. */
  function Matching<T>(m: map<Id, T>, p: T -> bool): (s: set<Id>)
    ensures s <= m.Keys
    ensures forall i :: i in s <==> i in m && p(m[i])
  {
    set i | i in m && p(m[i])
  }

  lemma SubsetSize<U>(a: set<U>, b: set<U>)
    requires a <= b
    ensures |a| <= |b|
  {
    assert b == a + (b - a);
  }

  /** `countDocuments(query)`: how many documents satisfy `p`, which is
      the length of the listing `find` returns. */
  function Count<T>(m: map<Id, T>, p: T -> bool): (n: nat)
    ensures n == |Matching(m, p)| == |Where(m, p)|
    ensures n <= |m|
  {
    AscendingLength(Where(m, p), Matching(m, p));
    SubsetSize(Matching(m, p), m.Keys);
    |Where(m, p)|
  }

  /** A query counts nothing exactly when no document satisfies it. */
  lemma CountZero<T>(m: map<Id, T>, p: T -> bool)
    ensures Count(m, p) == 0 <==> forall i :: i in m ==> !p(m[i])
  {
    if Count(m, p) != 0 {
      var i :| i in Matching(m, p);
    } else {
      assert Matching(m, p) == {};
    }
  }

  /** Every id of the collection, oldest first. */
  function AllIds<T>(m: map<Id, T>): (ids: seq<Id>)
    ensures Ascending(ids)
    ensures forall i :: i in ids <==> i in m
    ensures |ids| == |m|
  {
    var ids := Where(m, (d: T) => true);
    AscendingLength(ids, m.Keys);
    ids
  }

  /** The documents stored under `ids`, in that order. */
  function Docs<T>(m: map<Id, T>, ids: seq<Id>): (ds: seq<T>)
    requires forall i :: i in ids ==> i in m
    ensures |ds| == |ids|
    ensures forall k :: 0 <= k < |ids| ==> ds[k] == m[ids[k]]
  {
    seq(|ids|, k requires 0 <= k < |ids| => m[ids[k]])
  }

  /** A collection: its documents by id and the next id to hand out. */
  datatype Collection<T> = Collection(docs: map<Id, T>, next: Id) {

    /** Every stored id was handed out before `next`, so `next` is fresh. */
    ghost predicate Valid() {
      forall i :: i in docs ==> i < next
    }

    /** `create(d)`: stores `d` under a fresh id. */
    function Insert(d: T): (c: Collection<T>)
      ensures c.docs.Keys == docs.Keys + {next}
      ensures Valid() ==> next !in docs && c.Valid()
    {
      Collection(docs[next := d], next + 1)
    }
  }

  /** Creating a document raises the count of a query by one exactly when
      the new document satisfies it. */
  lemma InsertCount<T>(c: Collection<T>, d: T, p: T -> bool)
    requires c.Valid()
    ensures Count(c.Insert(d).docs, p) == Count(c.docs, p) + (if p(d) then 1 else 0)
  {
    var m := c.Insert(d).docs;
    assert m == c.docs[c.next := d];
    var before := Matching(c.docs, p);
    var after := Matching(m, p);
    assert c.next !in before;
    if p(d) {
      assert after == before + {c.next} by {
        forall i ensures i in after <==> i in before + {c.next} {
          if i != c.next { assert i in m <==> i in c.docs; }
        }
      }
    } else {
      assert after == before by {
        forall i ensures i in after <==> i in before {
          if i != c.next { assert i in m <==> i in c.docs; }
        }
      }
    }
  }
}

=== FILE: text.dfy ===
/** String helpers the handlers rely on: JavaScript's `trim`, `includes`,
    `join` and `toUpperCase` (ASCII letters only), the two ways a text's
    length is measured (JavaScript's UTF-16 `length` and validator.js's
    `isLength`), and decimal rendering of an id. */
module Text {

  /** The whitespace `String.prototype.trim` removes (the ASCII and
      no-break spaces; other Unicode spaces are not modelled). */
  predicate IsSpace(c: char) {
    c == ' ' || c == '\t' || c == '\n' || c == '\r' || c == '\U{000B}' || c == '\U{000C}' || c == '\U{00A0}'
  }

  /** How many whitespace characters `s` starts with. */
  function Leading(s: string): (n: nat)
    ensures n <= |s|
    ensures forall k :: 0 <= k < n ==> IsSpace(s[k])
    ensures n == |s| || !IsSpace(s[n])
  {
    if s == [] || !IsSpace(s[0]) then 0
    else
      var n := Leading(s[1..]);
      assert forall k :: 1 <= k <= n ==> s[k] == s[1..][k - 1];
      1 + n
  }

  /** How many whitespace characters `s` ends with. */
  function Trailing(s: string): (n: nat)
    ensures n <= |s|
    ensures forall k :: |s| - n <= k < |s| ==> IsSpace(s[k])
    ensures n == |s| || !IsSpace(s[|s| - n - 1])
  {
    if s == [] || !IsSpace(s[|s| - 1]) then 0
    else
      var n := Trailing(s[..|s| - 1]);
      assert forall k :: |s| - 1 - n <= k < |s| - 1 ==> s[k] == s[..|s| - 1][k];
      1 + n
  }

  /** Neither starts nor ends with whitespace: what `trim` leaves. */
  predicate Trimmed(s: string) {
    s == [] || (!IsSpace(s[0]) && !IsSpace(s[|s| - 1]))
  }

  /** Outside the leading whitespace, the trailing whitespace is what
      follows the last non-space character. */
  lemma LeadingBeforeTrailing(s: string)
    requires Leading(s) < |s|
    ensures Leading(s) + Trailing(s) < |s|
    ensures !IsSpace(s[|s| - Trailing(s) - 1])
  {
    assert !IsSpace(s[Leading(s)]);
  }

  /** `s.trim()`: the whitespace cut from both ends, leaving a slice of
      `s` (stated by `TrimIsSlice` and `TrimBlank`). */
  function Trim(s: string): (r: string)
    ensures Trimmed(r) && |r| <= |s|
  {
    var i := Leading(s);
    if i == |s| then []
    else
      LeadingBeforeTrailing(s);
      s[i..|s| - Trailing(s)]
  }

  /** What `trim` keeps is a slice of the input. */
  lemma TrimIsSlice(s: string)
    ensures exists i: nat :: SliceAt(s, i, Trim(s))
  {
    if Leading(s) == |s| {
      assert SliceAt(s, 0, Trim(s));
    } else {
      assert SliceAt(s, Leading(s), Trim(s));
    }
  }

  /** `trim` keeps nothing exactly when the input is all whitespace. */
  lemma TrimBlank(s: string)
    ensures Trim(s) == [] <==> forall k :: 0 <= k < |s| ==> IsSpace(s[k])
  {
    if Leading(s) < |s| {
      LeadingBeforeTrailing(s);
      assert !IsSpace(s[Leading(s)]);
    }
  }

  /** A trimmed string is its own trim. */
  lemma TrimOfTrimmed(s: string)
    requires Trimmed(s)
    ensures Trim(s) == s
  {
    if s != [] {
      assert Leading(s) == 0;
      assert Trailing(s) == 0;
      assert s[0..|s|] == s;
    }
  }

  /** Trimming twice is trimming once. */
  lemma TrimIdempotent(s: string)
    ensures Trim(Trim(s)) == Trim(s)
  {
    TrimOfTrimmed(Trim(s));
  }

  /** `sub` occurs in `s` starting at index `i`. */
  predicate SliceAt(s: string, i: nat, sub: string) {
    i + |sub| <= |s| && s[i..i + |sub|] == sub
  }

  /** `s.includes(sub)`. */
  predicate Contains(s: string, sub: string) {
    exists i: nat | i <= |s| :: SliceAt(s, i, sub)
  }

  /** `parts.join(sep)`. */
  function Join(parts: seq<string>, sep: string): (r: string)
    ensures |parts| == 1 ==> r == parts[0]
    ensures parts == [] ==> r == ""
  {
    if parts == [] then ""
    else if |parts| == 1 then parts[0]
    else parts[0] + sep + Join(parts[1..], sep)
  }

  predicate IsLower(c: char) { 'a' <= c <= 'z' }

  /** `s.toUpperCase()` on ASCII letters. */
  function ToUpper(s: string): (r: string)
    ensures |r| == |s|
    ensures forall k :: 0 <= k < |r| ==> !IsLower(r[k])
    ensures forall k :: 0 <= k < |s| && !IsLower(s[k]) ==> r[k] == s[k]
  {
    seq(|s|, k requires 0 <= k < |s| =>
      if IsLower(s[k]) then (s[k] as int - 'a' as int + 'A' as int) as char else s[k])
  }

  /** A string without lower-case letters is its own upper-casing. */
  lemma UpperOfUpper(s: string)
    requires forall k :: 0 <= k < |s| ==> !IsLower(s[k])
    ensures ToUpper(s) == s
  {
  }

  /** Upper-casing twice is upper-casing once. */
  lemma ToUpperIdempotent(s: string)
    ensures ToUpper(ToUpper(s)) == ToUpper(s)
  {
  }

  // ----- lengths -----

  /** How many characters of `s` satisfy `p`. */
  function CountChars(s: string, p: char -> bool): (n: nat)
    ensures n <= |s|
    decreases |s|
  {
    if s == [] then 0 else CountChars(s[..|s| - 1], p) + (if p(s[|s| - 1]) then 1 else 0)
  }

  /** Counting over a concatenation adds the two counts. */
  lemma {:induction false} CountConcat(a: string, b: string, p: char -> bool)
    ensures CountChars(a + b, p) == CountChars(a, p) + CountChars(b, p)
    decreases |b|
  {
    if b == [] {
      assert a + b == a;
    } else {
      CountConcat(a, b[..|b| - 1], p);
      assert (a + b)[..|a + b| - 1] == a + b[..|b| - 1];
    }
  }

  /** The count is 0 exactly when no character qualifies, and the whole
      length exactly when every one does. */
  lemma {:induction false} CountExtremes(s: string, p: char -> bool)
    ensures CountChars(s, p) == 0 <==> forall k :: 0 <= k < |s| ==> !p(s[k])
    ensures CountChars(s, p) == |s| <==> forall k :: 0 <= k < |s| ==> p(s[k])
    decreases |s|
  {
    if s != [] {
      var init := s[..|s| - 1];
      CountExtremes(init, p);
      assert forall k :: 0 <= k < |init| ==> init[k] == s[k];
    }
  }

  /** A character outside the Basic Multilingual Plane, which a JavaScript
      string holds as a surrogate pair. */
  predicate IsAstral(c: char) {
    c as int >= 0x1_0000
  }

  /** U+FE0E and U+FE0F, the text and emoji presentation selectors. */
  predicate IsPresentationSelector(c: char) {
    c == '\U{FE0E}' || c == '\U{FE0F}'
  }

  /** A JavaScript string's `length`: one code unit per character, two for
      an astral one (stated against the encoding by `Utf16LengthIsEncoding`). */
  function Utf16Length(s: string): (n: nat)
    ensures |s| <= n <= 2 * |s|
    ensures n == |s| <==> forall k :: 0 <= k < |s| ==> !IsAstral(s[k])
    ensures n == 2 * |s| <==> forall k :: 0 <= k < |s| ==> IsAstral(s[k])
  {
    CountExtremes(s, IsAstral);
    |s| + CountChars(s, IsAstral)
  }

  /** The UTF-16 code units of one character: itself, or a high surrogate
      followed by a low one. */
  function Utf16Of(c: char): (u: seq<int>)
    ensures |u| == if IsAstral(c) then 2 else 1
    ensures forall k :: 0 <= k < |u| ==> 0 <= u[k] < 0x1_0000
    ensures IsAstral(c) ==> 0xD800 <= u[0] < 0xDC00 <= u[1] < 0xE000
    ensures !IsAstral(c) ==> u == [c as int]
  {
    if IsAstral(c) then
      var d := c as int - 0x1_0000;
      [0xD800 + d / 0x400, 0xDC00 + d % 0x400]
    else [c as int]
  }

  /** The UTF-16 encoding of a string. */
  function Utf16(s: string): seq<int>
    decreases |s|
  {
    if s == [] then [] else Utf16(s[..|s| - 1]) + Utf16Of(s[|s| - 1])
  }

  /** `length` is the number of code units of the encoding. */
  lemma {:induction false} Utf16LengthIsEncoding(s: string)
    ensures |Utf16(s)| == Utf16Length(s)
    decreases |s|
  {
    if s != [] {
      Utf16LengthIsEncoding(s[..|s| - 1]);
    }
  }

  /** The length validator.js's `isLength` compares: `length` less one unit
      per presentation selector and one per surrogate pair, which comes to
      the code points other than presentation selectors. */
  function IsLengthCount(s: string): (n: nat)
    ensures n == |s| - CountChars(s, IsPresentationSelector)
    ensures n == |s| <==> forall k :: 0 <= k < |s| ==> !IsPresentationSelector(s[k])
  {
    CountExtremes(s, IsPresentationSelector);
    Utf16Length(s) - CountChars(s, IsPresentationSelector) - CountChars(s, IsAstral)
  }

  /** On text without astral characters or presentation selectors the
      three measures agree. */
  lemma PlainLengths(s: string)
    requires forall k :: 0 <= k < |s| ==> !IsAstral(s[k]) && !IsPresentationSelector(s[k])
    ensures Utf16Length(s) == |s| && IsLengthCount(s) == |s|
  {
  }

  function DigitChar(d: nat): (c: char)
    requires d < 10
  {
    ('0' as int + d) as char
  }

  /** The decimal rendering of a natural number. */
  function NatText(n: nat): (r: string)
    ensures |r| >= 1
    ensures forall k :: 0 <= k < |r| ==> '0' <= r[k] <= '9'
    ensures r[0] == '0' ==> n == 0
    decreases n
  {
    if n < 10 then [DigitChar(n)]
    else NatText(n / 10) + [DigitChar(n % 10)]
  }

  predicate IsDigit(c: char) { '0' <= c <= '9' }

  predicate AllDigits(s: string) {
    forall k :: 0 <= k < |s| ==> IsDigit(s[k])
  }

  /** The value of a decimal digit string, leading zeros allowed. */
  function DigitsValue(s: string): (n: nat)
    requires AllDigits(s)
    ensures s != [] && s[0] == '0' && |s| == 1 ==> n == 0
    decreases |s|
  {
    if s == [] then 0
    else DigitsValue(s[..|s| - 1]) * 10 + (s[|s| - 1] as int - '0' as int)
  }

  /** Reading back a rendered number gives the number. */
  lemma {:induction false} NatTextRoundTrip(n: nat)
    ensures AllDigits(NatText(n))
    ensures DigitsValue(NatText(n)) == n
    decreases n
  {
    if n >= 10 {
      NatTextRoundTrip(n / 10);
      var r := NatText(n);
      assert r[..|r| - 1] == NatText(n / 10);
    }
  }

  function Pow10(n: nat): (p: nat)
    ensures p >= 1
  {
    if n == 0 then 1 else 10 * Pow10(n - 1)
  }

  /** Joining two digit strings shifts the first by the length of the
      second. */
  lemma {:induction false} DigitsValueConcat(a: string, b: string)
    requires AllDigits(a) && AllDigits(b)
    ensures AllDigits(a + b)
    ensures DigitsValue(a + b) == DigitsValue(a) * Pow10(|b|) + DigitsValue(b)
    decreases |b|
  {
    assert forall k :: 0 <= k < |a + b| ==> (a + b)[k] == if k < |a| then a[k] else b[k - |a|];
    if b == [] {
      assert a + b == a;
    } else {
      var init := b[..|b| - 1];
      DigitsValueConcat(a, init);
      assert (a + b)[..|a + b| - 1] == a + init;
      var x, p, y := DigitsValue(a), Pow10(|init|), DigitsValue(init);
      var d := b[|b| - 1] as int - '0' as int;
      assert DigitsValue(a + b) == (x * p + y) * 10 + d;
      assert DigitsValue(b) == y * 10 + d;
      assert Pow10(|b|) == p * 10;
      ShiftStep(x, p, y, d);
    }
  }

  lemma ShiftStep(x: int, p: int, y: int, d: int)
    ensures (x * p + y) * 10 + d == x * (p * 10) + (y * 10 + d)
  {
  }
}

=== FILE: validators.dfy ===
/** The request validators that run before the record handlers: field
    predicates (required and optional strings, integer and number ranges,
    enums, ids, dates, arrays) chained per route, and the `validate` step
    that turns the collected failures into a 400 reply. */
module Validators {
  import opened Common
  import opened Text

  /** A request field as the validators see it. A scalar (a JSON string,
      number, boolean or null) is the text express-validator's string
      conversion gives it -- a number as JavaScript prints it, `true`,
      `false`, and `""` for null -- together with what two of the checks
      read from that text: `number` is the value when `isFloat` accepts the
      text, `instant` the time when `isISO8601` does. */
  datatype Field =
    | Absent
    | Scalar(text: string, number: Option<real>, instant: Option<Time>)
    | Arr(items: seq<Field>)
    | Obj(fields: map<string, Field>)

  type Body = map<string, Field>

  /** One reported failure: the field's path and the check's message. */
  datatype FieldError = FieldError(field: string, message: string)

  /** What `validate` does: pass to the handler, or answer 400 with the list
      of failures. */
  datatype Verdict = Pass | Fail(status: int, errors: seq<FieldError>)

  function Get(body: Body, name: string): Field {
    if name in body then body[name] else Absent
  }

  /** `validate`: any failure means a 400 listing every failure, in chain
      order; otherwise the request passes. */
  function Validate(errors: seq<FieldError>): (v: Verdict)
    ensures v.Pass? <==> errors == []
    ensures v.Fail? ==> v.status == 400 && v.errors == errors
  {
    if errors == [] then Pass else Fail(400, errors)
  }

  /** The text a check sees: a missing field reads as `""`, an object as
      JavaScript's `"[object Object]"`. */
  function RawText(f: Field): string {
    match f
    case Absent => ""
    case Scalar(t, _, _) => t
    case Arr(_) => ""
    case Obj(_) => "[object Object]"
  }

  /** The text a string check sees after the `trim` sanitiser. */
  function AsText(f: Field): string {
    Trim(RawText(f))
  }

  function Caption(field: string, caption: string): string {
    if caption != "" then caption else field
  }

  const MaxTextLength := 500

  /** Non-empty once trimmed, and within 500 as `isLength` counts. */
  predicate RequiredTextOk(f: Field) {
    AsText(f) != "" && IsLengthCount(AsText(f)) <= MaxTextLength
  }

  /** `trimmedString`: after trimming, non-empty and at most 500 characters
      as `isLength` counts them. At most one of the two checks can fail. */
  function TrimmedString(body: Body, field: string, caption: string): (errs: seq<FieldError>)
    ensures errs == [] <==> RequiredTextOk(Get(body, field))
    ensures |errs| <= 1
  {
    var t := AsText(Get(body, field));
    if t == "" then [FieldError(field, Caption(field, caption) + " is required")]
    else if IsLengthCount(t) > MaxTextLength then [FieldError(field, Caption(field, caption) + " must be at most 500 characters")]
    else []
  }

  predicate OptionalTextOk(f: Field) {
    f.Absent? || IsLengthCount(AsText(f)) <= MaxTextLength
  }

  /** `optionalTrimmedString`: an absent field passes; a present one is only
      bounded in length, so an empty string passes too. */
  function OptionalTrimmedString(body: Body, field: string, caption: string): (errs: seq<FieldError>)
    ensures errs == [] <==> OptionalTextOk(Get(body, field))
    ensures |errs| <= 1
  {
    var f := Get(body, field);
    if !f.Absent? && IsLengthCount(AsText(f)) > MaxTextLength
    then [FieldError(field, Caption(field, caption) + " must be at most 500 characters")]
    else []
  }

  /** validator.js's integer pattern: an optional sign, then one or more
      decimal digits (leading zeros allowed, nothing else, not even
      surrounding spaces or a fraction `.0`). */
  predicate IsIntText(t: string) {
    if |t| >= 1 && (t[0] == '+' || t[0] == '-') then |t| >= 2 && AllDigits(t[1..])
    else |t| >= 1 && AllDigits(t)
  }

  /** The number an integer text denotes. */
  function IntValue(t: string): (v: int)
    requires IsIntText(t)
  {
    if t[0] == '-' then -(DigitsValue(t[1..]) as int)
    else if t[0] == '+' then DigitsValue(t[1..])
    else DigitsValue(t)
  }

  /** `isInt({ min, max })`: the text is an integer within the bounds. */
  predicate IsIntIn(f: Field, lo: int, hi: Option<int>) {
    var t := RawText(f);
    IsIntText(t) && lo <= IntValue(t) && (hi.Some? ==> IntValue(t) <= hi.value)
  }

  /** `isFloat({ min })`: the text is a number at least `lo`. */
  predicate IsFloatAtLeast(f: Field, lo: real) {
    f.Scalar? && f.number.Some? && lo <= f.number.value
  }

  /** `isISO8601()`. */
  predicate IsIsoDate(f: Field) {
    f.Scalar? && f.instant.Some?
  }

  function Check(ok: bool, field: string, message: string): (errs: seq<FieldError>)
    ensures errs == [] <==> ok
  {
    if ok then [] else [FieldError(field, message)]
  }

  predicate IsHexDigit(c: char) {
    ('0' <= c <= '9') || ('a' <= c <= 'f') || ('A' <= c <= 'F')
  }

  predicate AllHex(t: string) {
    forall k :: 0 <= k < |t| ==> IsHexDigit(t[k])
  }

  /** validator.js's `isHexadecimal`: one or more hexadecimal digits, after
      an optional `0x` or `0h` prefix in either case. */
  predicate IsHexText(t: string) {
    || (|t| >= 3 && t[0] == '0' && t[1] in {'x', 'X', 'h', 'H'} && AllHex(t[2..]))
    || (|t| >= 1 && AllHex(t))
  }

  /** `isMongoId`: a hexadecimal text of exactly 24 characters (the prefix
      counts towards them), whatever JSON type carried it. */
  predicate IsMongoId(f: Field) {
    var t := RawText(f);
    |t| == 24 && IsHexText(t)
  }

  /** `isIn(options)`: the text is one of the options. */
  predicate IsOneOf(f: Field, options: seq<string>) {
    RawText(f) in options
  }

  const SemesterMessage := "Semester must be between 1 and 12"

  /** `semester` in the create-student, create-subject and add-marks chains:
      an integer from 1 to 12. */
  function SemesterErrors(body: Body): (errs: seq<FieldError>)
    ensures errs == [] <==> IsIntIn(Get(body, "semester"), 1, Some(12))
  {
    Check(IsIntIn(Get(body, "semester"), 1, Some(12)), "semester", SemesterMessage)
  }

  /** `credits` in the subject chains: optional, else an integer from 1 to 10. */
  function CreditsErrors(body: Body): (errs: seq<FieldError>)
    ensures errs == [] <==> (Get(body, "credits").Absent? || IsIntIn(Get(body, "credits"), 1, Some(10)))
  {
    var f := Get(body, "credits");
    Check(f.Absent? || IsIntIn(f, 1, Some(10)), "credits", "Credits must be between 1 and 10")
  }

  /** `password`: a text of at least six characters as `isLength` counts
      them, untrimmed; a number counts by the length of its printed form. */
  function PasswordErrors(body: Body): (errs: seq<FieldError>)
    ensures errs == [] <==> IsLengthCount(RawText(Get(body, "password"))) >= 6
  {
    Check(IsLengthCount(RawText(Get(body, "password"))) >= 6, "password", "Password must be at least 6 characters")
  }

  const RoleNames := ["Admin", "Faculty", "Student"]

  /** `role`: optional, else one of the three role names. */
  function RoleErrors(body: Body): (errs: seq<FieldError>)
    ensures errs == [] <==> (Get(body, "role").Absent? || IsOneOf(Get(body, "role"), RoleNames))
  {
    var f := Get(body, "role");
    Check(f.Absent? || IsOneOf(f, RoleNames), "role", "Role must be Admin, Faculty, or Student")
  }

  function IdErrors(f: Field, field: string): (errs: seq<FieldError>)
    ensures errs == [] <==> IsMongoId(f)
  {
    Check(IsMongoId(f), field, field + " must be a valid ID")
  }

  /** The subject-creation chain. */
  function CreateSubjectErrors(body: Body): seq<FieldError> {
    TrimmedString(body, "subjectName", "Subject name")
    + TrimmedString(body, "subjectCode", "Subject code")
    + TrimmedString(body, "department", "Department")
    + SemesterErrors(body)
    + (var f := Get(body, "assignedFaculty");
       Check(f.Absent? || IsMongoId(f), "assignedFaculty", "assignedFaculty must be a valid ID"))
    + CreditsErrors(body)
  }

  predicate MarkOk(f: Field) { IsFloatAtLeast(f, 0.0) }

  /** The add-marks chain: both ids, two non-negative marks (no upper
      bound at this layer) and a semester from 1 to 12. */
  function AddMarksErrors(body: Body): seq<FieldError> {
    IdErrors(Get(body, "student"), "student")
    + IdErrors(Get(body, "subject"), "subject")
    + Check(MarkOk(Get(body, "internalMarks")), "internalMarks", "Internal marks must be a non-negative number")
    + Check(MarkOk(Get(body, "externalMarks")), "externalMarks", "External marks must be a non-negative number")
    + SemesterErrors(body)
  }

  /** The add-marks chain passes exactly when both ids are well formed, both
      marks are numbers at least 0 and the semester is an integer in 1..12. */
  lemma AddMarksVerdict(body: Body)
    ensures Validate(AddMarksErrors(body)).Pass? <==>
      && IsMongoId(Get(body, "student")) && IsMongoId(Get(body, "subject"))
      && MarkOk(Get(body, "internalMarks")) && MarkOk(Get(body, "externalMarks"))
      && IsIntIn(Get(body, "semester"), 1, Some(12))
  {
  }

  /** The update-marks chain: the id parameter and each mark only if given. */
  function UpdateMarksErrors(id: Field, body: Body): seq<FieldError> {
    var i := Get(body, "internalMarks");
    var e := Get(body, "externalMarks");
    IdErrors(id, "id")
    + Check(i.Absent? || MarkOk(i), "internalMarks", "Internal marks must be a non-negative number")
    + Check(e.Absent? || MarkOk(e), "externalMarks", "External marks must be a non-negative number")
  }

  const StatusNames := ["Present", "Absent"]

  function StatusErrors(f: Field, field: string, message: string): (errs: seq<FieldError>)
    ensures errs == [] <==> IsOneOf(f, StatusNames)
  {
    Check(IsOneOf(f, StatusNames), field, message)
  }

  /** The single-mark attendance chain. */
  function MarkAttendanceErrors(body: Body): seq<FieldError> {
    IdErrors(Get(body, "student"), "student")
    + IdErrors(Get(body, "subject"), "subject")
    + Check(IsIsoDate(Get(body, "date")), "date", "Date must be a valid ISO-8601 date")
    + StatusErrors(Get(body, "status"), "status", "Status must be Present or Absent")
  }

  function FieldOf(item: Field, name: string): Field {
    if item.Obj? && name in item.fields then item.fields[name] else Absent
  }

  /** The path express-validator gives the `name` member of record `k`. */
  function RecordPath(k: nat, name: string): string {
    "attendanceRecords[" + NatText(k) + "]." + name
  }

  const RecordStudentMessage := "Each record must have a valid student ID"
  const RecordStatusMessage := "Each status must be Present or Absent"

  /** The `attendanceRecords.*.student` check over the records from index
      `from` on: one error per record without a valid student id, in
      record order, each naming that record. */
  function RecordStudentErrors(items: seq<Field>, from: nat): (errs: seq<FieldError>)
    ensures errs == [] <==> forall k :: 0 <= k < |items| ==> IsMongoId(FieldOf(items[k], "student"))
    ensures forall e :: e in errs ==> e.message == RecordStudentMessage
    ensures |errs| <= |items|
    decreases |items|
  {
    if items == [] then []
    else
      Check(IsMongoId(FieldOf(items[0], "student")), RecordPath(from, "student"), RecordStudentMessage)
      + RecordStudentErrors(items[1..], from + 1)
  }

  /** The `attendanceRecords.*.status` check, the same way. */
  function RecordStatusErrors(items: seq<Field>, from: nat): (errs: seq<FieldError>)
    ensures errs == [] <==> forall k :: 0 <= k < |items| ==> IsOneOf(FieldOf(items[k], "status"), StatusNames)
    ensures forall e :: e in errs ==> e.message == RecordStatusMessage
    ensures |errs| <= |items|
    decreases |items|
  {
    if items == [] then []
    else
      StatusErrors(FieldOf(items[0], "status"), RecordPath(from, "status"), RecordStatusMessage)
      + RecordStatusErrors(items[1..], from + 1)
  }

  /** The two wildcard chains run one after the other, so every student-id
      error comes before every status error. */
  function RecordErrors(items: seq<Field>): (errs: seq<FieldError>)
    ensures errs == [] <==> forall k :: 0 <= k < |items| ==>
              IsMongoId(FieldOf(items[k], "student")) && IsOneOf(FieldOf(items[k], "status"), StatusNames)
    ensures forall i :: 0 <= i < |errs| ==>
              errs[i].message == RecordStudentMessage || errs[i].message == RecordStatusMessage
    ensures forall i, j :: 0 <= i < j < |errs| && errs[j].message == RecordStudentMessage ==>
              errs[i].message == RecordStudentMessage
  {
    var a := RecordStudentErrors(items, 0);
    var b := RecordStatusErrors(items, 0);
    StudentErrorsFirst(a, b);
    a + b
  }

  /** Student-id errors followed by status errors keep that order. */
  lemma StudentErrorsFirst(a: seq<FieldError>, b: seq<FieldError>)
    requires forall e :: e in a ==> e.message == RecordStudentMessage
    requires forall e :: e in b ==> e.message == RecordStatusMessage
    ensures forall i :: 0 <= i < |a + b| ==>
              (a + b)[i].message == RecordStudentMessage || (a + b)[i].message == RecordStatusMessage
    ensures forall i, j :: 0 <= i < j < |a + b| && (a + b)[j].message == RecordStudentMessage ==>
              (a + b)[i].message == RecordStudentMessage
  {
    forall i | 0 <= i < |a| ensures (a + b)[i].message == RecordStudentMessage {
      assert a[i] in a;
    }
    forall i | |a| <= i < |a + b| ensures (a + b)[i].message == RecordStatusMessage {
      assert (a + b)[i] == b[i - |a|] && b[i - |a|] in b;
    }
  }

  /** The bulk attendance chain: subject id, date, a non-empty array of
      records each naming a student id and a Present/Absent status. */
  function MarkBulkAttendanceErrors(body: Body): seq<FieldError> {
    var records := Get(body, "attendanceRecords");
    IdErrors(Get(body, "subject"), "subject")
    + Check(IsIsoDate(Get(body, "date")), "date", "Date must be a valid ISO-8601 date")
    + Check(records.Arr? && |records.items| >= 1, "attendanceRecords", "attendanceRecords must be a non-empty array")
    + (if records.Arr? then RecordErrors(records.items) else [])
  }

  /** The bulk chain passes exactly when the records form a non-empty array
      of well-formed (student, status) items, with a valid subject and date. */
  lemma MarkBulkAttendanceVerdict(body: Body)
    ensures Validate(MarkBulkAttendanceErrors(body)).Pass? <==>
      && IsMongoId(Get(body, "subject")) && IsIsoDate(Get(body, "date"))
      && Get(body, "attendanceRecords").Arr? && |Get(body, "attendanceRecords").items| >= 1
      && forall k :: 0 <= k < |Get(body, "attendanceRecords").items| ==>
           && IsMongoId(FieldOf(Get(body, "attendanceRecords").items[k], "student"))
           && IsOneOf(FieldOf(Get(body, "attendanceRecords").items[k], "status"), StatusNames)
  {
  }

  /** The attendance-update chain. */
  function UpdateAttendanceErrors(id: Field, body: Body): seq<FieldError> {
    IdErrors(id, "id") + StatusErrors(Get(body, "status"), "status", "Status must be Present or Absent")
  }

  /** The broadcast-notice chain. */
  function CreateNotificationErrors(body: Body): seq<FieldError> {
    TrimmedString(body, "title", "Title") + TrimmedString(body, "message", "Message")
  }

  /** The subject-notice chain. */
  function CreateFacultyNotificationErrors(body: Body): seq<FieldError> {
    CreateNotificationErrors(body) + IdErrors(Get(body, "subjectId"), "subjectId")
  }

  /** The assignment-creation chain: `totalMarks` optional, else an integer
      at least 0. */
  function CreateAssignmentErrors(body: Body): seq<FieldError> {
    var total := Get(body, "totalMarks");
    TrimmedString(body, "title", "Title")
    + OptionalTrimmedString(body, "description", "Description")
    + IdErrors(Get(body, "subject"), "subject")
    + Check(IsIsoDate(Get(body, "dueDate")), "dueDate", "Due date must be a valid ISO-8601 date")
    + Check(total.Absent? || IsIntIn(total, 0, None), "totalMarks", "Total marks must be a non-negative integer")
  }

  /** The grading chain: marks required and at least 0, feedback optional. */
  function GradeSubmissionErrors(id: Field, body: Body): seq<FieldError> {
    IdErrors(id, "submissionId")
    + Check(MarkOk(Get(body, "marks")), "marks", "Marks must be a non-negative number")
    + OptionalTrimmedString(body, "feedback", "Feedback")
  }

  /** The grading chain passes exactly for a valid id, marks at least 0 and
      feedback of at most 500 characters when given. */
  lemma GradeSubmissionVerdict(id: Field, body: Body)
    ensures Validate(GradeSubmissionErrors(id, body)).Pass? <==>
      IsMongoId(id) && MarkOk(Get(body, "marks")) && OptionalTextOk(Get(body, "feedback"))
  {
  }

  /** The subject chain passes credits up to 10 (when given) and any
      assignedFaculty that is absent or a well-formed id. */
  lemma CreateSubjectVerdict(body: Body)
    ensures Validate(CreateSubjectErrors(body)).Pass? <==>
      && RequiredTextOk(Get(body, "subjectName")) && RequiredTextOk(Get(body, "subjectCode"))
      && RequiredTextOk(Get(body, "department"))
      && IsIntIn(Get(body, "semester"), 1, Some(12))
      && (Get(body, "assignedFaculty").Absent? || IsMongoId(Get(body, "assignedFaculty")))
      && (Get(body, "credits").Absent? || IsIntIn(Get(body, "credits"), 1, Some(10)))
  {
  }

  /** The update-marks chain passes exactly for a valid id and marks that are
      each either absent or a number at least 0. */
  lemma UpdateMarksVerdict(id: Field, body: Body)
    ensures Validate(UpdateMarksErrors(id, body)).Pass? <==>
      && IsMongoId(id)
      && (Get(body, "internalMarks").Absent? || MarkOk(Get(body, "internalMarks")))
      && (Get(body, "externalMarks").Absent? || MarkOk(Get(body, "externalMarks")))
  {
  }

  /** The single-mark and update attendance chains pass exactly for valid
      ids, an ISO date where one is asked for, and a Present/Absent status. */
  lemma AttendanceVerdicts(id: Field, body: Body)
    ensures Validate(MarkAttendanceErrors(body)).Pass? <==>
      && IsMongoId(Get(body, "student")) && IsMongoId(Get(body, "subject"))
      && IsIsoDate(Get(body, "date")) && IsOneOf(Get(body, "status"), StatusNames)
    ensures Validate(UpdateAttendanceErrors(id, body)).Pass? <==>
      IsMongoId(id) && IsOneOf(Get(body, "status"), StatusNames)
  {
  }

  /** Both notice chains need a trimmed, non-empty title and message of at
      most 500 characters; the subject chain also a valid subject id. */
  lemma NotificationVerdicts(body: Body)
    ensures Validate(CreateNotificationErrors(body)).Pass? <==>
      RequiredTextOk(Get(body, "title")) && RequiredTextOk(Get(body, "message"))
    ensures Validate(CreateFacultyNotificationErrors(body)).Pass? <==>
      && RequiredTextOk(Get(body, "title")) && RequiredTextOk(Get(body, "message"))
      && IsMongoId(Get(body, "subjectId"))
  {
  }

  /** The assignment chain passes an absent `totalMarks` or any integer at
      least 0, and needs a title, a subject id and an ISO due date. */
  lemma CreateAssignmentVerdict(body: Body)
    ensures Validate(CreateAssignmentErrors(body)).Pass? <==>
      && RequiredTextOk(Get(body, "title")) && OptionalTextOk(Get(body, "description"))
      && IsMongoId(Get(body, "subject")) && IsIsoDate(Get(body, "dueDate"))
      && (Get(body, "totalMarks").Absent? || IsIntIn(Get(body, "totalMarks"), 0, None))
  {
  }

  /** An integer text has no fraction, exponent or surrounding space. */
  lemma IntTextIsBare(f: Field, lo: int, hi: Option<int>)
    requires IsIntIn(f, lo, hi)
    ensures RawText(f) != ""
    ensures forall k :: 0 <= k < |RawText(f)| ==> RawText(f)[k] !in {'.', 'e', 'E', ' '}
  {
    var t := RawText(f);
    if t[0] == '+' || t[0] == '-' {
      forall k | 1 <= k < |t| ensures IsDigit(t[k]) {
        assert t[k] == t[1..][k - 1];
      }
    }
  }

  /** The checks read the printed text, not the JSON type: an object is the
      non-empty text `[object Object]`, a six-digit number is a long enough
      password, and `"3.0"` is not an integer. */
  lemma PrintedFormExamples()
    ensures RequiredTextOk(Obj(map[]))
    ensures PasswordErrors(map["password" := Scalar("123456", Some(123456.0), None)]) == []
    ensures !IsIntIn(Scalar("3.0", Some(3.0), None), 1, Some(12))
  {
    TrimOfTrimmed("[object Object]");
    assert Get(map["password" := Scalar("123456", Some(123456.0), None)], "password").text == "123456";
    PlainLengths("123456");
    assert !IsDigit("3.0"[1]);
  }

  /** `isLength` does not count a presentation selector: 500 characters
      followed by U+FE0F pass the 500 bound, though they are 501 code
      points. */
  lemma SelectorsNotCounted(s: string, field: string)
    requires |s| == 500 && !IsSpace(s[0])
    requires forall k :: 0 <= k < |s| ==> !IsPresentationSelector(s[k])
    ensures |s + "\U{FE0F}"| == 501
    ensures TrimmedString(map[field := Scalar(s + "\U{FE0F}", None, None)], field, "") == []
  {
    var t := s + "\U{FE0F}";
    assert Get(map[field := Scalar(t, None, None)], field) == Scalar(t, None, None);
    TrimOfTrimmed(t);
    CountExtremes(s, IsPresentationSelector);
    CountConcat(s, "\U{FE0F}", IsPresentationSelector);
    assert CountChars("\U{FE0F}", IsPresentationSelector) == 1 by {
      assert "\U{FE0F}"[..0] == [];
    }
  }

  /** Twenty-four decimal digits form an id, whatever JSON type carried
      them. */
  lemma DecimalIdAccepted(digits: string, number: Option<real>)
    requires |digits| == 24 && AllDigits(digits)
    ensures IsMongoId(Scalar(digits, number, None))
  {
    assert AllHex(digits);
  }

  /** A `0x` or `0h` prefix in either case, then 22 hexadecimal digits,
      forms an id. */
  lemma PrefixedIdAccepted(prefix: string, digits: string)
    requires prefix in ["0x", "0X", "0h", "0H"]
    requires |digits| == 22 && AllHex(digits)
    ensures IsMongoId(Scalar(prefix + digits, None, None))
  {
    assert (prefix + digits)[2..] == digits;
  }

  /** A prefix alone, or a text with a non-hexadecimal character, is no id. */
  lemma NonIdExamples()
    ensures !IsMongoId(Scalar("0x", None, None))
    ensures !IsMongoId(Scalar("0x0123456789abcdef01234g", None, None))
  {
    var bad := "0x0123456789abcdef01234g";
    assert !IsHexDigit(bad[23]) && bad[2..][21] == bad[23];
  }

  /** `mongoIdParam`. */
  function IdParamErrors(id: Field): seq<FieldError> {
    IdErrors(id, "id")
  }
}
